=== FILE: README.md ===
# IMSAL ledger and access-control model

A Dafny model of the business core of the IMSAL invoicing application. That core consists of:

- the invoice, expense and debt server actions;
- the quick new-invoice page, the invoice editor, the status toggle and the debt card;
- the reports screen and its CSV export;
- the role hook, role management, the team screen, the client and product screens and the onboarding modal;
- the settings, client-update and e-mail actions.

The datastore is a `Store`: one map per table plus an id allocator. Every server action or UI handler is a pure function from a `Store` (and its inputs) to the next `Store`, together with what it returns (`Step`).

The model abstracts the outside world as follows:

- **Datastore answers.** Each insert, update, delete and upload reports success or failure, and that answer is a parameter. A boolean, or an `Option<string>` when the message matters.
- **Browser dialogs and the clock.** The `confirm` answer, the clock (`now`, `nowMs`), `parseFloat`, the number-to-text conversion and the locale date renderer are parameters.
- **Money.** Amounts are exact reals (`Money`), so the 20% VAT and the repayment percentage are exact.
- **Text values.** A missing text value (`null`) and the empty string are the same value `""`. `a || b` on text is `Basics.OrElse`.
- **`.single()` lookups.** A `.single()` lookup on a non-key column succeeds only when exactly one row matches (`Store.Single`). That is how the workspace, client and e-mail-settings lookups behave.

Modules follow the source files:

| file | source |
|---|---|
| `basics.dfy`, `text.dfy` | option/result types, sums, JavaScript string helpers |
| `store.dfy` | the tables and the id allocator |
| `finance.dfy` | src/app/actions/finance.ts |
| `invoices.dfy` | src/app/actions/invoices.ts |
| `invoice_builder.dfy` | src/components/invoices/InvoiceBuilder.tsx |
| `debt_card.dfy` | src/components/dashboard/DebtCard.tsx |
| `status_updater.dfy` | src/components/StatusUpdater.tsx |
| `new_invoice.dfy` | src/app/invoices/new/page.tsx |
| `user_role.dfy` | src/hooks/useUserRole.ts |
| `admin.dfy` | src/app/actions/admin.ts |
| `team_manager.dfy` | src/components/settings/TeamManager.tsx |
| `clients_list.dfy`, `products_list.dfy` | src/components/clients/ClientsList.tsx, src/components/products/ProductsList.tsx |
| `onboarding.dfy` | src/components/OnboardingModal.tsx |
| `settings.dfy`, `update_client.dfy` | src/app/actions/settings.ts, src/app/actions/updateClient.ts |
| `send_email.dfy`, `send_invoice_button.dfy` | src/app/actions/sendEmail.ts, src/components/invoices/SendInvoiceButton.tsx |
| `reports.dfy`, `export.dfy` | src/components/reports/ReportsView.tsx, src/components/reports/ExportButton.tsx |

## Model

| member | source | states |
|---|---|---|
| Store.AppendItems | src/app/actions/invoices.ts:74-81 | a batch insert stores row `i` under the `i`-th fresh id, adds exactly those ids and keeps every earlier row |
| Store.OwnedWorkspace | src/app/actions/invoices.ts:45-51 | the caller's workspace is found exactly when the caller owns one and only one workspace, and the one found is theirs |
| Finance.ReceiptUrl | src/app/actions/finance.ts:22-35 | a receipt URL is recorded exactly when a non-empty file was uploaded without error, and it is that upload's public URL |
| Finance.AddExpense | src/app/actions/finance.ts:8-51 | a successful insert adds one expense under a fresh id with the form's fields and the receipt URL; a failed one changes nothing; ids stay below the allocator |
| Finance.StatusAfterPayment | src/app/actions/finance.ts:68-69 | the debt is 'Paid' exactly when nothing (or less than nothing) remains, otherwise 'Active' |
| Finance.RepaymentExpense | src/app/actions/finance.ts:78-84 | the installment's expense is filed under 'Dette' for the amount paid, dated now, with no receipt, and its description is 'Remboursement: ' followed by the creditor's name |
| Finance.PayDebtInstallment | src/app/actions/finance.ts:54-88 | a missing debt changes nothing; the remaining amount drops by exactly the payment; only that debt changes; the repayment expense is added only when its insert succeeds, even if the debt update failed |
| Finance.CreateDebt | src/app/actions/finance.ts:91-119 | a new debt starts 'Active' with the whole total remaining, under a fresh id, storing the form's creditor, monthly payment, due date and workspace |
| Finance.PaymentKeepsStatusConsistent | src/app/actions/finance.ts:68-74 | a payment keeps every debt's status in agreement with its remaining amount |
| Finance.NewDebtConsistentIffPositive | src/app/actions/finance.ts:105-113 | a new debt's 'Active' status agrees with its remaining amount exactly when the total is positive |
| Finance.OverpaymentGoesNegative | src/app/actions/finance.ts:68-69 | paying more than remains leaves a negative remaining amount and status 'Paid'; nothing clamps it |
| Finance.InstallmentsAccumulate | src/app/actions/finance.ts:64-84 | after a series of installments the remaining amount is the original minus their sum, and one expense per installment was recorded |
| Finance.RemainingStaysInBounds | src/app/actions/finance.ts:68-69 | if the installments are non-negative and add up to at most the total, the remaining amount stays between 0 and the total |
| Invoices.MarkInvoiceAsPaid | src/app/actions/invoices.ts:8-30 | succeeds exactly when the update succeeds; only the status of that one invoice becomes 'Paid'; an absent id is not an error |
| Invoices.MarkPaidIdempotent | src/app/actions/invoices.ts:16-19 | marking an invoice paid again changes nothing more |
| Invoices.ItemRow | src/app/actions/invoices.ts:74-81 | a stored line total is quantity times unit price, whatever total the caller had |
| Invoices.ItemRows | src/app/actions/invoices.ts:74-81 | one stored row per submitted line, in order, each pointing at the new invoice |
| Invoices.Header | src/app/actions/invoices.ts:54-70 | the header row takes the caller's client, number, status, due date and total unchecked, in the caller's workspace |
| Invoices.CreateFullInvoice | src/app/actions/invoices.ts:33-99 | the four error cases and their messages; success exactly when signed in, one workspace is owned and both inserts succeed; on success a header plus one row per line under consecutive fresh ids; when the items fail no item is written and the header is removed only if the compensating delete succeeds |
| Invoices.NoGhostInvoice | src/app/actions/invoices.ts:83-92 | a failed item batch followed by a successful compensating delete leaves no invoice and no item behind |
| Invoices.OrphanedHeaderWithoutItems | src/app/actions/invoices.ts:83-92 | when the compensating delete also fails, the new header stays without items |
| Invoices.HeaderTotalUnchecked | src/app/actions/invoices.ts:54-70 | the header total is stored as given and never compared with the items |
| Invoices.CreateTwiceMakesTwo | src/app/actions/invoices.ts:54-70 | two identical successful submissions create two distinct invoices |
| Invoices.StoredItemsFollowInput | src/app/actions/invoices.ts:74-81 | line `i` is stored under the `i`-th id after the header, for that invoice, with its description and quantity × price |
| InvoiceBuilder.BlankLine | src/components/invoices/InvoiceBuilder.tsx:26-28 | a fresh line carries the given key, no product, an empty description, quantity 1 and price 0, so it adds nothing to the subtotal |
| InvoiceBuilder.Initial | src/components/invoices/InvoiceBuilder.tsx:26-28 | the editor opens with exactly one line, and that line is blank (no product, no description, quantity 1, price 0), so the subtotal is zero |
| InvoiceBuilder.TaxAmount | src/components/invoices/InvoiceBuilder.tsx:31-34 | the tax is exactly a fifth of the subtotal (20%), and lies between zero and the subtotal for a non-negative subtotal |
| InvoiceBuilder.Total | src/components/invoices/InvoiceBuilder.tsx:31-34 | the total is six fifths of the subtotal, i.e. subtotal plus tax |
| InvoiceBuilder.AddLine | src/components/invoices/InvoiceBuilder.tsx:52-54 | adding keeps every existing line, appends one blank line and leaves the subtotal unchanged |
| InvoiceBuilder.RemoveLine | src/components/invoices/InvoiceBuilder.tsx:56-60 | with more than one line, exactly the lines carrying the key are dropped; a single line is never removed |
| InvoiceBuilder.WithoutKeyAppend | src/components/invoices/InvoiceBuilder.tsx:58 | the key filter distributes over concatenation, so the kept lines stay in their original order |
| InvoiceBuilder.WithoutKeySingle | src/components/invoices/InvoiceBuilder.tsx:58 | the filter keeps a single line exactly when its key differs |
| InvoiceBuilder.RemoveLineKeepsOrder | src/components/invoices/InvoiceBuilder.tsx:56-60 | with distinct keys, removing line i's key leaves exactly the lines before and after it, in order |
| InvoiceBuilder.RemoveSubtractsLine | src/components/invoices/InvoiceBuilder.tsx:56-60 | with distinct keys, removing line `j` removes exactly one line and exactly its amount from the subtotal |
| InvoiceBuilder.SharedKeyEmptiesEditor | src/components/invoices/InvoiceBuilder.tsx:52-60 | two lines added in the same millisecond share a key, and removing one empties the editor despite the guard |
| InvoiceBuilder.FindProduct | src/components/invoices/InvoiceBuilder.tsx:62-72 | the product found is the first listed one with that id, and none is found when no listed product has it |
| InvoiceBuilder.SelectProduct | src/components/invoices/InvoiceBuilder.tsx:62-72 | only the chosen line changes; it records the product and takes the product's name and price when the product is listed |
| InvoiceBuilder.UpdateItem | src/components/invoices/InvoiceBuilder.tsx:74-79 | only the edited field of the edited line changes |
| InvoiceBuilder.DescriptionEditKeepsSubtotal | src/components/invoices/InvoiceBuilder.tsx:74-79 | editing a description never changes the subtotal |
| InvoiceBuilder.SelectProductSubtotal | src/components/invoices/InvoiceBuilder.tsx:62-72 | picking a product moves the subtotal by the change in that one line's amount, nothing else |
| InvoiceBuilder.SelectProductLineAmount | src/components/invoices/InvoiceBuilder.tsx:62-72 | picking a catalogued product makes the line's amount its quantity times the product's price |
| InvoiceBuilder.Submit | src/components/invoices/InvoiceBuilder.tsx:81-101 | nothing is sent without a client; otherwise a 'Pending' header whose due date falls back to the invoice date and whose total is the tax-inclusive total, with one item per line |
| InvoiceBuilder.AfterCreate | src/components/invoices/InvoiceBuilder.tsx:95-99 | success goes to the dashboard; any failure shows the fixed alert 'Erreur lors de la création', whatever the action answered |
| InvoiceBuilder.StoredTotalsMatchSubtotal | src/components/invoices/InvoiceBuilder.tsx:31-34 | the stored line totals of a submitted editor add up to its subtotal |
| InvoiceBuilder.HeaderAgreesWithLines | src/components/invoices/InvoiceBuilder.tsx:85-91 | end to end, an invoice created from the editor has a header total equal to 6/5 of the sum of its stored lines |
| DebtCard.ShowsPayButton | src/components/dashboard/DebtCard.tsx:43 | the pay button is offered exactly for 'Active' debts |
| DebtCard.Badge | src/components/dashboard/DebtCard.tsx:26-28 | the badge reads 'PAYÉ' exactly for paid debts, otherwise 'EN COURS' |
| DebtCard.Progress | src/components/dashboard/DebtCard.tsx:17 | the percentage repaid times the total equals 100 × the amount repaid; undefined for a zero total |
| DebtCard.ClickPay | src/components/dashboard/DebtCard.tsx:9-15 | without confirmation nothing changes; with it, one monthly installment is paid to the card's creditor |
| DebtCard.LastInstallmentHidesButton | src/components/dashboard/DebtCard.tsx:9-15 | the installment that covers the rest turns the badge to 'PAYÉ' and hides the button |
| DebtCard.InstallmentRaisesProgress | src/components/dashboard/DebtCard.tsx:17 | an intermediate installment keeps the button and raises the progress by the installment's share of the total |
| DebtCard.OverpaidShowsAboveHundred | src/components/dashboard/DebtCard.tsx:17 | an overpaid debt shows more than 100% |
| StatusUpdater.Target | src/components/StatusUpdater.tsx:24-39 | 'Paid' goes to 'Draft' and every other status goes to 'Paid' |
| StatusUpdater.ButtonLabel | src/components/StatusUpdater.tsx:24-45 | the label reads 'PAID' on paid invoices; on any other invoice it reads 'SAVING...' exactly while loading and 'MARK AS PAID' when idle |
| StatusUpdater.Click | src/components/StatusUpdater.tsx:15-22 | only the status of that invoice is written, and nothing on failure |
| StatusUpdater.TargetTwice | src/components/StatusUpdater.tsx:24-39 | two toggles restore the status exactly for 'Paid' and 'Draft' |
| StatusUpdater.PendingIsNotRestored | src/components/StatusUpdater.tsx:24-39 | a 'Pending' invoice toggled twice ends 'Draft' |
| StatusUpdater.ClickAgreesWithMarkPaid | src/components/StatusUpdater.tsx:15-22 | on an unpaid invoice the button does what the mark-as-paid action does |
| NewInvoice.StatusText | src/app/invoices/new/page.tsx:29-105 | a signed-out caller sees 'Error: You are not logged in.', a failure its message after 'Error: ', and the success line appears exactly for an issued invoice |
| NewInvoice.InvoiceNumber | src/app/invoices/new/page.tsx:95 | the number is 'INV-' followed by at most six characters, exactly six once the clock has six digits |
| NewInvoice.GetOrCreateWorkspace | src/app/invoices/new/page.tsx:38-56 | the caller's single workspace is reused; otherwise a 'My Workspace' owned by the caller is created, or the insert error is reported |
| NewInvoice.GetOrCreateClient | src/app/invoices/new/page.tsx:60-83 | the workspace's single client of that name is reused; otherwise a client with the placeholder e-mail is created in that workspace |
| NewInvoice.HandleSubmit | src/app/invoices/new/page.tsx:17-109 | signed-out callers change nothing; a signed-in submission whose three inserts all succeed issues an invoice, an invoice-insert error never does, and a failed workspace insert is reported with nothing written; the invoice table gains a row only on success, workspaces and clients may gain one each even on failure, and no other table changes |
| NewInvoice.SuccessIssuesDraft | src/app/invoices/new/page.tsx:87-98 | a success issues one 'Draft' invoice with the typed amount, the typed due date and the clock's number, in a workspace the caller owns, for that workspace's client of the typed name |
| NewInvoice.FailureKeepsEarlierWrites | src/app/invoices/new/page.tsx:44-53 | a failure after the workspace was created keeps that workspace: there is no rollback |
| NewInvoice.SecondRunReuses | src/app/invoices/new/page.tsx:38-83 | a second submission with the same client name reuses the workspace and client from the first |
| NewInvoice.FirstRunCreates | src/app/invoices/new/page.tsx:38-98 | a caller with no workspace gets a new workspace and a new client under the next two ids, and the invoice is filed under both |
| NewInvoice.ExistingReused | src/app/invoices/new/page.tsx:38-98 | when the caller owns exactly one workspace holding exactly one client of that name, both are reused and neither table changes |
| NewInvoice.WorkspaceStepCreates | src/app/invoices/new/page.tsx:38-56 | without an owned workspace, the new workspace takes the next id and becomes the caller's only one, leaving the clients untouched |
| NewInvoice.ClientStepCreates | src/app/invoices/new/page.tsx:60-83 | without a client of that name in the workspace, the new client takes the next id and becomes the only one, leaving the workspaces untouched |
| NewInvoice.SubmitFollowsSteps | src/app/invoices/new/page.tsx:38-98 | a submission whose inserts succeed is the workspace step, then the client step, then an invoice filed under their two answers |
| NewInvoice.AmbiguousWorkspaceMultiplies | src/app/invoices/new/page.tsx:38-53 | a caller owning two workspaces is not matched and gets a third |
| NewInvoice.NumbersRepeat | src/app/invoices/new/page.tsx:95 | clocks a million milliseconds apart give the same invoice number |
| NewInvoice.NumbersCollideIff | src/app/invoices/new/page.tsx:95 | for clocks of at least six digits, two numbers are equal exactly when the clocks agree modulo 1,000,000: the number keeps the last six digits of the clock and nothing else |
| UserRole.FlagsFor | src/hooks/useUserRole.ts:31-37 | each flag is set exactly for its own role name |
| UserRole.DeriveRole | src/hooks/useUserRole.ts:6-37 | no role without a user; otherwise the profile's role, or 'viewer' when there is none; admin and editor exactly for those roles |
| UserRole.FlagsExclusive | src/hooks/useUserRole.ts:34-36 | at most one flag is set |
| UserRole.MissingProfileIsViewer | src/hooks/useUserRole.ts:24 | a signed-in user without a profile is a viewer |
| UserRole.UnknownRoleHasNoFlag | src/hooks/useUserRole.ts:34-36 | 'pending' or any other unknown role text sets no flag |
| UserRole.AddButtonShown | src/components/clients/ClientsList.tsx:83 | the add button of the clients screen (and, by the same test at src/components/products/ProductsList.tsx:85, of the products screen) is shown exactly when the role is not 'viewer', so every admin sees it |
| Admin.UpdateUserRole | src/app/actions/admin.ts:7-41 | signed-out and non-admin callers are refused with their messages and change nothing; for an admin only the target's role changes, and success reflects the update |
| Admin.OnlyAdminsChangeRoles | src/app/actions/admin.ts:19-27 | any change implies the caller is an admin, and only the target's role differs |
| Admin.ServerAndHookAgree | src/app/actions/admin.ts:19-27 | the server's admin check accepts exactly the callers the hook flags as admin |
| Admin.AnyTextIsStored | src/app/actions/admin.ts:30-33 | the new role is not validated: any text is stored |
| Admin.SoleAdminLockout | src/app/actions/admin.ts:19-33 | a sole admin demoting themself leaves no admin, and every later role change is refused |
| TeamManager.SelectorEnabled | src/components/settings/TeamManager.tsx:71 | the selector is usable exactly on other users' rows that are not being saved |
| TeamManager.Highlighted | src/components/settings/TeamManager.tsx:41-44 | rows are highlighted exactly for 'pending' profiles |
| TeamManager.ChangeRole | src/components/settings/TeamManager.tsx:16-20 | a disabled selector changes nothing; otherwise the row's id and the chosen option go to the role action |
| TeamManager.OwnRoleUnchanged | src/components/settings/TeamManager.tsx:71 | nobody changes their own role through this screen |
| TeamManager.WritesKnownRoles | src/components/settings/TeamManager.tsx:76-79 | every role this screen writes is pending, viewer, editor or admin |
| TeamManager.AdminKeepsRights | src/components/settings/TeamManager.tsx:71 | an admin using only this screen stays an admin |
| ClientsList.OpenModal | src/components/clients/ClientsList.tsx:86 | opening shows the modal and keeps the list a faithful view of the stored clients |
| ClientsList.ModalCycle | src/components/clients/ClientsList.tsx:75-78 | opening then closing equals closing, and a modal reopened after a close starts from an empty form with the list kept |
| ClientsList.CloseModal | src/components/clients/ClientsList.tsx:75-78 | closing hides the modal and clears every field, keeping the list |
| ClientsList.Submit | src/components/clients/ClientsList.tsx:21-63 | an admin inserts an owned client and lists it first; an editor files one pending client request; anyone else writes nothing; on success the modal closes and the form clears |
| ClientsList.Delete | src/components/clients/ClientsList.tsx:65-73 | only a confirmed admin delete that succeeds removes the client from the table and from the list |
| ClientsList.SubmitKeepsMirror | src/components/clients/ClientsList.tsx:29-43 | every listed row stays equal to the stored client with that id |
| ClientsList.DeleteKeepsMirror | src/components/clients/ClientsList.tsx:65-73 | the list stays a faithful view after a delete |
| ClientsList.PendingSeesButtonButWritesNothing | src/components/clients/ClientsList.tsx:21-63 | a 'pending' user is shown the add button yet their submit writes nothing |
| ClientsList.EditorFilesRequest | src/components/clients/ClientsList.tsx:44-61 | an editor's submit leaves the clients alone and files exactly one pending request holding the form |
| ProductsList.CloseModal | src/components/products/ProductsList.tsx:77-80 | closing hides the modal and clears the three fields |
| ProductsList.Submit | src/components/products/ProductsList.tsx:23-65 | admin inserts an owned product at the parsed price; editor files a request; others write nothing |
| ProductsList.Delete | src/components/products/ProductsList.tsx:67-75 | only a confirmed, successful admin delete removes the product |
| ProductsList.SubmitKeepsMirror | src/components/products/ProductsList.tsx:30-47 | the list stays a faithful view after a submit |
| ProductsList.DeleteKeepsMirror | src/components/products/ProductsList.tsx:67-75 | the list stays a faithful view after a delete |
| ProductsList.NonEditorsWriteNothing | src/components/products/ProductsList.tsx:23-75 | viewers and pending users change nothing by submitting or deleting |
| ProductsList.EditorKeepsTypedPrice | src/components/products/ProductsList.tsx:48-63 | an editor's request keeps the price text as typed, unparsed |
| Onboarding.ShouldOpen | src/components/OnboardingModal.tsx:19-36 | the modal opens exactly for a signed-in user whose profile exists and has no full name |
| Onboarding.Submit | src/components/OnboardingModal.tsx:38-58 | closes exactly when signed in and the update succeeds; only the caller's profile changes, taking the name and the title (or 'Fondateur') as role |
| Onboarding.OnboardingDropsFlags | src/components/OnboardingModal.tsx:46-49 | after onboarding with any title other than a role name the user has no access flag |
| Onboarding.BlankTitleDemotesAdmin | src/components/OnboardingModal.tsx:48 | an admin who leaves the title blank becomes 'Fondateur' and loses admin rights |
| Onboarding.TitleGrantsAdmin | src/components/OnboardingModal.tsx:46-50 | a 'pending' user who types 'admin' as title becomes an admin |
| Onboarding.SubmitKeepingRole | src/components/OnboardingModal.tsx:38-58 | the corrected submit changes only the caller's full name |
| Onboarding.CorrectedKeepsAccess | src/components/OnboardingModal.tsx:38-58 | with the corrected submit nobody's role view changes, and the modal does not reopen |
| Onboarding.SubmitsDifferOnlyInRole | src/components/OnboardingModal.tsx:46-49 | the as-written and corrected submits agree on outcome, rows, name and e-mail |
| Settings.LogoUrl | src/app/actions/settings.ts:26-41 | the new logo is used exactly when a non-empty file was stored; otherwise the current URL is kept |
| Settings.LogoFollowsReceiptRule | src/app/actions/settings.ts:29-40 | the logo rule is the expense-receipt rule with the current URL as fallback |
| Settings.UpdateSettings | src/app/actions/settings.ts:7-61 | without a user nothing changes; only the named workspace, and only when the caller owns it, gets the six fields; no owner ever changes |
| Settings.NonOwnerChangesNothing | src/app/actions/settings.ts:54-55 | a caller who does not own the workspace changes nothing |
| Settings.OwnershipPreserved | src/app/actions/settings.ts:44-55 | every owner's workspaces, and so every workspace lookup, are the same after saving |
| Settings.SaveIdempotent | src/app/actions/settings.ts:44-55 | saving the same form twice equals saving it once |
| UpdateClient.UpdateClient | src/app/actions/updateClient.ts:7-36 | 'Non autorisé' without a user; a datastore error passes its message through; success otherwise, changing the five contact fields only on a client the caller owns |
| UpdateClient.OnlyOwnerEdits | src/app/actions/updateClient.ts:25-29 | any change implies the caller owns that client |
| UpdateClient.WorkspaceClientsAreNotEditable | src/app/actions/updateClient.ts:28-29 | a client created by the new-invoice page has no owner, so it is reported updated but never changes |
| SendEmail.ConfigFor | src/app/actions/sendEmail.ts:30-34 | the settings are found exactly when one row belongs to the user, and they are that user's |
| SendEmail.Secure | src/app/actions/sendEmail.ts:44 | implicit TLS exactly on port 465 |
| SendEmail.FromHeader | src/app/actions/sendEmail.ts:54 | the From header is the sender name (or 'IMSAL Services' when it is blank) between double quotes, then a space and the SMTP login between angle brackets |
| SendEmail.FromHeaderParses | src/app/actions/sendEmail.ts:54 | splitting the From header on double quotes gives back the sender name, or 'IMSAL Services' when it is blank |
| SendEmail.MakeEnvelope | src/app/actions/sendEmail.ts:41-58 | the transport gets the user's host, port, login and password, and the caller's recipient, copy, subject and body unchanged |
| SendEmail.Send | src/app/actions/sendEmail.ts:7-64 | the two refusals with their messages and no send; otherwise one envelope handed over, success exactly when the transport does not fail, failure message prefixed "Erreur d'envoi: " |
| SendEmail.SentWithOwnSettings | src/app/actions/sendEmail.ts:30-50 | mail only ever leaves through a settings row of the caller |
| SendEmail.DuplicateSettingsBlockSending | src/app/actions/sendEmail.ts:30-38 | a user with two settings rows cannot send |
| SendInvoiceButton.Subject | src/components/invoices/SendInvoiceButton.tsx:30 | the subject starts with 'Facture #', ends with ' - IMSAL Services', and has room for exactly the number in between |
| SendInvoiceButton.SubjectNamesInvoice | src/components/invoices/SendInvoiceButton.tsx:30 | the invoice number can be read back from the subject |
| SendInvoiceButton.SubjectInjective | src/components/invoices/SendInvoiceButton.tsx:30 | different invoice numbers give different subjects |
| SendInvoiceButton.Body | src/components/invoices/SendInvoiceButton.tsx:31-38 | the body greets the client by name and quotes '#number' and 'amount Dh' |
| SendInvoiceButton.Compose | src/components/invoices/SendInvoiceButton.tsx:19-38 | a mail is composed exactly when the client has an address and the user confirms; it goes to the client with no copy |
| SendInvoiceButton.Click | src/components/invoices/SendInvoiceButton.tsx:19-43 | no address shows the warning and sends nothing; declining does nothing; otherwise the action's message is shown |
| SendInvoiceButton.ClickMailsTheClient | src/components/invoices/SendInvoiceButton.tsx:19-43 | anything handed to the transport was confirmed, goes only to the client, and names this invoice's number and amount |
| Reports.GroupingOf | src/components/reports/ReportsView.tsx:26-29 | day buckets exactly for the one-month range |
| Reports.KeyLength | src/components/reports/ReportsView.tsx:38 | keys are 10 characters for days and 7 for months |
| Reports.BucketKey | src/components/reports/ReportsView.tsx:51-60 | a key is a prefix of the date, cut to the key length |
| Reports.DaysRefineMonths | src/components/reports/ReportsView.tsx:51-60 | two dates in the same day bucket are in the same month bucket |
| Reports.InvoicesSince | src/components/reports/ReportsView.tsx:31 | exactly the invoices dated in the period are kept, each as many times as it occurs in the input |
| Reports.ExpensesSince | src/components/reports/ReportsView.tsx:32 | exactly the expenses dated in the period are kept, each as many times as it occurs in the input |
| Reports.EmptyChart | src/components/reports/ReportsView.tsx:35-46 | one zero bucket per calendar key |
| Reports.AddInvoice | src/components/reports/ReportsView.tsx:49-57 | buckets are neither added nor removed, and each bucket's profit stays its revenue minus its expenses |
| Reports.AddExpense | src/components/reports/ReportsView.tsx:59-66 | buckets are neither added nor removed, and profit stays revenue minus expenses |
| Reports.Chart | src/components/reports/ReportsView.tsx:35-68 | the chart has exactly the calendar's buckets, each balanced |
| Reports.ChartBucket | src/components/reports/ReportsView.tsx:49-66 | each bucket holds exactly the paid revenue and the expenses dated in it, and their difference |
| Reports.UnbucketedDropped | src/components/reports/ReportsView.tsx:52-61 | records whose key has no bucket change nothing |
| Reports.ComputeKpis | src/components/reports/ReportsView.tsx:72-76 | revenue counts paid invoices only, pending the others; net profit is revenue minus expenses; margin × revenue = 100 × net profit, and 0 without positive revenue |
| Reports.KpisCoverInvoices | src/components/reports/ReportsView.tsx:72-76 | revenue plus pending is the total of all invoices in the period |
| Reports.CategoryOf | src/components/reports/ReportsView.tsx:80 | an expense without category is filed under 'Autre' |
| Reports.Bump | src/components/reports/ReportsView.tsx:81 | adding an amount to a category adds it to that category only and to the total, keeping names distinct |
| Reports.Breakdown | src/components/reports/ReportsView.tsx:79-83 | folding the expenses into the slices adds each category's expenses to its slice and all of them to the slice total, keeping names distinct |
| Reports.PieMatchesExpenses | src/components/reports/ReportsView.tsx:79-84 | one slice per category, each holding that category's expenses, together equal to the expense card |
| Reports.BuildReport | src/components/reports/ReportsView.tsx:21-84 | the screen is computed from the period's records alone: each calendar bucket holds the paid revenue and the expenses dated in it, the cards are the paid, pending and expense totals of the filtered lists with net = revenue − expenses, and the pie's distinct slices hold each category's filtered expenses and add up to the expense card |
| Export.InvoiceRow | src/components/reports/ExportButton.tsx:19-26 | income row for the invoice's total, 'Encaissé' exactly when paid, described by number and client (or 'Client') |
| Export.ExpenseRow | src/components/reports/ExportButton.tsx:27-34 | spending row with the negated amount, category or 'Autre', status 'Payé' |
| Export.Ledger | src/components/reports/ExportButton.tsx:18-34 | one row per invoice then one per expense, in order |
| Export.LedgerNet | src/components/reports/ExportButton.tsx:24-32 | the signed amounts add up to all invoice totals minus all expense amounts |
| Export.Csv | src/components/reports/ExportButton.tsx:38-42 | the header line, then one line per row, joined by line breaks |
| Export.AsWrittenAgreesWithoutQuotes | src/components/reports/ExportButton.tsx:41 | without double quotes in any cell the as-written text is the correctly escaped one |
| Export.QuoteRoundTrip | src/components/reports/ExportButton.tsx:41 | every value reads back from its escaped quoting |
| Export.CsvRoundTrip | src/components/reports/ExportButton.tsx:38-42 | with escaped quoting the data lines read back as exactly the cells of every row |
| Export.EmbeddedQuoteBreaksLine | src/components/reports/ExportButton.tsx:41 | as written, the quoted value `a"b` does not read back as a record |
| Export.QuotedFourthCellBreaks | src/components/reports/ExportButton.tsx:38-42 | as written, a line whose description cell is `a"b` (after three quote-free cells) does not read back |
| Export.EmbeddedQuoteBreaksExport | src/components/reports/ExportButton.tsx:13-42 | the exported line of an expense described `a"b` does not read back as written, while its corrected line reads back as the row's six cells |
| Export.ExportCsv | src/components/reports/ExportButton.tsx:13-42 | the export of an empty ledger is the header line alone |
| Export.ExportReadsBack | src/components/reports/ExportButton.tsx:13-42 | when no cell holds a double quote, the export is the header line then data lines that read back as every ledger row's cells, invoices first |

## Left out

- Datastore and network mechanics: the Supabase client, cookies, `revalidatePath`, router navigation, `alert`, loading flags and spinners. Every datastore or transport answer is a parameter.
- The blob upload and the SMTP transport are oracles. Only "stored or not, with this URL" and "failed or not, with this message" are modelled.
- Calendar arithmetic and locale formatting on the reports screen: `setMonth`, `toISOString`, `toLocaleDateString`, `Intl.NumberFormat` and `toFixed`. The period test and the list of bucket keys are inputs, and the margin is kept as an exact number rather than formatted text.
- The CSV date sort (ExportButton.tsx:35). It parses locale date strings, which is engine-dependent, so the ledger stays in invoices-then-expenses order. The count and the net sum do not depend on the order. The Blob download is also left out.
- The key order of `Object.keys` on the category object: the pie slices are kept in first-appearance order. JavaScript lists integer-like category names first.
- JavaScript floating point: amounts are exact reals. `parseFloat` and the number-to-text conversion are parameters. `parseFloat` returning NaN for unparsable text is not modelled.
- Concurrency is not modelled; only the sequential semantics are. That covers duplicate lazy workspace creation, invoice-number collisions between concurrent sessions, and lost updates in the debt read-modify-write.
- Database defaults and row-level security: `created_at` is a parameter. Row-level security policies are not visible in the code and are not modelled.
- The `data.ts` insert/delete wrappers carry no rules.
- The fetch-and-render server pages and the purely presentational components are not part of this model.
- Onboarding.Submit: the profile lookup that opens the modal and the update are separate requests, so another session could change the profile in between. The model treats them as one state.

## Findings

| source | as written | input that shows it | evidently intended | confidence | as-written member | corrected member |
|---|---|---|---|---|---|---|
| src/components/OnboardingModal.tsx:46-49 | the "Rôle / Titre" field (placeholder "Ex: CEO, Manager...") is written into `profiles.role`, the column every access check reads | a 'pending' user types `admin`; an admin leaves it blank and becomes 'Fondateur' | record the job title without touching the access role | high, not executed | Onboarding.TitleGrantsAdmin | Onboarding.CorrectedKeepsAccess |
| src/components/reports/ExportButton.tsx:41 | each cell is wrapped in double quotes without doubling the double quotes inside it (section 2 of RFC 4180) | an expense described `a"b` | quoted cells that read back as the original values | medium, not executed | Export.EmbeddedQuoteBreaksExport | Export.CsvRoundTrip |

=== FILE: admin.dfy ===
/** The role-management server action: only an admin may set the role of a
    profile, and any text is accepted as the new role. */
module Admin {
  import opened Basics
  import opened Store
  import opened UserRole

  const UNAUTHORIZED := "Unauthorized"
  const FORBIDDEN := "Forbidden: You must be an admin."
  const UPDATE_FAILED := "Failed to update role"

  /** `updateUserRole(userId, newRole)` called by `caller`. */
  function UpdateUserRole(s: Store, caller: Option<UserId>, target: UserId, newRole: string, updateOk: bool)
    : (r: Step<Result<()>>)
    ensures caller.None? ==> r == Step(s, Err(UNAUTHORIZED))
    ensures caller.Some? && RoleOf(s, caller.value) != ADMIN ==> r == Step(s, Err(FORBIDDEN))
    ensures caller.Some? && RoleOf(s, caller.value) == ADMIN && !updateOk ==> r == Step(s, Err(UPDATE_FAILED))
    ensures r.out.Ok? <==> caller.Some? && RoleOf(s, caller.value) == ADMIN && updateOk
    ensures r.store == s.(profiles := r.store.profiles)
    ensures r.store.profiles.Keys == s.profiles.Keys
    ensures forall u :: u in s.profiles && u != target ==> r.store.profiles[u] == s.profiles[u]
    ensures r.out.Ok? && target in s.profiles ==> r.store.profiles[target] == s.profiles[target].(role := newRole)
  {
    if caller.None? then Step(s, Err(UNAUTHORIZED))
    else if RoleOf(s, caller.value) != ADMIN then Step(s, Err(FORBIDDEN))
    else if !updateOk then Step(s, Err(UPDATE_FAILED))
    else if target in s.profiles then Step(s.(profiles := s.profiles[target := s.profiles[target].(role := newRole)]), Ok(()))
    else Step(s, Ok(()))
  }

  /** Only an admin changes anything, and then only the target's role. */
  lemma OnlyAdminsChangeRoles(s: Store, caller: Option<UserId>, target: UserId, newRole: string, updateOk: bool)
    ensures var r := UpdateUserRole(s, caller, target, newRole, updateOk);
      r.store != s ==> (caller.Some? && DeriveRole(s, caller).isAdmin && target in s.profiles
        && RoleOf(r.store, target) == newRole)
  {
  }

  /** The server's admin check and the hook's admin flag agree. */
  lemma ServerAndHookAgree(s: Store, caller: UserId, target: UserId, newRole: string)
    ensures UpdateUserRole(s, Some(caller), target, newRole, true).out.Ok? <==> DeriveRole(s, Some(caller)).isAdmin
  {
  }

  /** The new role is not checked against the known roles: an admin can
      store any text, which then gives its holder no flag. */
  lemma AnyTextIsStored(s: Store, caller: UserId, target: UserId)
    requires RoleOf(s, caller) == ADMIN && target in s.profiles && target != caller
    ensures var r := UpdateUserRole(s, Some(caller), target, "owner", true);
      var v := DeriveRole(r.store, Some(target));
      r.out.Ok? && v.role == Some("owner") && !v.isAdmin && !v.isEditor && !v.isViewer
  {
  }

  /** The sole admin demoting themself leaves no admin, after which every
      role change is refused. */
  lemma SoleAdminLockout(s: Store, caller: UserId, newRole: string, anyone: UserId, target: UserId, role: string, ok: bool)
    requires RoleOf(s, caller) == ADMIN && newRole != ADMIN
    requires forall u :: u in s.profiles && s.profiles[u].role == ADMIN ==> u == caller
    ensures var s1 := UpdateUserRole(s, Some(caller), caller, newRole, true).store;
      && (forall u :: u in s1.profiles ==> s1.profiles[u].role != ADMIN)
      && UpdateUserRole(s1, Some(anyone), target, role, ok) == Step(s1, Err(FORBIDDEN))
  {
  }
}

=== FILE: basics.dfy ===
/** Small shared vocabulary: optional values, error-or-value results and the
    `{ success, message }` replies that several server actions return. */
module Basics {

  /** A value that may be absent (a JavaScript `null` or `undefined`). */
  datatype Option<+T> = None | Some(value: T) {
    function GetOr(default: T): T {
      match this
      case Some(v) => v
      case None => default
    }
  }

  /** The `{ error: ... }` / success shape of the invoice and admin actions. */
  datatype Result<+T> = Ok(value: T) | Err(error: string)

  /** The `{ success, message }` shape of the client-update, mark-paid and e-mail actions. */
  datatype Reply = Reply(success: bool, message: string)

  /** JavaScript's `a || b` on strings: the empty string (or a missing value,
      modelled as the empty string) is falsy. */
  function OrElse(a: string, b: string): string {
    if a != "" then a else b
  }

  /** Sum of a sequence of exact amounts (`reduce((a, x) => a + x, 0)`). */
  function Sum(xs: seq<real>): real
  {
    if |xs| == 0 then 0.0 else xs[0] + Sum(xs[1..])
  }

  lemma {:induction false} SumAppend(xs: seq<real>, ys: seq<real>)
    ensures Sum(xs + ys) == Sum(xs) + Sum(ys)
    decreases |xs|
  {
    if |xs| > 0 {
      assert (xs + ys)[1..] == xs[1..] + ys;
      SumAppend(xs[1..], ys);
    } else {
      assert xs + ys == ys;
    }
  }
}

=== FILE: clients_list.dfy ===
/** The clients screen: its in-memory list, the add modal and its form. An
    admin's submit inserts the client directly; an editor's submit files a
    pending request for an admin; any other role writes nothing. Only an
    admin can delete. */
module ClientsList {
  import opened Basics
  import opened Store
  import opened UserRole

  datatype ClientForm = ClientForm(name: string, email: string, phone: string, address: string)

  /** The component's state: the listed rows, whether the modal is open, and the form. */
  datatype Screen = Screen(rows: seq<Row<Client>>, modalOpen: bool, form: ClientForm)

  const EMPTY_FORM := ClientForm("", "", "", "")
  const REQUEST_PENDING := "pending"

  /** The header button: show the modal; the list and the form are not touched. */
  function OpenModal(v: Screen): (r: Screen)
    ensures r.modalOpen
    ensures forall clients :: Mirrors(v.rows, clients) ==> Mirrors(r.rows, clients)
  {
    v.(modalOpen := true)
  }

  /** `closeModal`: close and clear every field. */
  function CloseModal(v: Screen): (r: Screen)
    ensures !r.modalOpen && r.rows == v.rows
    ensures r.form.name == "" && r.form.email == "" && r.form.phone == "" && r.form.address == ""
  {
    Screen(v.rows, false, EMPTY_FORM)
  }

  /** The row an admin's submit inserts: the form plus the caller as owner. */
  function NewClient(f: ClientForm, owner: UserId): Client {
    Client(None, Some(owner), f.name, f.email, f.phone, f.address, "")
  }

  /** `handleSubmit` with the role flags the screen loaded. */
  function Submit(s: Store, v: Screen, user: Option<UserId>, flags: RoleView, insertOk: bool): (r: Step<Screen>)
    ensures user.None? || (!flags.isAdmin && !flags.isEditor) || !insertOk ==> r == Step(s, v)
    ensures user.Some? && flags.isAdmin && insertOk ==>
      && r.store == InsertClient(s, NewClient(v.form, user.value))
      && r.out == CloseModal(v).(rows := [Row(s.nextId, NewClient(v.form, user.value))] + v.rows)
    ensures user.Some? && !flags.isAdmin && flags.isEditor && insertOk ==>
      && r.store == InsertRequest(s, ResourceRequest(user.value,
           ClientProposal(v.form.name, v.form.email, v.form.phone, v.form.address), REQUEST_PENDING))
      && r.out == CloseModal(v)
  {
    if user.None? || !insertOk then Step(s, v)
    else if flags.isAdmin then
      var c := NewClient(v.form, user.value);
      Step(InsertClient(s, c), CloseModal(v).(rows := [Row(s.nextId, c)] + v.rows))
    else if flags.isEditor then
      var req := ResourceRequest(user.value, ClientProposal(v.form.name, v.form.email, v.form.phone, v.form.address), REQUEST_PENDING);
      Step(InsertRequest(s, req), CloseModal(v))
    else Step(s, v)
  }

  /** `handleDelete(id)`: admins only, after confirmation; the row leaves the
      list only when the datastore reports no error. */
  function Delete(s: Store, v: Screen, flags: RoleView, id: Id, confirmed: bool, deleteOk: bool): (r: Step<Screen>)
    ensures !flags.isAdmin || !confirmed || !deleteOk ==> r == Step(s, v)
    ensures flags.isAdmin && confirmed && deleteOk ==>
      && r.store == s.(clients := s.clients - {id})
      && r.out == v.(rows := WithoutId(v.rows, id))
  {
    if flags.isAdmin && confirmed && deleteOk
    then Step(s.(clients := s.clients - {id}), v.(rows := WithoutId(v.rows, id)))
    else Step(s, v)
  }

  // -----------------------------------------------------------------------

  /** Every listed row shows the stored client under that id. */
  predicate Mirrors(rows: seq<Row<Client>>, clients: map<Id, Client>) {
    forall i :: 0 <= i < |rows| ==> rows[i].id in clients && clients[rows[i].id] == rows[i].value
  }

  /** Opening then closing is the same as closing; and a modal opened after
      a close always starts from an empty form. */
  lemma ModalCycle(v: Screen)
    ensures CloseModal(OpenModal(v)) == CloseModal(v)
    ensures var r := OpenModal(CloseModal(v));
      r.modalOpen && r.rows == v.rows && r.form == EMPTY_FORM
  {
  }

  /** Submitting keeps the list a faithful view of the stored clients. */
  lemma SubmitKeepsMirror(s: Store, v: Screen, user: Option<UserId>, flags: RoleView, insertOk: bool)
    requires Valid(s) && Mirrors(v.rows, s.clients)
    ensures var r := Submit(s, v, user, flags, insertOk);
      Mirrors(r.out.rows, r.store.clients)
  {
    var r := Submit(s, v, user, flags, insertOk);
    if user.Some? && flags.isAdmin && insertOk {
      forall i | 0 <= i < |r.out.rows|
        ensures r.out.rows[i].id in r.store.clients && r.store.clients[r.out.rows[i].id] == r.out.rows[i].value
      {
        if i > 0 {
          assert r.out.rows[i] == v.rows[i - 1];
        }
      }
    }
  }

  /** Deleting keeps the list a faithful view of the stored clients. */
  lemma DeleteKeepsMirror(s: Store, v: Screen, flags: RoleView, id: Id, confirmed: bool, deleteOk: bool)
    requires Mirrors(v.rows, s.clients)
    ensures var r := Delete(s, v, flags, id, confirmed, deleteOk);
      Mirrors(r.out.rows, r.store.clients)
  {
    var r := Delete(s, v, flags, id, confirmed, deleteOk);
    if flags.isAdmin && confirmed && deleteOk {
      forall i | 0 <= i < |r.out.rows|
        ensures r.out.rows[i].id in r.store.clients && r.store.clients[r.out.rows[i].id] == r.out.rows[i].value
      {
        assert r.out.rows[i] in v.rows;
      }
    }
  }

  /** A 'pending' user sees the add button, yet submitting writes nothing. */
  lemma PendingSeesButtonButWritesNothing(s: Store, v: Screen, user: UserId, insertOk: bool)
    requires RoleOf(s, user) == PENDING_ROLE
    ensures var flags := DeriveRole(s, Some(user));
      AddButtonShown(flags) && Submit(s, v, Some(user), flags, insertOk) == Step(s, v)
  {
  }

  /** An editor's submit leaves the client table alone and files exactly one
      pending request carrying the form. */
  lemma EditorFilesRequest(s: Store, v: Screen, user: UserId)
    requires Valid(s) && RoleOf(s, user) == EDITOR
    ensures var r := Submit(s, v, Some(user), DeriveRole(s, Some(user)), true);
      && r.store.clients == s.clients
      && AddsRow(s.requests, r.store.requests, s.nextId)
      && r.store.requests[s.nextId].status == REQUEST_PENDING
      && r.store.requests[s.nextId].details.ClientProposal?
      && r.store.requests[s.nextId].details.name == v.form.name
  {
  }
}

=== FILE: debt_card.dfy ===
/** The debt card: its status badge, its repayment progress, and the pay
    button that (after the user confirms) records one monthly installment. */
module DebtCard {
  import opened Basics
  import opened Store
  import opened Finance

  /** The pay button is rendered only for an 'Active' debt. */
  function ShowsPayButton(d: Debt): (shown: bool)
    ensures shown <==> d.status == ACTIVE
  {
    d.status == ACTIVE
  }

  /** The badge text. */
  function Badge(d: Debt): (text: string)
    ensures text == "PAYÉ" <==> d.status == PAID
    ensures text == "PAYÉ" || text == "EN COURS"
  {
    if d.status == PAID then "PAYÉ" else "EN COURS"
  }

  /** Percentage of the total already repaid. A zero total divides by zero
      (not a number or an infinity in the browser), modelled as `None`. */
  function Progress(d: Debt): (p: Option<real>)
    ensures p.None? <==> d.totalAmount == 0.0
    ensures p.Some? ==> p.value * d.totalAmount == (d.totalAmount - d.remainingAmount) * 100.0
  {
    if d.totalAmount == 0.0 then None
    else Some((d.totalAmount - d.remainingAmount) / d.totalAmount * 100.0)
  }

  /** `handlePay` on the card showing `d` (the row `debtId` as it was when the
      card was rendered): a click is possible only on a rendered button, and
      nothing happens unless the user confirms; then one installment of the
      card's monthly payment is paid to the card's creditor. */
  function ClickPay(
    s: Store, debtId: Id, d: Debt, workspaceId: Id, confirmed: bool, now: string,
    updateOk: bool, insertOk: bool): (r: Store)
    ensures !confirmed || !ShowsPayButton(d) ==> r == s
    ensures confirmed && ShowsPayButton(d) ==>
      r == PayDebtInstallment(s, debtId, d.monthlyPayment, d.creditorName, workspaceId, now, updateOk, insertOk)
  {
    if confirmed && ShowsPayButton(d)
    then PayDebtInstallment(s, debtId, d.monthlyPayment, d.creditorName, workspaceId, now, updateOk, insertOk)
    else s
  }

  // -----------------------------------------------------------------------

  /** A newly created debt with a non-zero total shows 0% repaid, an 'EN
      COURS' badge and a pay button. */
  lemma NewDebtCard(s: Store, form: DebtForm)
    requires form.totalAmount != 0.0
    ensures var d := CreateDebt(s, form, true).debts[s.nextId];
      Progress(d) == Some(0.0) && Badge(d) == "EN COURS" && ShowsPayButton(d)
  {
  }

  /** When the card's installment covers what is left, a successful payment
      turns the badge to 'PAYÉ' and removes the pay button. */
  lemma LastInstallmentHidesButton(
    s: Store, debtId: Id, workspaceId: Id, now: string, insertOk: bool)
    requires debtId in s.debts
    requires ShowsPayButton(s.debts[debtId])
    requires s.debts[debtId].monthlyPayment >= s.debts[debtId].remainingAmount
    ensures var r := ClickPay(s, debtId, s.debts[debtId], workspaceId, true, now, true, insertOk);
      Badge(r.debts[debtId]) == "PAYÉ" && !ShowsPayButton(r.debts[debtId])
  {
  }

  /** While the remaining amount is above one installment, a successful
      payment keeps the button and raises the progress by the installment's
      share of the total. */
  lemma InstallmentRaisesProgress(
    s: Store, debtId: Id, workspaceId: Id, now: string, insertOk: bool)
    requires debtId in s.debts
    requires ShowsPayButton(s.debts[debtId])
    requires s.debts[debtId].totalAmount != 0.0
    requires s.debts[debtId].monthlyPayment < s.debts[debtId].remainingAmount
    ensures var before := s.debts[debtId];
      var after := ClickPay(s, debtId, before, workspaceId, true, now, true, insertOk).debts[debtId];
      && ShowsPayButton(after)
      && Progress(after).Some?
      && (Progress(after).value - Progress(before).value) * before.totalAmount == before.monthlyPayment * 100.0
  {
    var before := s.debts[debtId];
    var after := ClickPay(s, debtId, before, workspaceId, true, now, true, insertOk).debts[debtId];
    assert after.totalAmount == before.totalAmount;
    assert after.remainingAmount == before.remainingAmount - before.monthlyPayment;
    var t := before.totalAmount;
    assert (Progress(after).value - Progress(before).value) * t
        == Progress(after).value * t - Progress(before).value * t;
  }

  /** An overpaid debt (negative remaining amount, positive total) shows more
      than 100% repaid. */
  lemma OverpaidShowsAboveHundred(d: Debt)
    requires d.totalAmount > 0.0 && d.remainingAmount < 0.0
    ensures Progress(d).Some? && Progress(d).value > 100.0
  {
    ScaledAboveHundred(Progress(d).value, d.totalAmount, d.remainingAmount);
  }

  lemma ScaledAboveHundred(p: real, total: real, remaining: real)
    requires total > 0.0 && remaining < 0.0
    requires p * total == (total - remaining) * 100.0
    ensures p > 100.0
  {
  }
}

=== FILE: export.dfy ===
/** The CSV export of the reports screen: one ledger row per invoice and
    per expense, then a CSV text with a fixed header line and one line of six
    double-quoted fields per row. */
module Export {
  import opened Basics
  import opened Store
  import opened Text
  import Reports

  const REVENUE_TYPE := "Revenu"
  const EXPENSE_TYPE := "Dépense"
  const SALE_CATEGORY := "Vente"
  const OTHER_CATEGORY := "Autre"
  const DEFAULT_CLIENT := "Client"
  const COLLECTED := "Encaissé"
  const AWAITING := "En attente"
  const SETTLED := "Payé"
  const HEADERS := ["Date", "Type", "Categorie", "Description", "Montant (MAD)", "Statut"]

  /** An invoice together with its client's name ("" when the join found none). */
  datatype LedgerInvoice = LedgerInvoice(invoice: Invoice, clientName: string)

  /** One ledger row. `amount` is signed: income positive, spending negative. */
  datatype LedgerRow = LedgerRow(date: string, kind: string, category: string, description: string, amount: Money, status: string)

  /** The row for an invoice. `localDate` renders a timestamp as a local date. */
  function InvoiceRow(li: LedgerInvoice, localDate: string -> string): (row: LedgerRow)
    ensures row.kind == REVENUE_TYPE && row.category == SALE_CATEGORY
    ensures row.amount == li.invoice.totalAmount
    ensures row.status == COLLECTED <==> li.invoice.status == PAID
    ensures row.status == COLLECTED || row.status == AWAITING
    ensures row.description == "Facture #" + li.invoice.number + " - " + OrElse(li.clientName, DEFAULT_CLIENT)
  {
    LedgerRow(localDate(li.invoice.createdAt), REVENUE_TYPE, SALE_CATEGORY,
              "Facture #" + li.invoice.number + " - " + OrElse(li.clientName, DEFAULT_CLIENT),
              li.invoice.totalAmount, if li.invoice.status == PAID then COLLECTED else AWAITING)
  }

  /** The row for an expense: its amount with the sign flipped. */
  function ExpenseRow(e: Expense, localDate: string -> string): (row: LedgerRow)
    ensures row.kind == EXPENSE_TYPE && row.status == SETTLED
    ensures row.amount == -e.amount
    ensures row.category == Reports.CategoryOf(e)
    ensures row.description == e.description
  {
    LedgerRow(localDate(e.date), EXPENSE_TYPE, OrElse(e.category, OTHER_CATEGORY), e.description, -e.amount, SETTLED)
  }

  /** Invoices first, then expenses, each in input order. */
  function Ledger(invs: seq<LedgerInvoice>, exps: seq<Expense>, localDate: string -> string): (rows: seq<LedgerRow>)
    ensures |rows| == |invs| + |exps|
    ensures forall i :: 0 <= i < |invs| ==> rows[i] == InvoiceRow(invs[i], localDate)
    ensures forall j :: 0 <= j < |exps| ==> rows[|invs| + j] == ExpenseRow(exps[j], localDate)
  {
    seq(|invs|, i requires 0 <= i < |invs| => InvoiceRow(invs[i], localDate))
    + seq(|exps|, j requires 0 <= j < |exps| => ExpenseRow(exps[j], localDate))
  }

  function Invoices(invs: seq<LedgerInvoice>): (r: seq<Invoice>)
    ensures |r| == |invs| && forall i :: 0 <= i < |invs| ==> r[i] == invs[i].invoice
  {
    seq(|invs|, i requires 0 <= i < |invs| => invs[i].invoice)
  }

  function Net(rows: seq<LedgerRow>): Money {
    if |rows| == 0 then 0.0 else rows[0].amount + Net(rows[1..])
  }

  lemma {:induction false} NetAppend(a: seq<LedgerRow>, b: seq<LedgerRow>)
    ensures Net(a + b) == Net(a) + Net(b)
  {
    if |a| > 0 {
      assert (a + b)[1..] == a[1..] + b;
      NetAppend(a[1..], b);
    } else {
      assert a + b == b;
    }
  }

  lemma {:induction false} NetOfInvoiceRows(invs: seq<LedgerInvoice>, localDate: string -> string)
    ensures Net(Ledger(invs, [], localDate)) == Reports.InvoiceTotal(Invoices(invs))
  {
    if |invs| > 0 {
      NetOfInvoiceRows(invs[1..], localDate);
      assert Ledger(invs, [], localDate)[1..] == Ledger(invs[1..], [], localDate);
      assert Invoices(invs)[1..] == Invoices(invs[1..]);
    }
  }

  lemma {:induction false} NetOfExpenseRows(exps: seq<Expense>, localDate: string -> string)
    ensures Net(Ledger([], exps, localDate)) == -Reports.ExpenseTotal(exps)
  {
    if |exps| > 0 {
      NetOfExpenseRows(exps[1..], localDate);
      assert Ledger([], exps, localDate)[1..] == Ledger([], exps[1..], localDate);
    }
  }

  /** The signed amounts of the ledger add up to all invoice totals minus all
      expense amounts. */
  lemma LedgerNet(invs: seq<LedgerInvoice>, exps: seq<Expense>, localDate: string -> string)
    ensures Net(Ledger(invs, exps, localDate)) == Reports.InvoiceTotal(Invoices(invs)) - Reports.ExpenseTotal(exps)
  {
    assert Ledger(invs, exps, localDate) == Ledger(invs, [], localDate) + Ledger([], exps, localDate);
    NetAppend(Ledger(invs, [], localDate), Ledger([], exps, localDate));
    NetOfInvoiceRows(invs, localDate);
    NetOfExpenseRows(exps, localDate);
  }

  // -----------------------------------------------------------------------
  // CSV text

  /** The six cells of a row, in header order. `showNumber` is how the
      browser prints a number inside a template string. */
  function Cells(row: LedgerRow, showNumber: Money -> string): (cells: seq<string>)
    ensures |cells| == |HEADERS|
  {
    [row.date, row.kind, row.category, row.description, showNumber(row.amount), row.status]
  }

  /** The quoting as written: the value between double quotes, unescaped. */
  function QuoteAsWritten(v: string): (q: string)
    ensures |q| == |v| + 2 && q[0] == '"' && q[|q| - 1] == '"'
  {
    "\"" + v + "\""
  }

  /** Section 2 of RFC 4180: a double quote inside a quoted field is written twice. */
  function Escape(v: string): (r: string)
    ensures '"' !in v ==> r == v
    ensures |r| >= |v|
  {
    if |v| == 0 then "" else (if v[0] == '"' then "\"\"" else [v[0]]) + Escape(v[1..])
  }

  /** The corrected quoting. */
  function Quote(v: string): (q: string)
    ensures '"' !in v ==> q == QuoteAsWritten(v)
  {
    "\"" + Escape(v) + "\""
  }

  function QuoteAll(cells: seq<string>, escaped: bool): (r: seq<string>)
    ensures |r| == |cells|
    ensures forall i :: 0 <= i < |cells| ==> r[i] == if escaped then Quote(cells[i]) else QuoteAsWritten(cells[i])
  {
    seq(|cells|, i requires 0 <= i < |cells| => if escaped then Quote(cells[i]) else QuoteAsWritten(cells[i]))
  }

  function Lines(rows: seq<LedgerRow>, showNumber: Money -> string, escaped: bool): (lines: seq<string>)
    ensures |lines| == |rows|
    ensures forall i :: 0 <= i < |rows| ==> lines[i] == JoinWith(QuoteAll(Cells(rows[i], showNumber), escaped), ',')
  {
    seq(|rows|, i requires 0 <= i < |rows| => JoinWith(QuoteAll(Cells(rows[i], showNumber), escaped), ','))
  }

  /** The exported text: `escaped` false is the export as written, true the
      corrected one. */
  function Csv(rows: seq<LedgerRow>, showNumber: Money -> string, escaped: bool): (csv: string)
    ensures |rows| == 0 ==> csv == JoinWith(HEADERS, ',')
    ensures |rows| > 0 ==> csv == JoinWith(HEADERS, ',') + "\n" + JoinWith(Lines(rows, showNumber, escaped), '\n')
  {
    JoinWith([JoinWith(HEADERS, ',')] + Lines(rows, showNumber, escaped), '\n')
  }

  /** Without double quotes in any cell the two quotings produce the same text. */
  lemma AsWrittenAgreesWithoutQuotes(rows: seq<LedgerRow>, showNumber: Money -> string)
    requires forall i, k :: 0 <= i < |rows| && 0 <= k < |HEADERS| ==> '"' !in Cells(rows[i], showNumber)[k]
    ensures Csv(rows, showNumber, false) == Csv(rows, showNumber, true)
  {
    assert Lines(rows, showNumber, false) == Lines(rows, showNumber, true) by {
      forall i | 0 <= i < |rows|
        ensures Lines(rows, showNumber, false)[i] == Lines(rows, showNumber, true)[i]
      {
        var cells := Cells(rows[i], showNumber);
        assert QuoteAll(cells, false) == QuoteAll(cells, true) by {
          forall k | 0 <= k < |cells| ensures QuoteAll(cells, false)[k] == QuoteAll(cells, true)[k] {
            assert '"' !in cells[k];
          }
        }
      }
    }
  }

  // -----------------------------------------------------------------------
  // Reading the data lines back (quoted fields as in section 2 of RFC 4180)

  /** Reads the rest of a quoted field after its opening quote: its value
      and the text after the closing quote. */
  function ReadQuoted(s: string): (r: Option<(string, string)>)
    ensures r.Some? ==> |r.value.1| < |s|
  {
    if |s| == 0 then None
    else if s[0] == '"' then
      if |s| >= 2 && s[1] == '"' then
        match ReadQuoted(s[2..])
        case Some((v, rest)) => Some(("\"" + v, rest))
        case None => None
      else Some(("", s[1..]))
    else
      match ReadQuoted(s[1..])
      case Some((v, rest)) => Some(([s[0]] + v, rest))
      case None => None
  }

  function ReadField(s: string): (r: Option<(string, string)>)
    ensures r.Some? ==> |r.value.1| < |s|
  {
    if |s| > 0 && s[0] == '"' then ReadQuoted(s[1..]) else None
  }

  /** Reads comma-separated quoted fields up to the end or a line break. */
  function ReadRecord(s: string): (r: Option<(seq<string>, string)>)
    ensures r.Some? ==> |r.value.1| < |s| && |r.value.0| >= 1
    decreases |s|
  {
    match ReadField(s)
    case None => None
    case Some((v, rest)) =>
      if |rest| > 0 && rest[0] == ',' then
        match ReadRecord(rest[1..])
        case Some((vs, tail)) => Some(([v] + vs, tail))
        case None => None
      else Some(([v], rest))
  }

  /** Reads line-separated records to the end of the text. */
  function ReadRecords(s: string): (r: Option<seq<seq<string>>>)
    decreases |s|
  {
    match ReadRecord(s)
    case None => None
    case Some((fields, rest)) =>
      if |rest| == 0 then Some([fields])
      else if rest[0] == '\n' then
        match ReadRecords(rest[1..])
        case Some(more) => Some([fields] + more)
        case None => None
      else None
  }

  lemma {:induction false} ReadEscaped(v: string, tail: string)
    requires |tail| == 0 || tail[0] != '"'
    ensures ReadQuoted(Escape(v) + "\"" + tail) == Some((v, tail))
  {
    var s := Escape(v) + "\"" + tail;
    if |v| == 0 {
      assert s == "\"" + tail;
      assert s[1..] == tail;
    } else if v[0] == '"' {
      assert s == "\"\"" + (Escape(v[1..]) + "\"" + tail);
      assert s[2..] == Escape(v[1..]) + "\"" + tail;
      ReadEscaped(v[1..], tail);
      assert "\"" + v[1..] == v;
    } else {
      assert s == [v[0]] + (Escape(v[1..]) + "\"" + tail);
      assert s[1..] == Escape(v[1..]) + "\"" + tail;
      ReadEscaped(v[1..], tail);
      assert [v[0]] + v[1..] == v;
    }
  }

  /** Every value comes back from its corrected quoting, whatever it contains. */
  lemma QuoteRoundTrip(v: string, tail: string)
    requires |tail| == 0 || tail[0] != '"'
    ensures ReadField(Quote(v) + tail) == Some((v, tail))
  {
    var s := Quote(v) + tail;
    assert s[1..] == Escape(v) + "\"" + tail;
    ReadEscaped(v, tail);
  }

  lemma {:induction false} RecordRoundTrip(vals: seq<string>, tail: string)
    requires |vals| >= 1
    requires |tail| == 0 || (tail[0] != ',' && tail[0] != '"')
    ensures ReadRecord(JoinWith(QuoteAll(vals, true), ',') + tail) == Some((vals, tail))
    decreases |vals|
  {
    var qs := QuoteAll(vals, true);
    if |vals| == 1 {
      assert JoinWith(qs, ',') == Quote(vals[0]);
      QuoteRoundTrip(vals[0], tail);
      assert vals == [vals[0]];
    } else {
      var more := JoinWith(qs[1..], ',') + tail;
      assert qs[1..] == QuoteAll(vals[1..], true);
      assert JoinWith(qs, ',') + tail == Quote(vals[0]) + ([','] + more);
      QuoteRoundTrip(vals[0], [','] + more);
      assert ([','] + more)[1..] == more;
      RecordRoundTrip(vals[1..], tail);
      assert [vals[0]] + vals[1..] == vals;
    }
  }

  lemma {:induction false} RecordsRoundTrip(records: seq<seq<string>>, lines: seq<string>)
    requires |records| >= 1 && |lines| == |records|
    requires forall i :: 0 <= i < |records| ==> |records[i]| >= 1 && lines[i] == JoinWith(QuoteAll(records[i], true), ',')
    ensures ReadRecords(JoinWith(lines, '\n')) == Some(records)
    decreases |records|
  {
    if |records| == 1 {
      assert JoinWith(lines, '\n') == lines[0] + "";
      RecordRoundTrip(records[0], "");
      assert ReadRecord(lines[0] + "") == Some((records[0], ""));
      assert records == [records[0]];
    } else {
      var more := JoinWith(lines[1..], '\n');
      assert JoinWith(lines, '\n') == lines[0] + (['\n'] + more);
      RecordRoundTrip(records[0], ['\n'] + more);
      assert (['\n'] + more)[1..] == more;
      RecordsRoundTrip(records[1..], lines[1..]);
      assert [records[0]] + records[1..] == records;
    }
  }

  /** With the corrected quoting, the data lines read back as exactly the
      cells of every ledger row, in order, whatever the cells contain. */
  lemma CsvRoundTrip(rows: seq<LedgerRow>, showNumber: Money -> string)
    requires |rows| >= 1
    ensures var data := JoinWith(Lines(rows, showNumber, true), '\n');
      && Csv(rows, showNumber, true) == JoinWith(HEADERS, ',') + "\n" + data
      && ReadRecords(data) == Some(seq(|rows|, i requires 0 <= i < |rows| => Cells(rows[i], showNumber)))
  {
    var records := seq(|rows|, i requires 0 <= i < |rows| => Cells(rows[i], showNumber));
    RecordsRoundTrip(records, Lines(rows, showNumber, true));
  }

  /** As written, a description containing a double quote (`a"b`) yields a
      line that no longer reads back as a record. */
  lemma EmbeddedQuoteBreaksLine()
    ensures ReadRecords(QuoteAsWritten("a\"b")) == None
  {
    var s := QuoteAsWritten("a\"b");
    assert s == "\"a\"b\"";
    ReadStopsInsideQuote("");
    assert s == "\"a\"b\"" + "";
  }

  /** A quoted field `"a"b"` reads as `a`, leaving `b"` and whatever followed. */
  lemma ReadStopsInsideQuote(r: string)
    ensures ReadRecord("\"a\"b\"" + r) == Some((["a"], "b\"" + r))
  {
    var s := "\"a\"b\"" + r;
    assert s[1..] == ['a'] + ("\"b\"" + r);
    assert ("\"b\"" + r)[1] == 'b';
    assert ("\"b\"" + r)[1..] == "b\"" + r;
    assert ReadQuoted("\"b\"" + r) == Some(("", "b\"" + r));
    assert ['a'] + "" == "a";
    assert ReadField(s) == Some(("a", "b\"" + r));
  }

  /** A quote-free first field in front of a readable record adds itself to
      that record. */
  lemma ReadRecordCons(c: string, more: string)
    requires '"' !in c && ReadRecord(more).Some?
    ensures ReadRecord(QuoteAsWritten(c) + [','] + more)
      == Some(([c] + ReadRecord(more).value.0, ReadRecord(more).value.1))
  {
    QuoteRoundTrip(c, [','] + more);
    assert QuoteAsWritten(c) + [','] + more == Quote(c) + ([','] + more);
    assert ([','] + more)[1..] == more;
  }

  /** A line of six cells whose fourth is `a"b` and whose first three hold
      no double quote does not read back under the quoting as written. */
  lemma QuotedFourthCellBreaks(cells: seq<string>)
    requires |cells| == 6 && cells[3] == "a\"b"
    requires forall k :: 0 <= k < 3 ==> '"' !in cells[k]
    ensures ReadRecords(JoinWith(QuoteAll(cells, false), ',')) == None
  {
    var qs := QuoteAll(cells, false);
    var r := [','] + JoinWith(qs[4..], ',');
    var t3 := JoinWith(qs[3..], ',');
    assert t3 == qs[3] + r;
    assert qs[3] == "\"a\"b\"";
    ReadStopsInsideQuote(r);
    var t2 := JoinWith(qs[2..], ',');
    assert t2 == QuoteAsWritten(cells[2]) + [','] + t3;
    ReadRecordCons(cells[2], t3);
    var t1 := JoinWith(qs[1..], ',');
    assert t1 == QuoteAsWritten(cells[1]) + [','] + t2;
    ReadRecordCons(cells[1], t2);
    var line := JoinWith(qs, ',');
    assert line == QuoteAsWritten(cells[0]) + [','] + t1;
    ReadRecordCons(cells[0], t1);
  }

  /** The same defect on the export itself: the data line of an expense
      described `a"b` (with a quote-free date and category) does not read
      back, while its corrected line reads back as the row's six cells. */
  lemma EmbeddedQuoteBreaksExport(e: Expense, localDate: string -> string, showNumber: Money -> string)
    requires e.description == "a\"b"
    requires '"' !in localDate(e.date) && '"' !in e.category
    ensures ReadRecords(Lines(Ledger([], [e], localDate), showNumber, false)[0]) == None
    ensures ReadRecords(Lines(Ledger([], [e], localDate), showNumber, true)[0])
      == Some([Cells(ExpenseRow(e, localDate), showNumber)])
  {
    var row := ExpenseRow(e, localDate);
    SingleExpenseLedger(e, localDate);
    var cells := Cells(row, showNumber);
    ExpenseCellsQuoteFree(e, localDate, showNumber);
    QuotedFourthCellBreaks(cells);
    SingleRowLines(row, showNumber);
    RecordRoundTrip(cells, "");
  }

  /** The date, type and category cells of an expense row hold no double
      quote when its date rendering and category hold none. */
  lemma ExpenseCellsQuoteFree(e: Expense, localDate: string -> string, showNumber: Money -> string)
    requires '"' !in localDate(e.date) && '"' !in e.category
    ensures var cells := Cells(ExpenseRow(e, localDate), showNumber);
      |cells| == 6 && cells[3] == e.description && forall k :: 0 <= k < 3 ==> '"' !in cells[k]
  {
    assert '"' !in OTHER_CATEGORY && '"' !in EXPENSE_TYPE;
  }

  lemma SingleExpenseLedger(e: Expense, localDate: string -> string)
    ensures Ledger([], [e], localDate) == [ExpenseRow(e, localDate)]
  {
  }

  /** The one data line of a one-row ledger, under either quoting. */
  lemma SingleRowLines(row: LedgerRow, showNumber: Money -> string)
    ensures Lines([row], showNumber, false)[0] == JoinWith(QuoteAll(Cells(row, showNumber), false), ',')
    ensures Lines([row], showNumber, true)[0] == JoinWith(QuoteAll(Cells(row, showNumber), true), ',') + ""
  {
    assert JoinWith(QuoteAll(Cells(row, showNumber), true), ',') + "" == JoinWith(QuoteAll(Cells(row, showNumber), true), ',');
  }

  /** The exported text as written. */
  function ExportCsv(invs: seq<LedgerInvoice>, exps: seq<Expense>, localDate: string -> string, showNumber: Money -> string)
    : (csv: string)
    ensures |invs| + |exps| == 0 ==> csv == JoinWith(HEADERS, ',')
  {
    Csv(Ledger(invs, exps, localDate), showNumber, false)
  }

  /** When no cell of the ledger holds a double quote, the export as written
      is the corrected export, so its data lines read back as every ledger
      row's cells, in order: invoices first, then expenses. */
  lemma ExportReadsBack(invs: seq<LedgerInvoice>, exps: seq<Expense>, localDate: string -> string, showNumber: Money -> string)
    requires |invs| + |exps| >= 1
    requires var rows := Ledger(invs, exps, localDate);
      forall i, k :: 0 <= i < |rows| && 0 <= k < |HEADERS| ==> '"' !in Cells(rows[i], showNumber)[k]
    ensures var rows := Ledger(invs, exps, localDate);
      var data := JoinWith(Lines(rows, showNumber, true), '\n');
      && ExportCsv(invs, exps, localDate, showNumber) == JoinWith(HEADERS, ',') + "\n" + data
      && ReadRecords(data) == Some(seq(|rows|, i requires 0 <= i < |rows| => Cells(rows[i], showNumber)))
  {
    var rows := Ledger(invs, exps, localDate);
    AsWrittenAgreesWithoutQuotes(rows, showNumber);
    CsvRoundTrip(rows, showNumber);
  }
}

=== FILE: finance.dfy ===
/** The finance server actions: recording an expense (with an optional
    receipt upload), paying one installment of a debt, and creating a debt.
    The datastore's answers (insert or update error, upload error) are
    parameters; `now` is the server clock's ISO timestamp. */
module Finance {
  import opened Basics
  import opened Store

  const DEBT_CATEGORY := "Dette"
  const REPAYMENT_PREFIX := "Remboursement: "

  datatype ExpenseForm = ExpenseForm(amount: Money, description: string, category: string, workspaceId: Id)

  datatype DebtForm = DebtForm(
    creditor: string,
    totalAmount: Money,
    monthlyPayment: Money,
    dueDate: string,
    workspaceId: Id)

  /** The receipt reference stored on a new expense. */
  function ReceiptUrl(receipt: Option<FileUpload>): (r: Option<string>)
    ensures r.Some? <==> receipt.Some? && receipt.value.size > 0 && receipt.value.stored
    ensures r.Some? ==> r.value == receipt.value.publicUrl
  {
    match receipt
    case None => None
    case Some(f) => if f.size > 0 && f.stored then Some(f.publicUrl) else None
  }

  /** `addExpense`: upload the receipt if one was given, then insert one
      expense dated now. An upload error only loses the receipt; an insert
      error is logged and leaves the store as it was. */
  function AddExpense(s: Store, form: ExpenseForm, receipt: Option<FileUpload>, now: string, insertOk: bool): (r: Store)
    ensures !insertOk ==> r == s
    ensures insertOk ==> r == s.(expenses := r.expenses, nextId := s.nextId + 1)
    ensures insertOk && Valid(s) ==> AddsRow(s.expenses, r.expenses, s.nextId)
    ensures insertOk ==> (s.nextId in r.expenses && r.expenses[s.nextId] ==
      Expense(form.workspaceId, form.amount, form.description, form.category, ReceiptUrl(receipt), now))
    ensures Valid(s) ==> Valid(r)
  {
    if insertOk then
      InsertExpense(s, Expense(form.workspaceId, form.amount, form.description, form.category, ReceiptUrl(receipt), now))
    else s
  }

  /** The status a debt takes after a payment leaves `remaining` to pay. */
  function StatusAfterPayment(remaining: Money): (status: string)
    ensures status == PAID <==> remaining <= 0.0
    ensures status == PAID || status == ACTIVE
  {
    if remaining <= 0.0 then PAID else ACTIVE
  }

  /** The expense that records a debt installment: filed under 'Dette', for
      the amount paid, with a description from which the creditor's name can
      be read back after the "Remboursement: " prefix. */
  function RepaymentExpense(workspaceId: Id, amount: Money, creditorName: string, now: string): (e: Expense)
    ensures e.workspaceId == workspaceId && e.amount == amount && e.date == now
    ensures e.category == DEBT_CATEGORY && e.receiptUrl.None?
    ensures |e.description| == |REPAYMENT_PREFIX| + |creditorName|
    ensures e.description[..|REPAYMENT_PREFIX|] == REPAYMENT_PREFIX
    ensures e.description[|REPAYMENT_PREFIX|..] == creditorName
  {
    Expense(workspaceId, amount, REPAYMENT_PREFIX + creditorName, DEBT_CATEGORY, None, now)
  }

  /** `payDebtInstallment`: read the debt; if it exists, decrement its
      remaining amount (no floor at zero) and derive its status, then insert
      one "Dette" expense. The update and the insert are independent writes:
      an update error does not stop the insert and nothing is rolled back. */
  function PayDebtInstallment(
    s: Store, debtId: Id, amount: Money, creditorName: string, workspaceId: Id, now: string,
    updateOk: bool, insertOk: bool): (r: Store)
    ensures debtId !in s.debts ==> r == s
    ensures debtId in s.debts ==> r == s.(debts := r.debts, expenses := r.expenses, nextId := r.nextId)
    // the debt
    ensures r.debts.Keys == s.debts.Keys
    ensures forall j :: j in s.debts && j != debtId ==> r.debts[j] == s.debts[j]
    ensures debtId in s.debts && updateOk ==>
      && r.debts[debtId].remainingAmount == s.debts[debtId].remainingAmount - amount
      && (r.debts[debtId].status == PAID <==> r.debts[debtId].remainingAmount <= 0.0)
      && (r.debts[debtId].status == PAID || r.debts[debtId].status == ACTIVE)
      && r.debts[debtId] == s.debts[debtId].(remainingAmount := r.debts[debtId].remainingAmount,
                                             status := r.debts[debtId].status)
    ensures !updateOk ==> r.debts == s.debts
    // the expense
    ensures debtId in s.debts && insertOk ==>
      && r.nextId == s.nextId + 1
      && s.nextId in r.expenses
      && r.expenses[s.nextId] == RepaymentExpense(workspaceId, amount, creditorName, now)
      && r.expenses[s.nextId].category == DEBT_CATEGORY
      && r.expenses[s.nextId].amount == amount
    ensures debtId in s.debts && insertOk && Valid(s) ==> AddsRow(s.expenses, r.expenses, s.nextId)
    ensures !insertOk ==> r.expenses == s.expenses && r.nextId == s.nextId
    ensures Valid(s) ==> Valid(r)
  {
    if debtId !in s.debts then s
    else
      var d := s.debts[debtId];
      var newRemaining := d.remainingAmount - amount;
      var s1 := if updateOk
        then s.(debts := s.debts[debtId := d.(remainingAmount := newRemaining,
                                              status := StatusAfterPayment(newRemaining))])
        else s;
      if insertOk then InsertExpense(s1, RepaymentExpense(workspaceId, amount, creditorName, now)) else s1
  }

  /** `createDebt`: insert one debt whose remaining amount starts equal to
      its total and whose status starts 'Active'; the form is not validated. */
  function CreateDebt(s: Store, form: DebtForm, insertOk: bool): (r: Store)
    ensures !insertOk ==> r == s
    ensures insertOk ==> r == s.(debts := r.debts, nextId := s.nextId + 1)
    ensures insertOk && Valid(s) ==> AddsRow(s.debts, r.debts, s.nextId)
    ensures insertOk ==>
      && s.nextId in r.debts
      && r.debts[s.nextId].remainingAmount == r.debts[s.nextId].totalAmount == form.totalAmount
      && r.debts[s.nextId].status == ACTIVE
      && r.debts[s.nextId].creditorName == form.creditor
      && r.debts[s.nextId].monthlyPayment == form.monthlyPayment
      && r.debts[s.nextId].workspaceId == form.workspaceId
      && r.debts[s.nextId].dueDate == form.dueDate
    ensures Valid(s) ==> Valid(r)
  {
    if insertOk then
      InsertDebt(s, Debt(form.workspaceId, form.creditor, form.totalAmount, form.totalAmount,
                         form.monthlyPayment, form.dueDate, ACTIVE))
    else s
  }

  // -----------------------------------------------------------------------
  // Properties over several calls

  /** A debt's status agrees with its remaining amount. */
  predicate StatusMatches(d: Debt) {
    d.status == PAID <==> d.remainingAmount <= 0.0
  }

  /** A payment keeps every debt's status in agreement with its remaining
      amount, whether or not its own update succeeds. */
  lemma PaymentKeepsStatusConsistent(
    s: Store, debtId: Id, amount: Money, creditorName: string, workspaceId: Id, now: string,
    updateOk: bool, insertOk: bool)
    requires forall j :: j in s.debts ==> StatusMatches(s.debts[j])
    ensures var r := PayDebtInstallment(s, debtId, amount, creditorName, workspaceId, now, updateOk, insertOk);
      forall j :: j in r.debts ==> StatusMatches(r.debts[j])
  {
  }

  /** A freshly created debt is consistent exactly when its total is positive:
      a zero or negative total gives an 'Active' debt with nothing left to pay. */
  lemma NewDebtConsistentIffPositive(s: Store, form: DebtForm)
    ensures var r := CreateDebt(s, form, true);
      StatusMatches(r.debts[s.nextId]) <==> form.totalAmount > 0.0
  {
  }

  /** Paying more than is left drives the remaining amount below zero and
      marks the debt paid. */
  lemma OverpaymentGoesNegative(
    s: Store, debtId: Id, amount: Money, creditorName: string, workspaceId: Id, now: string, insertOk: bool)
    requires debtId in s.debts && amount > s.debts[debtId].remainingAmount
    ensures var r := PayDebtInstallment(s, debtId, amount, creditorName, workspaceId, now, true, insertOk);
      r.debts[debtId].remainingAmount < 0.0 && r.debts[debtId].status == PAID
  {
  }

  /** A series of installments against one debt, all writes succeeding. */
  function PayEach(s: Store, debtId: Id, payments: seq<Money>, creditorName: string, workspaceId: Id, now: string): Store
    decreases |payments|
  {
    if |payments| == 0 then s
    else PayEach(PayDebtInstallment(s, debtId, payments[0], creditorName, workspaceId, now, true, true),
                 debtId, payments[1..], creditorName, workspaceId, now)
  }

  /** After a series of installments the remaining amount is the original
      one minus their sum (a delta per payment, never recomputed), and each
      installment has added exactly one expense. */
  lemma {:induction false} InstallmentsAccumulate(
    s: Store, debtId: Id, payments: seq<Money>, creditorName: string, workspaceId: Id, now: string)
    requires Valid(s) && debtId in s.debts
    ensures var r := PayEach(s, debtId, payments, creditorName, workspaceId, now);
      && Valid(r)
      && debtId in r.debts
      && r.debts[debtId].remainingAmount == s.debts[debtId].remainingAmount - Sum(payments)
      && |r.expenses| == |s.expenses| + |payments|
      && r.debts[debtId].totalAmount == s.debts[debtId].totalAmount
    decreases |payments|
  {
    if |payments| > 0 {
      var s1 := PayDebtInstallment(s, debtId, payments[0], creditorName, workspaceId, now, true, true);
      assert |s1.expenses| == |s.expenses| + 1 by {
        assert s1.expenses.Keys == s.expenses.Keys + {s.nextId};
      }
      InstallmentsAccumulate(s1, debtId, payments[1..], creditorName, workspaceId, now);
    }
  }

  /** Starting from a newly created debt with a non-negative total,
      non-negative installments that add up to no more than the total keep
      the remaining amount between zero and the total. */
  lemma {:induction false} RemainingStaysInBounds(
    s: Store, form: DebtForm, payments: seq<Money>, creditorName: string, now: string)
    requires Valid(s) && form.totalAmount >= 0.0
    requires forall i :: 0 <= i < |payments| ==> payments[i] >= 0.0
    requires Sum(payments) <= form.totalAmount
    ensures var d := s.nextId;
      var r := PayEach(CreateDebt(s, form, true), d, payments, creditorName, form.workspaceId, now);
      d in r.debts && 0.0 <= r.debts[d].remainingAmount <= r.debts[d].totalAmount
  {
    var s0 := CreateDebt(s, form, true);
    InstallmentsAccumulate(s0, s.nextId, payments, creditorName, form.workspaceId, now);
    SumNonNegative(payments);
  }

  lemma {:induction false} SumNonNegative(xs: seq<real>)
    requires forall i :: 0 <= i < |xs| ==> xs[i] >= 0.0
    ensures Sum(xs) >= 0.0
    decreases |xs|
  {
    if |xs| > 0 {
      SumNonNegative(xs[1..]);
    }
  }
}

=== FILE: invoice_builder.dfy ===
/** The invoice editor: an in-memory list of lines that can be added,
    removed, filled from the product catalogue and edited field by field; the
    live subtotal, 20% VAT and total; and the submission that turns the
    editor's state into a `createFullInvoice` call. */
module InvoiceBuilder {
  import opened Basics
  import opened Store
  import opened Invoices

  /** One editor line; `key` is the millisecond timestamp at which it was added. */
  datatype Line = Line(key: int, productId: Option<Id>, description: string, quantity: real, unitPrice: Money)

  /** One field edit from the line's inputs (`updateItem(index, field, value)`). */
  datatype Edit = SetDescription(description: string) | SetQuantity(quantity: real) | SetUnitPrice(unitPrice: Money)

  /** What the editor does after the action answers. */
  datatype Feedback = GoToDashboard | Alert(text: string)

  const TAX_RATE: real := 0.20
  const CHOOSE_CLIENT := "Veuillez sélectionner un client"
  const CREATE_FAILED := "Erreur lors de la création"

  /** A fresh line: no product, no description, quantity 1, price 0. */
  function BlankLine(key: int): (l: Line)
    ensures l.key == key && l.productId.None? && l.description == ""
    ensures l.quantity == 1.0 && l.unitPrice == 0.0
    ensures l.quantity * l.unitPrice == 0.0
  {
    Line(key, None, "", 1.0, 0.0)
  }

  /** The editor opens with a single blank line. */
  function Initial(now: int): (lines: seq<Line>)
    ensures |lines| == 1 && lines[0].key == now
    ensures lines[0].productId.None? && lines[0].description == ""
    ensures lines[0].quantity == 1.0 && lines[0].unitPrice == 0.0
    ensures Subtotal(lines) == 0.0
  {
    [BlankLine(now)]
  }

  function LineTotal(l: Line): Money {
    l.quantity * l.unitPrice
  }

  /** `items.reduce((sum, item) => sum + item.quantity * item.unit_price, 0)`. */
  function Subtotal(lines: seq<Line>): Money
  {
    if |lines| == 0 then 0.0 else LineTotal(lines[0]) + Subtotal(lines[1..])
  }

  /** VAT on the subtotal. */
  function TaxAmount(subtotal: Money): (tax: Money)
    ensures tax * 5.0 == subtotal
    ensures subtotal >= 0.0 ==> 0.0 <= tax <= subtotal
  {
    subtotal * TAX_RATE
  }

  /** Subtotal plus VAT: six fifths of the subtotal. */
  function Total(subtotal: Money): (total: Money)
    ensures total * 5.0 == subtotal * 6.0
    ensures total - TaxAmount(subtotal) == subtotal
  {
    subtotal + TaxAmount(subtotal)
  }

  lemma {:induction false} SubtotalAppend(a: seq<Line>, b: seq<Line>)
    ensures Subtotal(a + b) == Subtotal(a) + Subtotal(b)
    decreases |a|
  {
    if |a| == 0 {
      assert a + b == b;
    } else {
      assert (a + b)[1..] == a[1..] + b;
      SubtotalAppend(a[1..], b);
    }
  }

  /** `handleAddItem`: append a blank line; the subtotal does not move. */
  function AddLine(lines: seq<Line>, now: int): (r: seq<Line>)
    ensures |r| == |lines| + 1
    ensures r[..|lines|] == lines && r[|lines|] == BlankLine(now)
    ensures Subtotal(r) == Subtotal(lines)
  {
    SubtotalAppend(lines, [BlankLine(now)]);
    lines + [BlankLine(now)]
  }

  /** `items.filter(item => item.id !== key)`. */
  function WithoutKey(lines: seq<Line>, key: int): (r: seq<Line>)
    ensures |r| <= |lines|
    ensures forall l :: l in r <==> l in lines && l.key != key
  {
    if |lines| == 0 then []
    else if lines[0].key == key then WithoutKey(lines[1..], key)
    else [lines[0]] + WithoutKey(lines[1..], key)
  }

  /** The filter distributes over concatenation, so the lines kept stay in
      their original order. */
  lemma {:induction false} WithoutKeyAppend(a: seq<Line>, b: seq<Line>, key: int)
    ensures WithoutKey(a + b, key) == WithoutKey(a, key) + WithoutKey(b, key)
    decreases |a|
  {
    if |a| == 0 {
      assert a + b == b;
    } else {
      assert (a + b)[1..] == a[1..] + b;
      WithoutKeyAppend(a[1..], b, key);
    }
  }

  /** On a single line the filter keeps it exactly when its key differs. */
  lemma WithoutKeySingle(l: Line, key: int)
    ensures WithoutKey([l], key) == if l.key == key then [] else [l]
  {
    assert [l][1..] == [];
  }

  /** A filter by a key no line carries keeps every line. */
  lemma {:induction false} WithoutAbsentKey(lines: seq<Line>, key: int)
    requires forall i :: 0 <= i < |lines| ==> lines[i].key != key
    ensures WithoutKey(lines, key) == lines
    decreases |lines|
  {
    if |lines| > 0 {
      WithoutAbsentKey(lines[1..], key);
    }
  }

  /** With distinct keys, removing the `i`-th line's key leaves exactly the
      other lines, in their original order. */
  lemma RemoveLineKeepsOrder(lines: seq<Line>, i: nat)
    requires DistinctKeys(lines) && i < |lines| && |lines| > 1
    ensures RemoveLine(lines, lines[i].key) == lines[..i] + lines[i+1..]
  {
    var before, after := lines[..i], lines[i+1..];
    assert lines == before + [lines[i]] + after;
    assert forall j :: 0 <= j < |before| ==> before[j] == lines[j];
    assert forall j :: 0 <= j < |after| ==> after[j] == lines[i + 1 + j];
    WithoutKeyAround(before, lines[i], after);
  }

  /** Filtering out the key of a line that is the only one carrying it
      leaves the lines around it. */
  lemma WithoutKeyAround(before: seq<Line>, l: Line, after: seq<Line>)
    requires forall j :: 0 <= j < |before| ==> before[j].key != l.key
    requires forall j :: 0 <= j < |after| ==> after[j].key != l.key
    ensures WithoutKey(before + [l] + after, l.key) == before + after
  {
    var head := before + [l];
    WithoutKeyAppend(head, after, l.key);
    WithoutKeyAppend(before, [l], l.key);
    WithoutKeySingle(l, l.key);
    WithoutAbsentKey(before, l.key);
    WithoutAbsentKey(after, l.key);
    assert WithoutKey(head, l.key) == before + [];
    assert before + [] == before;
  }

  /** The lines a removal by `key` drops. */
  function WithKey(lines: seq<Line>, key: int): (r: seq<Line>)
    ensures forall l :: l in r <==> l in lines && l.key == key
  {
    if |lines| == 0 then []
    else if lines[0].key == key then [lines[0]] + WithKey(lines[1..], key)
    else WithKey(lines[1..], key)
  }

  /** `handleRemoveItem`: drop the lines with this key, but only when there
      is more than one line. */
  function RemoveLine(lines: seq<Line>, key: int): (r: seq<Line>)
    ensures |lines| <= 1 ==> r == lines
    ensures |lines| > 1 ==> forall l :: l in r <==> l in lines && l.key != key
  {
    if |lines| > 1 then WithoutKey(lines, key) else lines
  }

  predicate DistinctKeys(lines: seq<Line>) {
    forall i, j :: 0 <= i < j < |lines| ==> lines[i].key != lines[j].key
  }

  /** Removing by key splits the subtotal between the lines kept and the
      lines dropped. */
  lemma {:induction false} SubtotalSplitsByKey(lines: seq<Line>, key: int)
    ensures Subtotal(WithoutKey(lines, key)) + Subtotal(WithKey(lines, key)) == Subtotal(lines)
    decreases |lines|
  {
    if |lines| > 0 {
      SubtotalSplitsByKey(lines[1..], key);
      if lines[0].key == key {
        assert Subtotal([lines[0]] + WithKey(lines[1..], key)) == LineTotal(lines[0]) + Subtotal(WithKey(lines[1..], key)) by {
          SubtotalAppend([lines[0]], WithKey(lines[1..], key));
        }
      } else {
        assert Subtotal([lines[0]] + WithoutKey(lines[1..], key)) == LineTotal(lines[0]) + Subtotal(WithoutKey(lines[1..], key)) by {
          SubtotalAppend([lines[0]], WithoutKey(lines[1..], key));
        }
      }
    }
  }

  /** With distinct keys, only the one line carrying the key is dropped. */
  lemma {:induction false} WithKeyDistinct(lines: seq<Line>, j: nat)
    requires DistinctKeys(lines) && j < |lines|
    ensures WithKey(lines, lines[j].key) == [lines[j]]
    decreases |lines|
  {
    var key := lines[j].key;
    if j == 0 {
      assert forall l :: l in lines[1..] ==> l.key != key;
      WithKeyAbsent(lines[1..], key);
    } else {
      assert DistinctKeys(lines[1..]) by {
        forall a, b | 0 <= a < b < |lines[1..]|
          ensures lines[1..][a].key != lines[1..][b].key
        {
          assert lines[1..][a] == lines[a + 1] && lines[1..][b] == lines[b + 1];
        }
      }
      assert lines[1..][j - 1] == lines[j];
      WithKeyDistinct(lines[1..], j - 1);
    }
  }

  lemma {:induction false} WithKeyAbsent(lines: seq<Line>, key: int)
    requires forall l :: l in lines ==> l.key != key
    ensures WithKey(lines, key) == []
    decreases |lines|
  {
    if |lines| > 0 {
      assert lines[0] in lines;
      assert forall l :: l in lines[1..] ==> l in lines;
      WithKeyAbsent(lines[1..], key);
    }
  }

  /** Removing line `j` of a list with distinct keys takes exactly that
      line's total off the subtotal and leaves one line fewer. */
  lemma RemoveSubtractsLine(lines: seq<Line>, j: nat)
    requires DistinctKeys(lines) && j < |lines| && |lines| > 1
    ensures Subtotal(RemoveLine(lines, lines[j].key)) == Subtotal(lines) - LineTotal(lines[j])
    ensures |RemoveLine(lines, lines[j].key)| == |lines| - 1
  {
    var key := lines[j].key;
    SubtotalSplitsByKey(lines, key);
    WithKeyDistinct(lines, j);
    assert Subtotal([lines[j]]) == LineTotal(lines[j]);
    LengthSplitsByKey(lines, key);
  }

  lemma {:induction false} LengthSplitsByKey(lines: seq<Line>, key: int)
    ensures |WithoutKey(lines, key)| + |WithKey(lines, key)| == |lines|
    decreases |lines|
  {
    if |lines| > 0 {
      LengthSplitsByKey(lines[1..], key);
    }
  }

  /** The guard counts lines, not keys: two lines added within the same
      millisecond share a key, and removing one of them empties the editor. */
  lemma SharedKeyEmptiesEditor(now: int)
    ensures var lines := AddLine(Initial(now), now);
      |lines| == 2 && RemoveLine(lines, now) == []
  {
    var lines := AddLine(Initial(now), now);
    assert lines == [BlankLine(now), BlankLine(now)];
    assert lines[1..] == [BlankLine(now)];
    assert lines[1..][1..] == [];
    assert WithoutKey(lines[1..], now) == [];
  }

  /** `products.find(p => p.id === productId)`: the first listed product with
      that id. The "custom line" option carries no id and finds nothing. */
  function FindProduct(products: seq<Row<Product>>, productId: Option<Id>): (r: Option<Product>)
    ensures r.None? <==> productId.None? || forall i :: 0 <= i < |products| ==> products[i].id != productId.value
    ensures r.Some? ==> exists i :: (0 <= i < |products| && products[i] == Row(productId.value, r.value)
      && forall k :: 0 <= k < i ==> products[k].id != productId.value)
  {
    if productId.None? || |products| == 0 then None
    else if products[0].id == productId.value then Some(products[0].value)
    else
      var r := FindProduct(products[1..], productId);
      if r.Some? then
        ghost var i :| 0 <= i < |products[1..]| && products[1..][i] == Row(productId.value, r.value)
          && forall k :: 0 <= k < i ==> products[1..][k].id != productId.value;
        assert products[i + 1] == Row(productId.value, r.value);
        r
      else r
  }

  /** `handleProductSelect`: record the chosen product on line `index` and,
      when it is in the catalogue, copy its name and price onto the line. */
  function SelectProduct(lines: seq<Line>, index: nat, productId: Option<Id>, products: seq<Row<Product>>): (r: seq<Line>)
    requires index < |lines|
    ensures |r| == |lines|
    ensures forall i :: 0 <= i < |lines| && i != index ==> r[i] == lines[i]
    ensures r[index].key == lines[index].key && r[index].quantity == lines[index].quantity
    ensures r[index].productId == productId
    ensures FindProduct(products, productId).Some? ==>
      r[index].description == FindProduct(products, productId).value.name
      && r[index].unitPrice == FindProduct(products, productId).value.price
    ensures FindProduct(products, productId).None? ==>
      r[index].description == lines[index].description && r[index].unitPrice == lines[index].unitPrice
  {
    var l := lines[index].(productId := productId);
    var p := FindProduct(products, productId);
    lines[index := if p.Some? then l.(description := p.value.name, unitPrice := p.value.price) else l]
  }

  /** `updateItem`: change one field of line `index`. */
  function UpdateItem(lines: seq<Line>, index: nat, edit: Edit): (r: seq<Line>)
    requires index < |lines|
    ensures |r| == |lines|
    ensures forall i :: 0 <= i < |lines| && i != index ==> r[i] == lines[i]
    ensures r[index].key == lines[index].key && r[index].productId == lines[index].productId
    ensures r[index].description == if edit.SetDescription? then edit.description else lines[index].description
    ensures r[index].quantity == if edit.SetQuantity? then edit.quantity else lines[index].quantity
    ensures r[index].unitPrice == if edit.SetUnitPrice? then edit.unitPrice else lines[index].unitPrice
  {
    var l := lines[index];
    lines[index := match edit
      case SetDescription(d) => l.(description := d)
      case SetQuantity(q) => l.(quantity := q)
      case SetUnitPrice(p) => l.(unitPrice := p)]
  }

  /** Changing one line moves the subtotal by the change in that line's total. */
  lemma {:induction false} SubtotalReplace(lines: seq<Line>, i: nat, l: Line)
    requires i < |lines|
    ensures Subtotal(lines[i := l]) == Subtotal(lines) - LineTotal(lines[i]) + LineTotal(l)
    decreases |lines|
  {
    if i > 0 {
      assert lines[i := l][1..] == lines[1..][i - 1 := l];
      SubtotalReplace(lines[1..], i - 1, l);
    }
  }

  /** Replacing a line by one with the same quantity and price keeps the subtotal. */
  lemma {:induction false} SubtotalReplaceSameAmounts(lines: seq<Line>, i: nat, l: Line)
    requires i < |lines|
    requires l.quantity == lines[i].quantity && l.unitPrice == lines[i].unitPrice
    ensures Subtotal(lines[i := l]) == Subtotal(lines)
    decreases |lines|
  {
    if i > 0 {
      assert lines[i := l][1..] == lines[1..][i - 1 := l];
      SubtotalReplaceSameAmounts(lines[1..], i - 1, l);
    }
  }

  /** Editing a description never changes the amounts. */
  lemma DescriptionEditKeepsSubtotal(lines: seq<Line>, index: nat, d: string)
    requires index < |lines|
    ensures Subtotal(UpdateItem(lines, index, SetDescription(d))) == Subtotal(lines)
  {
    var l := lines[index].(description := d);
    assert UpdateItem(lines, index, SetDescription(d)) == lines[index := l];
    SubtotalReplaceSameAmounts(lines, index, l);
  }

  /** Picking a product for a line (listed or not) changes the subtotal by
      the change in that line's amount only. */
  lemma SelectProductSubtotal(lines: seq<Line>, index: nat, productId: Option<Id>, products: seq<Row<Product>>)
    requires index < |lines|
    ensures var r := SelectProduct(lines, index, productId, products);
      Subtotal(r) == Subtotal(lines) - LineTotal(lines[index]) + LineTotal(r[index])
  {
    var r := SelectProduct(lines, index, productId, products);
    ReplacedLineSubtotal(lines, index, r);
  }

  /** Picking a catalogued product `p` makes the line's amount its quantity
      times the product's price. */
  lemma SelectProductLineAmount(lines: seq<Line>, index: nat, productId: Option<Id>, products: seq<Row<Product>>, p: Product)
    requires index < |lines|
    requires FindProduct(products, productId) == Some(p)
    ensures LineTotal(SelectProduct(lines, index, productId, products)[index]) == lines[index].quantity * p.price
  {
    var l := SelectProduct(lines, index, productId, products)[index];
    LineTotalOf(l, lines[index].quantity, p.price);
  }

  /** A sequence equal to `lines` except at `index` has that line's new
      amount in place of the old one in its subtotal. */
  lemma ReplacedLineSubtotal(lines: seq<Line>, index: nat, r: seq<Line>)
    requires index < |lines| && |r| == |lines|
    requires forall i :: 0 <= i < |lines| && i != index ==> r[i] == lines[i]
    ensures Subtotal(r) == Subtotal(lines) - LineTotal(lines[index]) + LineTotal(r[index])
  {
    assert r == lines[index := r[index]];
    SubtotalReplace(lines, index, r[index]);
  }

  lemma LineTotalOf(l: Line, quantity: real, price: Money)
    requires l.quantity == quantity && l.unitPrice == price
    ensures LineTotal(l) == quantity * price
  {
  }

  /** The item payload sent for one line (`product_id || null`). */
  function ToInput(l: Line): (it: ItemInput)
    ensures it.quantity * it.unitPrice == LineTotal(l)
  {
    ItemInput(l.productId, l.description, l.quantity, l.unitPrice)
  }

  function ToInputs(lines: seq<Line>): (its: seq<ItemInput>)
    ensures |its| == |lines|
    ensures forall i :: 0 <= i < |lines| ==> its[i] == ToInput(lines[i])
  {
    seq(|lines|, i requires 0 <= i < |lines| => ToInput(lines[i]))
  }

  /** `handleSubmit`: nothing is sent without a client; otherwise a
      'Pending' header whose due date falls back to the invoice date and
      whose total is the editor's total, with the lines as they stand. */
  function Submit(clientId: Option<Id>, number: string, invoiceDate: string, dueDate: string, lines: seq<Line>)
    : (r: Option<(InvoiceForm, seq<ItemInput>)>)
    ensures r.None? <==> clientId.None?
    ensures r.Some? ==>
      && r.value.0.clientId == clientId.value
      && r.value.0.number == number
      && r.value.0.status == PENDING
      && r.value.0.dueDate == (if dueDate != "" then dueDate else invoiceDate)
      && r.value.0.totalAmount * 5.0 == Subtotal(lines) * 6.0
      && r.value.1 == ToInputs(lines)
  {
    if clientId.None? then None
    else Some((InvoiceForm(clientId.value, number, PENDING, OrElse(dueDate, invoiceDate), Total(Subtotal(lines))),
               ToInputs(lines)))
  }

  /** What the editor shows once the action has answered. */
  function AfterCreate(result: Result<Id>): (f: Feedback)
    ensures f.GoToDashboard? <==> result.Ok?
    ensures result.Err? ==> f == Alert(CREATE_FAILED)
  {
    if result.Ok? then GoToDashboard else Alert(CREATE_FAILED)
  }

  /** The stored line totals of a submitted editor add up to its subtotal. */
  lemma {:induction false} StoredTotalsMatchSubtotal(invoiceId: Id, lines: seq<Line>)
    ensures ItemsTotal(ItemRows(invoiceId, ToInputs(lines))) == Subtotal(lines)
    decreases |lines|
  {
    if |lines| > 0 {
      assert ItemRows(invoiceId, ToInputs(lines))[1..] == ItemRows(invoiceId, ToInputs(lines[1..]));
      StoredTotalsMatchSubtotal(invoiceId, lines[1..]);
    }
  }

  /** End to end: a submitted editor whose invoice is created carries a
      header total equal to six fifths of the sum of its stored line totals,
      so header and lines agree (the server itself does not check this). */
  lemma HeaderAgreesWithLines(
    s: Store, user: Option<UserId>, clientId: Option<Id>, number: string, invoiceDate: string, dueDate: string,
    lines: seq<Line>, now: string, deleteOk: bool)
    requires clientId.Some?
    ensures var sub := Submit(clientId, number, invoiceDate, dueDate, lines).value;
      var r := CreateFullInvoice(s, user, sub.0, sub.1, now, true, true, deleteOk);
      r.out.Ok? ==>
        r.store.invoices[r.out.value].totalAmount * 5.0 == ItemsTotal(ItemRows(r.out.value, sub.1)) * 6.0
  {
    StoredTotalsMatchSubtotal(s.nextId, lines);
  }
}

=== FILE: invoices.dfy ===
/** The invoice server actions: marking an invoice paid, and creating an
    invoice header followed by its line items, deleting the header again when
    the items cannot be saved. */
module Invoices {
  import opened Basics
  import opened Store

  /** The header fields the caller sends. */
  datatype InvoiceForm = InvoiceForm(clientId: Id, number: string, status: string, dueDate: string, totalAmount: Money)

  /** One line as the caller sends it. */
  datatype ItemInput = ItemInput(productId: Option<Id>, description: string, quantity: real, unitPrice: Money)

  /** `markInvoiceAsPaid`: set the status of the one invoice to 'Paid'. An
      update that matches no row is not an error. */
  function MarkInvoiceAsPaid(s: Store, invoiceId: Id, updateOk: bool): (r: Step<Reply>)
    ensures r.out.success <==> updateOk
    ensures r.out.message == if updateOk then "Invoice marked as paid" else "Failed to update invoice"
    ensures r.store == s.(invoices := r.store.invoices)
    ensures r.store.invoices.Keys == s.invoices.Keys
    ensures forall j :: j in s.invoices && j != invoiceId ==> r.store.invoices[j] == s.invoices[j]
    ensures invoiceId in s.invoices ==>
      r.store.invoices[invoiceId] == s.invoices[invoiceId].(status := if updateOk then PAID else s.invoices[invoiceId].status)
  {
    if !updateOk then Step(s, Reply(false, "Failed to update invoice"))
    else
      var invoices := if invoiceId in s.invoices
        then s.invoices[invoiceId := s.invoices[invoiceId].(status := PAID)]
        else s.invoices;
      Step(s.(invoices := invoices), Reply(true, "Invoice marked as paid"))
  }

  /** Marking an invoice paid a second time changes nothing more. */
  lemma MarkPaidIdempotent(s: Store, invoiceId: Id, ok1: bool, ok2: bool)
    ensures var r1 := MarkInvoiceAsPaid(s, invoiceId, ok1).store;
      var r2 := MarkInvoiceAsPaid(r1, invoiceId, ok2).store;
      ok1 ==> r2 == r1
  {
  }

  /** The stored row for one submitted line: its total is computed here as
      quantity times unit price, whatever the caller believed it to be. */
  function ItemRow(invoiceId: Id, it: ItemInput): (row: InvoiceItem)
    ensures row.totalPrice == it.quantity * it.unitPrice
    ensures row.invoiceId == invoiceId
    ensures row.productId == it.productId && row.description == it.description
    ensures row.quantity == it.quantity && row.unitPrice == it.unitPrice
  {
    InvoiceItem(invoiceId, it.productId, it.description, it.quantity, it.unitPrice, it.quantity * it.unitPrice)
  }

  /** `items.map(...)`: one row per submitted line, in order. */
  function ItemRows(invoiceId: Id, items: seq<ItemInput>): (rows: seq<InvoiceItem>)
    ensures |rows| == |items|
    ensures forall i :: 0 <= i < |items| ==> rows[i] == ItemRow(invoiceId, items[i])
  {
    seq(|items|, i requires 0 <= i < |items| => ItemRow(invoiceId, items[i]))
  }

  /** Sum of the stored line totals. */
  function ItemsTotal(rows: seq<InvoiceItem>): Money
  {
    if |rows| == 0 then 0.0 else rows[0].totalPrice + ItemsTotal(rows[1..])
  }

  /** The header row: the caller's fields as sent (status and total are not
      checked), in the caller's workspace, stamped with the insertion time. */
  function Header(workspaceId: Id, form: InvoiceForm, now: string): (inv: Invoice)
    ensures inv.workspaceId == workspaceId && inv.clientId == form.clientId
    ensures inv.number == form.number && inv.status == form.status && inv.dueDate == form.dueDate
    ensures inv.totalAmount == form.totalAmount && inv.createdAt == now
  {
    Invoice(workspaceId, form.clientId, form.number, form.status, form.dueDate, now, form.totalAmount)
  }

  /** `createFullInvoice`. The caller must be signed in and own exactly one
      workspace (none is provisioned here). The header is inserted first; the
      items are then inserted in one batch; if that batch fails the header is
      deleted again (best effort: `deleteOk` false leaves it orphaned). */
  function CreateFullInvoice(
    s: Store, user: Option<UserId>, form: InvoiceForm, items: seq<ItemInput>, now: string,
    headerOk: bool, itemsOk: bool, deleteOk: bool): (r: Step<Result<Id>>)
    ensures user.None? ==> r == Step(s, Err("Unauthorized"))
    ensures user.Some? && OwnedWorkspace(s, user.value).None? ==> r == Step(s, Err("No workspace found"))
    ensures user.Some? && OwnedWorkspace(s, user.value).Some? && !headerOk ==>
      r == Step(s, Err("Failed to create invoice"))
    ensures r.store.workspaces == s.workspaces && r.store.profiles == s.profiles
      && r.store.clients == s.clients && r.store.products == s.products
      && r.store.expenses == s.expenses && r.store.debts == s.debts && r.store.requests == s.requests
    // success: header plus one row per line
    ensures r.out.Ok? <==> user.Some? && OwnedWorkspace(s, user.value).Some? && headerOk && itemsOk
    ensures r.out.Ok? ==>
      && r.out.value == s.nextId
      && r.store.invoices == s.invoices[s.nextId := Header(OwnedWorkspace(s, user.value).value, form, now)]
      && r.store.nextId == s.nextId + 1 + |items|
      && r.store.items == AppendItems(s.items, s.nextId + 1, ItemRows(s.nextId, items))
    // item failure
    ensures user.Some? && OwnedWorkspace(s, user.value).Some? && headerOk && !itemsOk ==>
      && r.out == Err("Failed to save items")
      && r.store.items == s.items
      && r.store.invoices == if deleteOk then s.invoices[s.nextId := Header(OwnedWorkspace(s, user.value).value, form, now)] - {s.nextId}
                             else s.invoices[s.nextId := Header(OwnedWorkspace(s, user.value).value, form, now)]
    ensures Valid(s) ==> Valid(r.store)
  {
    if user.None? then Step(s, Err("Unauthorized"))
    else
      var ws := OwnedWorkspace(s, user.value);
      if ws.None? then Step(s, Err("No workspace found"))
      else if !headerOk then Step(s, Err("Failed to create invoice"))
      else
        var invoiceId := s.nextId;
        var s1 := InsertInvoice(s, Header(ws.value, form, now));
        if !itemsOk then
          var s2 := if deleteOk then s1.(invoices := s1.invoices - {invoiceId}) else s1;
          Step(s2, Err("Failed to save items"))
        else
          Step(InsertItems(s1, ItemRows(invoiceId, items)), Ok(invoiceId))
  }

  // -----------------------------------------------------------------------
  // Properties over several calls

  /** When the item batch fails and the compensating delete succeeds, no
      invoice and no item is left behind by the attempt. */
  lemma NoGhostInvoice(
    s: Store, user: Option<UserId>, form: InvoiceForm, items: seq<ItemInput>, now: string)
    requires Valid(s)
    ensures var r := CreateFullInvoice(s, user, form, items, now, true, false, true);
      r.out.Err? && r.store.invoices == s.invoices && r.store.items == s.items
  {
  }

  /** When the compensating delete also fails the header stays, and no item
      was written for it. */
  lemma OrphanedHeaderWithoutItems(
    s: Store, user: UserId, form: InvoiceForm, items: seq<ItemInput>, now: string)
    requires Valid(s) && OwnedWorkspace(s, user).Some?
    ensures var r := CreateFullInvoice(s, Some(user), form, items, now, true, false, false);
      && r.out.Err?
      && s.nextId in r.store.invoices && s.nextId !in s.invoices
      && r.store.items == s.items
      && r.store.nextId == s.nextId + 1
  {
  }

  /** The header's total is taken from the caller and never compared with the
      items: two calls that differ only in the declared total succeed or fail
      alike and store the same items. */
  lemma HeaderTotalUnchecked(
    s: Store, user: Option<UserId>, form: InvoiceForm, total: Money, items: seq<ItemInput>, now: string,
    headerOk: bool, itemsOk: bool, deleteOk: bool)
    ensures var r1 := CreateFullInvoice(s, user, form, items, now, headerOk, itemsOk, deleteOk);
      var r2 := CreateFullInvoice(s, user, form.(totalAmount := total), items, now, headerOk, itemsOk, deleteOk);
      && r1.out == r2.out
      && r1.store.items == r2.store.items
      && (r2.out.Ok? ==> r2.store.invoices[r2.out.value].totalAmount == total)
  {
  }

  /** Creating the same invoice twice is not deduplicated: two successful
      calls leave two distinct invoices. */
  lemma CreateTwiceMakesTwo(
    s: Store, user: UserId, form: InvoiceForm, items: seq<ItemInput>, now: string)
    requires Valid(s) && OwnedWorkspace(s, user).Some?
    ensures var r1 := CreateFullInvoice(s, Some(user), form, items, now, true, true, true);
      var r2 := CreateFullInvoice(r1.store, Some(user), form, items, now, true, true, true);
      && r1.out.Ok? && r2.out.Ok?
      && r1.out.value != r2.out.value
      && r1.out.value in r2.store.invoices && r2.out.value in r2.store.invoices
      && |r2.store.invoices| == |s.invoices| + 2
  {
  }

  /** Every line total stored for a successful invoice is its quantity times
      its unit price, and line `i` is stored under the `i`-th id after the
      header's. */
  lemma StoredItemsFollowInput(
    s: Store, user: Option<UserId>, form: InvoiceForm, items: seq<ItemInput>, now: string, deleteOk: bool, i: nat)
    requires i < |items|
    ensures var r := CreateFullInvoice(s, user, form, items, now, true, true, deleteOk);
      r.out.Ok? ==>
        && r.out.value + 1 + i in r.store.items
        && r.store.items[r.out.value + 1 + i].invoiceId == r.out.value
        && r.store.items[r.out.value + 1 + i].description == items[i].description
        && r.store.items[r.out.value + 1 + i].totalPrice == items[i].quantity * items[i].unitPrice
  {
    var r := CreateFullInvoice(s, user, form, items, now, true, true, deleteOk);
    if r.out.Ok? {
      var rows := ItemRows(s.nextId, items);
      assert rows[i] == ItemRow(s.nextId, items[i]);
    }
  }
}

=== FILE: new_invoice.dfy ===
/** The quick "new invoice" page: from a client name, an amount and a due
    date it finds or creates the caller's workspace, finds or creates the
    client by name inside it, and issues a 'Draft' invoice numbered from the
    clock. Each step is a separate write and nothing is undone when a later
    step fails. */
module NewInvoice {
  import opened Basics
  import opened Store
  import Text

  const DEFAULT_WORKSPACE_NAME := "My Workspace"
  const PLACEHOLDER_EMAIL := "pending@example.com"
  const NOT_LOGGED_IN := "Error: You are not logged in."
  const SUCCESS := "Success! Redirecting..."

  /** How a submission ends: the caller was signed out, a step failed with
      the datastore's message, or invoice `id` was issued. */
  datatype Outcome = NotLoggedIn | Failed(message: string) | Issued(id: Id)

  /** The status line the page shows; it redirects to the dashboard only
      after an issued invoice. */
  function StatusText(o: Outcome): (text: string)
    ensures o.NotLoggedIn? ==> text == NOT_LOGGED_IN
    ensures o.Failed? ==> text == "Error: " + o.message
    ensures o.Issued? <==> text == SUCCESS
  {
    match o
    case NotLoggedIn => NOT_LOGGED_IN
    case Failed(m) => assert ("Error: " + m)[0] != SUCCESS[0]; "Error: " + m
    case Issued(_) => SUCCESS
  }

  /** `INV-${Date.now().toString().slice(-6)}`. */
  function InvoiceNumber(nowMs: nat): (n: string)
    ensures 5 <= |n| <= 10
    ensures n[..4] == "INV-"
    ensures nowMs >= 100000 ==> |n| == 10
  {
    var digits := Text.Decimal(nowMs);
    assert nowMs >= 100000 ==> |digits| >= 6 by {
      if nowMs >= 100000 {
        Text.MillionLater(nowMs);
        DecimalLength(nowMs, 6);
      }
    }
    "INV-" + Text.Last(digits, 6)
  }

  /** A number with at least `k` digits is written with at least `k` characters. */
  lemma {:induction false} DecimalLength(n: nat, k: nat)
    requires Text.HasDigits(n, k)
    ensures |Text.Decimal(n)| >= k
    decreases k
  {
    if k > 1 {
      DecimalLength(n / 10, k - 1);
    }
  }

  /** Clients of workspace `ws` called `name`. */
  function ClientsNamed(clients: map<Id, Client>, ws: Id, name: string): set<Id> {
    set c | c in clients && clients[c].workspaceId == Some(ws) && clients[c].name == name
  }

  /** Adding a client under a fresh key adds it to the set it matches only. */
  lemma NamedAfterInsert(clients: map<Id, Client>, k: Id, c: Client, ws: Id, name: string)
    requires k !in clients
    ensures ClientsNamed(clients[k := c], ws, name) ==
      ClientsNamed(clients, ws, name) + (if c.workspaceId == Some(ws) && c.name == name then {k} else {})
  {
  }

  /** Clients only ever refer to workspace ids already handed out. */
  predicate ClientRefsAllocated(s: Store) {
    forall c :: c in s.clients && s.clients[c].workspaceId.Some? ==> s.clients[c].workspaceId.value < s.nextId
  }

  /** Step 2: the caller's one workspace, or a new 'My Workspace'. A failed
      insert reports the datastore's message. */
  function GetOrCreateWorkspace(s: Store, user: UserId, insertErr: Option<string>): (r: Step<Result<Id>>)
    ensures OwnedWorkspace(s, user).Some? ==> r == Step(s, Ok(OwnedWorkspace(s, user).value))
    ensures OwnedWorkspace(s, user).None? && insertErr.Some? ==> r == Step(s, Err(insertErr.value))
    ensures OwnedWorkspace(s, user).None? && insertErr.None? ==>
      && r.out == Ok(s.nextId)
      && r.store == InsertWorkspace(s, Workspace(user, DEFAULT_WORKSPACE_NAME, "", "", "", "", ""))
    ensures r.out.Ok? ==> r.out.value in r.store.workspaces && r.store.workspaces[r.out.value].ownerId == user
    ensures r.store == s.(workspaces := r.store.workspaces, nextId := r.store.nextId)
    ensures Valid(s) ==> Valid(r.store)
  {
    var found := OwnedWorkspace(s, user);
    if found.Some? then Step(s, Ok(found.value))
    else if insertErr.Some? then Step(s, Err(insertErr.value))
    else Step(InsertWorkspace(s, Workspace(user, DEFAULT_WORKSPACE_NAME, "", "", "", "", "")), Ok(s.nextId))
  }

  /** Step 3: the one client of the workspace with this name, or a new one
      with a placeholder e-mail. */
  function GetOrCreateClient(s: Store, ws: Id, name: string, insertErr: Option<string>): (r: Step<Result<Id>>)
    ensures Single(ClientsNamed(s.clients, ws, name)).Some? ==> r == Step(s, Ok(Single(ClientsNamed(s.clients, ws, name)).value))
    ensures Single(ClientsNamed(s.clients, ws, name)).None? && insertErr.Some? ==> r == Step(s, Err(insertErr.value))
    ensures Single(ClientsNamed(s.clients, ws, name)).None? && insertErr.None? ==>
      && r.out == Ok(s.nextId)
      && r.store == InsertClient(s, Client(Some(ws), None, name, PLACEHOLDER_EMAIL, "", "", ""))
    ensures r.out.Ok? ==> (r.out.value in r.store.clients
      && r.store.clients[r.out.value].workspaceId == Some(ws) && r.store.clients[r.out.value].name == name)
    ensures r.store == s.(clients := r.store.clients, nextId := r.store.nextId)
    ensures Valid(s) ==> Valid(r.store)
  {
    var found := Single(ClientsNamed(s.clients, ws, name));
    if found.Some? then Step(s, Ok(found.value))
    else if insertErr.Some? then Step(s, Err(insertErr.value))
    else Step(InsertClient(s, Client(Some(ws), None, name, PLACEHOLDER_EMAIL, "", "", "")), Ok(s.nextId))
  }

  /** `handleSubmit`. Each `...Err` is the datastore's answer to the
      corresponding insert. */
  function HandleSubmit(
    s: Store, user: Option<UserId>, clientName: string, amount: Money, dueDate: string,
    nowMs: nat, createdAt: string,
    workspaceErr: Option<string>, clientErr: Option<string>, invoiceErr: Option<string>): (r: Step<Outcome>)
    ensures user.None? <==> r.out.NotLoggedIn?
    ensures user.None? ==> r.store == s
    ensures !r.out.Issued? ==> r.store.invoices == s.invoices
    ensures r.out.Issued? ==> (r.out.id == r.store.nextId - 1 && r.out.id in r.store.invoices
      && r.store.invoices == s.invoices[r.out.id := r.store.invoices[r.out.id]])
    ensures r.out.Issued? && Valid(s) ==> AddsRow(s.invoices, r.store.invoices, r.out.id)
    ensures invoiceErr.Some? ==> !r.out.Issued?
    ensures user.Some? && workspaceErr.None? && clientErr.None? && invoiceErr.None? ==> r.out.Issued?
    ensures user.Some? && OwnedWorkspace(s, user.value).None? && workspaceErr.Some? ==>
      r == Step(s, Failed(workspaceErr.value))
    ensures r.store.profiles == s.profiles && r.store.products == s.products && r.store.items == s.items
      && r.store.expenses == s.expenses && r.store.debts == s.debts && r.store.requests == s.requests
    ensures Valid(s) ==> Valid(r.store)
  {
    if user.None? then Step(s, NotLoggedIn)
    else
      var w := GetOrCreateWorkspace(s, user.value, workspaceErr);
      if w.out.Err? then Step(w.store, Failed(w.out.error))
      else
        var c := GetOrCreateClient(w.store, w.out.value, clientName, clientErr);
        if c.out.Err? then Step(c.store, Failed(c.out.error))
        else if invoiceErr.Some? then Step(c.store, Failed(invoiceErr.value))
        else
          var inv := Invoice(w.out.value, c.out.value, InvoiceNumber(nowMs), DRAFT, dueDate, createdAt, amount);
          Step(InsertInvoice(c.store, inv), Issued(c.store.nextId))
  }

  // -----------------------------------------------------------------------

  /** A successful submission issues one 'Draft' invoice, in a workspace the
      caller owns, for a client of that workspace with the given name. */
  lemma SuccessIssuesDraft(
    s: Store, user: UserId, clientName: string, amount: Money, dueDate: string, nowMs: nat, createdAt: string,
    workspaceErr: Option<string>, clientErr: Option<string>)
    ensures var r := HandleSubmit(s, Some(user), clientName, amount, dueDate, nowMs, createdAt, workspaceErr, clientErr, None);
      r.out.Issued? ==>
        var inv := r.store.invoices[r.out.id];
        && inv.status == DRAFT && inv.totalAmount == amount && inv.number == InvoiceNumber(nowMs)
        && inv.dueDate == dueDate && inv.createdAt == createdAt
        && inv.workspaceId in r.store.workspaces && r.store.workspaces[inv.workspaceId].ownerId == user
        && inv.clientId in r.store.clients
        && r.store.clients[inv.clientId].workspaceId == Some(inv.workspaceId)
        && r.store.clients[inv.clientId].name == clientName
  {
    var w := GetOrCreateWorkspace(s, user, workspaceErr);
    if w.out.Ok? {
      var c := GetOrCreateClient(w.store, w.out.value, clientName, clientErr);
      if c.out.Ok? {
        assert c.store.workspaces == w.store.workspaces;
      }
    }
  }

  /** A failure after the workspace was created keeps the new workspace: the
      page does not undo its earlier writes. */
  lemma FailureKeepsEarlierWrites(
    s: Store, user: UserId, clientName: string, amount: Money, dueDate: string, nowMs: nat, createdAt: string,
    message: string)
    requires Valid(s) && ClientRefsAllocated(s) && |WorkspacesOwnedBy(s.workspaces, user)| == 0
    ensures var r := HandleSubmit(s, Some(user), clientName, amount, dueDate, nowMs, createdAt, None, None, Some(message));
      && r.out == Failed(message)
      && r.store.invoices == s.invoices
      && WorkspacesOwnedBy(r.store.workspaces, user) == {s.nextId}
      && r.store.clients.Keys == s.clients.Keys + {s.nextId + 1}
  {
    WorkspaceStepCreates(s, user);
    var w := GetOrCreateWorkspace(s, user, None);
    assert ClientsNamed(w.store.clients, s.nextId, clientName) == {};
  }

  /** A first submission for a caller with no workspace, followed by a
      second with the same client name, creates the workspace and the client
      once: the second run finds both and only adds its invoice. */
  lemma SecondRunReuses(
    s: Store, user: UserId, clientName: string, a1: Money, a2: Money, d1: string, d2: string,
    t1: nat, t2: nat, c1: string, c2: string)
    requires Valid(s) && ClientRefsAllocated(s) && |WorkspacesOwnedBy(s.workspaces, user)| == 0
    ensures var r1 := HandleSubmit(s, Some(user), clientName, a1, d1, t1, c1, None, None, None);
      var r2 := HandleSubmit(r1.store, Some(user), clientName, a2, d2, t2, c2, None, None, None);
      && r1.out.Issued? && r2.out.Issued?
      && r2.store.workspaces == r1.store.workspaces
      && r2.store.clients == r1.store.clients
      && r2.store.invoices[r2.out.id].workspaceId == r1.store.invoices[r1.out.id].workspaceId
      && r2.store.invoices[r2.out.id].clientId == r1.store.invoices[r1.out.id].clientId
  {
    FirstRunCreates(s, user, clientName, a1, d1, t1, c1);
    var r1 := HandleSubmit(s, Some(user), clientName, a1, d1, t1, c1, None, None, None);
    ExistingReused(r1.store, user, clientName, a2, d2, t2, c2, s.nextId, s.nextId + 1);
  }

  /** A first submission for a caller with no workspace creates the
      workspace under the next id and the client under the one after, and
      leaves exactly those as the caller's workspace and that name's client. */
  lemma FirstRunCreates(
    s: Store, user: UserId, clientName: string, amount: Money, dueDate: string, nowMs: nat, createdAt: string)
    requires Valid(s) && ClientRefsAllocated(s) && |WorkspacesOwnedBy(s.workspaces, user)| == 0
    ensures var r := HandleSubmit(s, Some(user), clientName, amount, dueDate, nowMs, createdAt, None, None, None);
      && r.out.Issued?
      && WorkspacesOwnedBy(r.store.workspaces, user) == {s.nextId}
      && ClientsNamed(r.store.clients, s.nextId, clientName) == {s.nextId + 1}
      && r.store.invoices[r.out.id].workspaceId == s.nextId
      && r.store.invoices[r.out.id].clientId == s.nextId + 1
  {
    var n := s.nextId;
    WorkspaceStepCreates(s, user);
    var w := GetOrCreateWorkspace(s, user, None);
    ClientStepCreates(w.store, n, clientName);
    var c := GetOrCreateClient(w.store, n, clientName, None);
    SubmitFollowsSteps(s, user, clientName, amount, dueDate, nowMs, createdAt);
  }

  /** Without an owned workspace, the workspace step creates one under the
      next id, which becomes the caller's only workspace. */
  lemma WorkspaceStepCreates(s: Store, user: UserId)
    requires Valid(s) && |WorkspacesOwnedBy(s.workspaces, user)| == 0
    ensures var w := GetOrCreateWorkspace(s, user, None);
      && w.out == Ok(s.nextId)
      && WorkspacesOwnedBy(w.store.workspaces, user) == {s.nextId}
      && w.store.clients == s.clients && w.store.nextId == s.nextId + 1
      && (ClientRefsAllocated(s) ==> forall name :: ClientsNamed(w.store.clients, s.nextId, name) == {})
  {
    OwnedAfterInsert(s.workspaces, s.nextId, Workspace(user, DEFAULT_WORKSPACE_NAME, "", "", "", "", ""), user);
  }

  /** Without a client of that name in workspace `ws`, the client step
      creates one under the next id, which becomes the only one. */
  lemma ClientStepCreates(s: Store, ws: Id, name: string)
    requires Valid(s) && ClientsNamed(s.clients, ws, name) == {}
    ensures var c := GetOrCreateClient(s, ws, name, None);
      && c.out == Ok(s.nextId)
      && ClientsNamed(c.store.clients, ws, name) == {s.nextId}
      && c.store.workspaces == s.workspaces
  {
    NamedAfterInsert(s.clients, s.nextId, Client(Some(ws), None, name, PLACEHOLDER_EMAIL, "", "", ""), ws, name);
  }

  /** A signed-in submission whose inserts all succeed is the two lookup
      steps followed by the invoice insert for their answers. */
  lemma SubmitFollowsSteps(
    s: Store, user: UserId, clientName: string, amount: Money, dueDate: string, nowMs: nat, createdAt: string)
    ensures var w := GetOrCreateWorkspace(s, user, None);
      var c := GetOrCreateClient(w.store, w.out.value, clientName, None);
      var r := HandleSubmit(s, Some(user), clientName, amount, dueDate, nowMs, createdAt, None, None, None);
      && r.out.Issued?
      && r.store.workspaces == c.store.workspaces && r.store.clients == c.store.clients
      && r.store.invoices[r.out.id].workspaceId == w.out.value
      && r.store.invoices[r.out.id].clientId == c.out.value
  {
    var w := GetOrCreateWorkspace(s, user, None);
    assert w.out.Ok?;
    var c := GetOrCreateClient(w.store, w.out.value, clientName, None);
    assert c.out.Ok?;
    var inv := Invoice(w.out.value, c.out.value, InvoiceNumber(nowMs), DRAFT, dueDate, createdAt, amount);
    var r := HandleSubmit(s, Some(user), clientName, amount, dueDate, nowMs, createdAt, None, None, None);
    assert r == Step(InsertInvoice(c.store, inv), Issued(c.store.nextId));
  }

  /** When the caller owns exactly workspace `w` and it holds exactly one
      client `c` of that name, a submission writes no workspace and no client
      and issues its invoice for `w` and `c`. */
  lemma ExistingReused(
    s: Store, user: UserId, clientName: string, amount: Money, dueDate: string, nowMs: nat, createdAt: string,
    w: Id, c: Id)
    requires WorkspacesOwnedBy(s.workspaces, user) == {w}
    requires ClientsNamed(s.clients, w, clientName) == {c}
    ensures var r := HandleSubmit(s, Some(user), clientName, amount, dueDate, nowMs, createdAt, None, None, None);
      && r.out.Issued?
      && r.store.workspaces == s.workspaces && r.store.clients == s.clients
      && r.store.invoices[r.out.id].workspaceId == w
      && r.store.invoices[r.out.id].clientId == c
  {
    assert OwnedWorkspace(s, user) == Some(w);
    assert Single(ClientsNamed(s.clients, w, clientName)) == Some(c);
  }

  /** A caller who already owns two workspaces is not matched by the
      one-row lookup, so every submission creates yet another workspace. */
  lemma AmbiguousWorkspaceMultiplies(
    s: Store, user: UserId, clientName: string, amount: Money, dueDate: string, nowMs: nat, createdAt: string)
    requires Valid(s) && |WorkspacesOwnedBy(s.workspaces, user)| >= 2
    ensures var r := HandleSubmit(s, Some(user), clientName, amount, dueDate, nowMs, createdAt, None, None, None);
      && r.out.Issued?
      && WorkspacesOwnedBy(r.store.workspaces, user) == WorkspacesOwnedBy(s.workspaces, user) + {s.nextId}
  {
    OwnedAfterInsert(s.workspaces, s.nextId, Workspace(user, DEFAULT_WORKSPACE_NAME, "", "", "", "", ""), user);
  }

  /** Invoice numbers keep only the last six digits of the clock, so two
      submissions exactly 1,000,000 ms (about 16.7 minutes) apart get the
      same number. */
  lemma NumbersRepeat(nowMs: nat)
    requires nowMs >= 100000
    ensures InvoiceNumber(nowMs) == InvoiceNumber(nowMs + 1000000)
  {
    Text.MillionLater(nowMs);
    Text.LastDigitsAgree(nowMs, nowMs + 1000000, 6);
  }

  /** Two clocks of at least six digits get the same invoice number exactly
      when they agree modulo 1,000,000: the number keeps the clock's last six
      digits and nothing else. */
  lemma NumbersCollideIff(a: nat, b: nat)
    requires a >= 100000 && b >= 100000
    ensures InvoiceNumber(a) == InvoiceNumber(b) <==> a % 1000000 == b % 1000000
  {
    Text.MillionLater(a);
    Text.MillionLater(b);
    var la, lb := Text.Last(Text.Decimal(a), 6), Text.Last(Text.Decimal(b), 6);
    assert InvoiceNumber(a) == "INV-" + la && InvoiceNumber(b) == "INV-" + lb;
    if InvoiceNumber(a) == InvoiceNumber(b) {
      assert la == InvoiceNumber(a)[4..] && lb == InvoiceNumber(b)[4..];
      Text.LastDigitsDetermine(a, b, 6);
    }
    Text.SameLowDigitsMod(a, b, 6);
    assert Text.Pow10(6) == 1000000;
    if a % 1000000 == b % 1000000 {
      Text.LastDigitsAgree(a, b, 6);
    }
  }
}

=== FILE: onboarding.dfy ===
/** The first-login modal: it asks for a full name and a job title and
    writes both into the caller's profile. The title is written into the
    `role` column, the same column the access checks read. */
module Onboarding {
  import opened Basics
  import opened Store
  import opened UserRole

  const DEFAULT_TITLE := "Fondateur"

  /** The modal opens for a signed-in user whose profile row exists and has
      no full name. */
  function ShouldOpen(s: Store, user: Option<UserId>): (open: bool)
    ensures open <==> user.Some? && user.value in s.profiles && s.profiles[user.value].fullName == ""
  {
    user.Some? && user.value in s.profiles && s.profiles[user.value].fullName == ""
  }

  /** `handleSubmit` as written: full name, and role := title or
      'Fondateur'. The update is filtered on the caller's id; the modal
      closes only when the update reports no error. */
  function Submit(s: Store, user: Option<UserId>, fullName: string, title: string, updateOk: bool): (r: Step<bool>)
    ensures r.out <==> user.Some? && updateOk
    ensures !r.out ==> r.store == s
    ensures r.store == s.(profiles := r.store.profiles)
    ensures r.store.profiles.Keys == s.profiles.Keys
    ensures forall u :: u in s.profiles && Some(u) != user ==> r.store.profiles[u] == s.profiles[u]
    ensures r.out && user.value in s.profiles ==>
      r.store.profiles[user.value] == s.profiles[user.value].(fullName := fullName, role := OrElse(title, DEFAULT_TITLE))
  {
    if user.None? || !updateOk then Step(s, false)
    else
      var u := user.value;
      if u in s.profiles
      then Step(s.(profiles := s.profiles[u := s.profiles[u].(fullName := fullName, role := OrElse(title, DEFAULT_TITLE))]), true)
      else Step(s, true)
  }

  /** After onboarding with a title other than the three role names, the
      user has no access flag at all, whatever their role was before. */
  lemma OnboardingDropsFlags(s: Store, user: UserId, fullName: string, title: string)
    requires user in s.profiles
    requires title != ADMIN && title != EDITOR && title != VIEWER
    ensures var r := Submit(s, Some(user), fullName, title, true);
      var v := DeriveRole(r.store, Some(user));
      !v.isAdmin && !v.isEditor && !v.isViewer
  {
  }

  /** An admin who leaves the title blank becomes 'Fondateur' and loses admin rights. */
  lemma BlankTitleDemotesAdmin(s: Store, user: UserId, fullName: string)
    requires user in s.profiles && RoleOf(s, user) == ADMIN
    ensures var r := Submit(s, Some(user), fullName, "", true);
      RoleOf(r.store, user) == DEFAULT_TITLE && !DeriveRole(r.store, Some(user)).isAdmin
  {
  }

  /** A 'pending' user who types "admin" as their title becomes an admin,
      and the role-management action then accepts their requests. */
  lemma TitleGrantsAdmin(s: Store, user: UserId, fullName: string, target: UserId, newRole: string)
    requires user in s.profiles && RoleOf(s, user) == PENDING_ROLE
    ensures var r := Submit(s, Some(user), fullName, ADMIN, true);
      !DeriveRole(s, Some(user)).isAdmin && DeriveRole(r.store, Some(user)).isAdmin
  {
  }

  /** The corrected submit: it writes the full name only and leaves the
      role to the role-management screen. */
  function SubmitKeepingRole(s: Store, user: Option<UserId>, fullName: string, updateOk: bool): (r: Step<bool>)
    ensures r.out <==> user.Some? && updateOk
    ensures r.store == s.(profiles := r.store.profiles)
    ensures r.store.profiles.Keys == s.profiles.Keys
    ensures forall u :: u in s.profiles && Some(u) != user ==> r.store.profiles[u] == s.profiles[u]
    ensures r.out && user.value in s.profiles ==>
      r.store.profiles[user.value] == s.profiles[user.value].(fullName := fullName)
  {
    if user.None? || !updateOk then Step(s, false)
    else
      var u := user.value;
      if u in s.profiles
      then Step(s.(profiles := s.profiles[u := s.profiles[u].(fullName := fullName)]), true)
      else Step(s, true)
  }

  /** With the corrected submit, onboarding never changes anyone's access:
      every user's role view is the same before and after, and the modal
      does not reopen. */
  lemma CorrectedKeepsAccess(s: Store, user: Option<UserId>, fullName: string, updateOk: bool, anyone: Option<UserId>)
    requires fullName != ""
    ensures var r := SubmitKeepingRole(s, user, fullName, updateOk);
      && DeriveRole(r.store, anyone) == DeriveRole(s, anyone)
      && (r.out ==> !ShouldOpen(r.store, user))
  {
  }

  /** The as-written and corrected submits agree on everything but the role. */
  lemma SubmitsDifferOnlyInRole(s: Store, user: UserId, fullName: string, title: string, updateOk: bool)
    requires user in s.profiles
    ensures var a := Submit(s, Some(user), fullName, title, updateOk);
      var b := SubmitKeepingRole(s, Some(user), fullName, updateOk);
      && a.out == b.out
      && a.store.profiles.Keys == b.store.profiles.Keys
      && a.store.profiles[user].fullName == b.store.profiles[user].fullName
      && a.store.profiles[user].email == b.store.profiles[user].email
  {
  }
}

=== FILE: products_list.dfy ===
/** The products (services) screen: the same role split as the clients
    screen. An admin's submit stores the parsed price; an editor's request
    keeps the price as typed. */
module ProductsList {
  import opened Basics
  import opened Store
  import opened UserRole

  /** The three inputs, as typed. */
  datatype ProductForm = ProductForm(name: string, price: string, description: string)

  datatype Screen = Screen(rows: seq<Row<Product>>, modalOpen: bool, form: ProductForm)

  const EMPTY_FORM := ProductForm("", "", "")
  const REQUEST_PENDING := "pending"

  /** `closeModal`: close and clear name, price and description. */
  function CloseModal(v: Screen): (r: Screen)
    ensures !r.modalOpen && r.rows == v.rows
    ensures r.form.name == "" && r.form.price == "" && r.form.description == ""
  {
    Screen(v.rows, false, EMPTY_FORM)
  }

  /** The row an admin's submit inserts; `parse` is the browser's `parseFloat`. */
  function NewProduct(f: ProductForm, owner: UserId, parse: string -> real): Product {
    Product(owner, f.name, parse(f.price), f.description)
  }

  /** `handleSubmit` with the role flags the screen loaded. Unlike the clients
      screen, a failed insert shows nothing and keeps the modal as it is. */
  function Submit(s: Store, v: Screen, user: Option<UserId>, flags: RoleView, parse: string -> real, insertOk: bool)
    : (r: Step<Screen>)
    ensures user.None? || (!flags.isAdmin && !flags.isEditor) || !insertOk ==> r == Step(s, v)
    ensures user.Some? && flags.isAdmin && insertOk ==>
      && r.store == InsertProduct(s, NewProduct(v.form, user.value, parse))
      && r.store.products[s.nextId].price == parse(v.form.price)
      && r.out == CloseModal(v).(rows := [Row(s.nextId, NewProduct(v.form, user.value, parse))] + v.rows)
    ensures user.Some? && !flags.isAdmin && flags.isEditor && insertOk ==>
      && r.store == InsertRequest(s, ResourceRequest(user.value,
           ProductProposal(v.form.name, v.form.price, v.form.description), REQUEST_PENDING))
      && r.out == CloseModal(v)
  {
    if user.None? || !insertOk then Step(s, v)
    else if flags.isAdmin then
      var p := NewProduct(v.form, user.value, parse);
      Step(InsertProduct(s, p), CloseModal(v).(rows := [Row(s.nextId, p)] + v.rows))
    else if flags.isEditor then
      var req := ResourceRequest(user.value, ProductProposal(v.form.name, v.form.price, v.form.description), REQUEST_PENDING);
      Step(InsertRequest(s, req), CloseModal(v))
    else Step(s, v)
  }

  /** `handleDelete(id)`: admins only, after confirmation. */
  function Delete(s: Store, v: Screen, flags: RoleView, id: Id, confirmed: bool, deleteOk: bool): (r: Step<Screen>)
    ensures !flags.isAdmin || !confirmed || !deleteOk ==> r == Step(s, v)
    ensures flags.isAdmin && confirmed && deleteOk ==>
      && r.store == s.(products := s.products - {id})
      && r.out == v.(rows := WithoutId(v.rows, id))
  {
    if flags.isAdmin && confirmed && deleteOk
    then Step(s.(products := s.products - {id}), v.(rows := WithoutId(v.rows, id)))
    else Step(s, v)
  }

  // -----------------------------------------------------------------------

  predicate Mirrors(rows: seq<Row<Product>>, products: map<Id, Product>) {
    forall i :: 0 <= i < |rows| ==> rows[i].id in products && products[rows[i].id] == rows[i].value
  }

  /** Submitting and deleting keep the list a faithful view of the stored products. */
  lemma SubmitKeepsMirror(s: Store, v: Screen, user: Option<UserId>, flags: RoleView, parse: string -> real, insertOk: bool)
    requires Valid(s) && Mirrors(v.rows, s.products)
    ensures var r := Submit(s, v, user, flags, parse, insertOk);
      Mirrors(r.out.rows, r.store.products)
  {
    var r := Submit(s, v, user, flags, parse, insertOk);
    if user.Some? && flags.isAdmin && insertOk {
      forall i | 0 <= i < |r.out.rows|
        ensures r.out.rows[i].id in r.store.products && r.store.products[r.out.rows[i].id] == r.out.rows[i].value
      {
        if i > 0 {
          assert r.out.rows[i] == v.rows[i - 1];
        }
      }
    }
  }

  lemma DeleteKeepsMirror(s: Store, v: Screen, flags: RoleView, id: Id, confirmed: bool, deleteOk: bool)
    requires Mirrors(v.rows, s.products)
    ensures var r := Delete(s, v, flags, id, confirmed, deleteOk);
      Mirrors(r.out.rows, r.store.products) && (flags.isAdmin && confirmed && deleteOk ==> id !in r.store.products)
  {
    var r := Delete(s, v, flags, id, confirmed, deleteOk);
    if flags.isAdmin && confirmed && deleteOk {
      forall i | 0 <= i < |r.out.rows|
        ensures r.out.rows[i].id in r.store.products && r.store.products[r.out.rows[i].id] == r.out.rows[i].value
      {
        assert r.out.rows[i] in v.rows;
      }
    }
  }

  /** A viewer or pending user changes nothing by submitting or deleting. */
  lemma NonEditorsWriteNothing(
    s: Store, v: Screen, user: UserId, parse: string -> real, id: Id, confirmed: bool, ok: bool)
    requires RoleOf(s, user) != ADMIN && RoleOf(s, user) != EDITOR
    ensures var flags := DeriveRole(s, Some(user));
      && Submit(s, v, Some(user), flags, parse, ok).store == s
      && Delete(s, v, flags, id, confirmed, ok).store == s
  {
  }

  /** An editor's request keeps the price exactly as typed, whatever the
      parse would make of it. */
  lemma EditorKeepsTypedPrice(s: Store, v: Screen, user: UserId, parse: string -> real)
    requires RoleOf(s, user) == EDITOR
    ensures var r := Submit(s, v, Some(user), DeriveRole(s, Some(user)), parse, true);
      && s.nextId in r.store.requests
      && r.store.requests[s.nextId].details == ProductProposal(v.form.name, v.form.price, v.form.description)
      && r.store.products == s.products
  {
  }
}

=== FILE: reports.dfy ===
/** The reports screen: the invoices and expenses of the selected period,
    bucketed by day or by month for the charts, the four headline figures,
    and the expense breakdown by category. Calendar arithmetic is not
    modelled: whether a record falls in the period is a given predicate, and
    the bucket keys the calendar loop produces are a given list. */
module Reports {
  import opened Basics
  import opened Store
  import opened Text

  datatype Range = OneMonth | ThreeMonths | SixMonths | OneYear
  datatype Grouping = ByDay | ByMonth

  /** Only the one-month range is charted day by day. */
  function GroupingOf(range: Range): (g: Grouping)
    ensures g == ByDay <==> range == OneMonth
  {
    if range == OneMonth then ByDay else ByMonth
  }

  /** A bucket key is the ISO date cut to `YYYY-MM-DD` or `YYYY-MM`. */
  function KeyLength(g: Grouping): (n: nat)
    ensures n == 10 <==> g == ByDay
    ensures n == 7 <==> g == ByMonth
  {
    match g
    case ByDay => 10
    case ByMonth => 7
  }

  function BucketKey(date: string, g: Grouping): (key: string)
    ensures key <= date
    ensures |key| == if |date| <= KeyLength(g) then |date| else KeyLength(g)
  {
    Prefix(date, KeyLength(g))
  }

  /** Two dates in the same day bucket are in the same month bucket. */
  lemma DaysRefineMonths(a: string, b: string)
    requires BucketKey(a, ByDay) == BucketKey(b, ByDay)
    requires |a| >= 10 && |b| >= 10
    ensures BucketKey(a, ByMonth) == BucketKey(b, ByMonth)
  {
    assert BucketKey(a, ByMonth) == BucketKey(a, ByDay)[..7];
    assert BucketKey(b, ByMonth) == BucketKey(b, ByDay)[..7];
  }

  // -----------------------------------------------------------------------
  // Period filter

  function InvoicesSince(invs: seq<Invoice>, inPeriod: string -> bool): (r: seq<Invoice>)
    ensures |r| <= |invs|
    ensures forall inv :: inv in r <==> inv in invs && inPeriod(inv.createdAt)
    ensures forall inv :: multiset(r)[inv] == if inPeriod(inv.createdAt) then multiset(invs)[inv] else 0
  {
    if |invs| == 0 then []
    else
      assert invs == [invs[0]] + invs[1..];
      (if inPeriod(invs[0].createdAt) then [invs[0]] else []) + InvoicesSince(invs[1..], inPeriod)
  }

  function ExpensesSince(exps: seq<Expense>, inPeriod: string -> bool): (r: seq<Expense>)
    ensures |r| <= |exps|
    ensures forall e :: e in r <==> e in exps && inPeriod(e.date)
    ensures forall e :: multiset(r)[e] == if inPeriod(e.date) then multiset(exps)[e] else 0
  {
    if |exps| == 0 then []
    else
      assert exps == [exps[0]] + exps[1..];
      (if inPeriod(exps[0].date) then [exps[0]] else []) + ExpensesSince(exps[1..], inPeriod)
  }

  // -----------------------------------------------------------------------
  // Reference sums

  function PaidTotal(invs: seq<Invoice>): Money {
    if |invs| == 0 then 0.0
    else (if invs[0].status == PAID then invs[0].totalAmount else 0.0) + PaidTotal(invs[1..])
  }

  function PendingTotal(invs: seq<Invoice>): Money {
    if |invs| == 0 then 0.0
    else (if invs[0].status != PAID then invs[0].totalAmount else 0.0) + PendingTotal(invs[1..])
  }

  function InvoiceTotal(invs: seq<Invoice>): Money {
    if |invs| == 0 then 0.0 else invs[0].totalAmount + InvoiceTotal(invs[1..])
  }

  function ExpenseTotal(exps: seq<Expense>): Money {
    if |exps| == 0 then 0.0 else exps[0].amount + ExpenseTotal(exps[1..])
  }

  /** Paid revenue whose date falls in bucket `key`. */
  function PaidOn(invs: seq<Invoice>, g: Grouping, key: string): Money {
    if |invs| == 0 then 0.0
    else
      var here := if invs[0].status == PAID && BucketKey(invs[0].createdAt, g) == key then invs[0].totalAmount else 0.0;
      here + PaidOn(invs[1..], g, key)
  }

  /** Expenses whose date falls in bucket `key`. */
  function SpentOn(exps: seq<Expense>, g: Grouping, key: string): Money {
    if |exps| == 0 then 0.0
    else (if BucketKey(exps[0].date, g) == key then exps[0].amount else 0.0) + SpentOn(exps[1..], g, key)
  }

  /** Every invoice is either paid or still expected. */
  lemma {:induction false} RevenuePlusPending(invs: seq<Invoice>)
    ensures PaidTotal(invs) + PendingTotal(invs) == InvoiceTotal(invs)
  {
    if |invs| > 0 {
      RevenuePlusPending(invs[1..]);
    }
  }

  // -----------------------------------------------------------------------
  // Chart buckets

  datatype Bucket = Bucket(revenue: Money, expenses: Money, profit: Money)

  /** Every bucket's profit is its own revenue minus its own expenses. */
  predicate Balanced(chart: map<string, Bucket>) {
    forall k :: k in chart ==> chart[k].profit == chart[k].revenue - chart[k].expenses
  }

  /** The buckets the calendar loop creates, all at zero. */
  function EmptyChart(keys: seq<string>): (chart: map<string, Bucket>)
    ensures chart.Keys == set k | k in keys
    ensures forall k :: k in chart ==> chart[k] == Bucket(0.0, 0.0, 0.0)
    ensures Balanced(chart)
  {
    map k | k in keys :: Bucket(0.0, 0.0, 0.0)
  }

  /** One step of the invoice loop: a paid invoice adds its total to its
      bucket, if that bucket exists, and the bucket's profit is recomputed. */
  function AddInvoice(chart: map<string, Bucket>, inv: Invoice, g: Grouping): (r: map<string, Bucket>)
    ensures r.Keys == chart.Keys
    ensures Balanced(chart) ==> Balanced(r)
  {
    var key := BucketKey(inv.createdAt, g);
    if inv.status == PAID && key in chart then
      var b := chart[key];
      chart[key := Bucket(b.revenue + inv.totalAmount, b.expenses, b.revenue + inv.totalAmount - b.expenses)]
    else chart
  }

  function AddInvoices(chart: map<string, Bucket>, invs: seq<Invoice>, g: Grouping): (r: map<string, Bucket>)
    ensures r.Keys == chart.Keys
    ensures Balanced(chart) ==> Balanced(r)
  {
    if |invs| == 0 then chart else AddInvoices(AddInvoice(chart, invs[0], g), invs[1..], g)
  }

  /** One step of the expense loop. */
  function AddExpense(chart: map<string, Bucket>, e: Expense, g: Grouping): (r: map<string, Bucket>)
    ensures r.Keys == chart.Keys
    ensures Balanced(chart) ==> Balanced(r)
  {
    var key := BucketKey(e.date, g);
    if key in chart then
      var b := chart[key];
      chart[key := Bucket(b.revenue, b.expenses + e.amount, b.revenue - (b.expenses + e.amount))]
    else chart
  }

  function AddExpenses(chart: map<string, Bucket>, exps: seq<Expense>, g: Grouping): (r: map<string, Bucket>)
    ensures r.Keys == chart.Keys
    ensures Balanced(chart) ==> Balanced(r)
  {
    if |exps| == 0 then chart else AddExpenses(AddExpense(chart, exps[0], g), exps[1..], g)
  }

  function Chart(keys: seq<string>, invs: seq<Invoice>, exps: seq<Expense>, g: Grouping): (chart: map<string, Bucket>)
    ensures chart.Keys == set k | k in keys
    ensures Balanced(chart)
  {
    AddExpenses(AddInvoices(EmptyChart(keys), invs, g), exps, g)
  }

  lemma {:induction false} AddInvoicesSums(chart: map<string, Bucket>, invs: seq<Invoice>, g: Grouping, key: string)
    requires key in chart
    ensures AddInvoices(chart, invs, g)[key].revenue == chart[key].revenue + PaidOn(invs, g, key)
    ensures AddInvoices(chart, invs, g)[key].expenses == chart[key].expenses
  {
    if |invs| > 0 {
      AddInvoicesSums(AddInvoice(chart, invs[0], g), invs[1..], g, key);
    }
  }

  lemma {:induction false} AddExpensesSums(chart: map<string, Bucket>, exps: seq<Expense>, g: Grouping, key: string)
    requires key in chart
    ensures AddExpenses(chart, exps, g)[key].revenue == chart[key].revenue
    ensures AddExpenses(chart, exps, g)[key].expenses == chart[key].expenses + SpentOn(exps, g, key)
  {
    if |exps| > 0 {
      AddExpensesSums(AddExpense(chart, exps[0], g), exps[1..], g, key);
    }
  }

  /** Each bucket holds exactly the paid revenue and the expenses dated in
      it, and their difference; invoices and expenses whose key has no bucket
      are not counted anywhere. */
  lemma ChartBucket(keys: seq<string>, invs: seq<Invoice>, exps: seq<Expense>, g: Grouping, key: string)
    requires key in keys
    ensures var b := Chart(keys, invs, exps, g)[key];
      && b.revenue == PaidOn(invs, g, key)
      && b.expenses == SpentOn(exps, g, key)
      && b.profit == PaidOn(invs, g, key) - SpentOn(exps, g, key)
  {
    var empty := EmptyChart(keys);
    AddInvoicesSums(empty, invs, g, key);
    AddExpensesSums(AddInvoices(empty, invs, g), exps, g, key);
  }

  /** A record whose key has no bucket leaves the chart as it was. */
  lemma UnbucketedDropped(chart: map<string, Bucket>, inv: Invoice, e: Expense, g: Grouping)
    requires BucketKey(inv.createdAt, g) !in chart && BucketKey(e.date, g) !in chart
    ensures AddInvoice(chart, inv, g) == chart && AddExpense(chart, e, g) == chart
  {
  }

  // -----------------------------------------------------------------------
  // Headline figures

  datatype Kpis = Kpis(revenue: Money, expenses: Money, netProfit: Money, margin: real, pending: Money)

  /** The four cards: paid revenue, expenses, net profit with its margin in
      percent of revenue (0 when there is no positive revenue), and the
      amount still expected. */
  function ComputeKpis(invs: seq<Invoice>, exps: seq<Expense>): (k: Kpis)
    ensures k.revenue == PaidTotal(invs) && k.expenses == ExpenseTotal(exps) && k.pending == PendingTotal(invs)
    ensures k.netProfit == k.revenue - k.expenses
    ensures k.revenue > 0.0 ==> k.margin * k.revenue == k.netProfit * 100.0
    ensures k.revenue <= 0.0 ==> k.margin == 0.0
  {
    var revenue := PaidTotal(invs);
    var expenses := ExpenseTotal(exps);
    var net := revenue - expenses;
    Kpis(revenue, expenses, net, if revenue > 0.0 then net / revenue * 100.0 else 0.0, PendingTotal(invs))
  }

  /** Revenue and pending together account for every invoice of the period. */
  lemma KpisCoverInvoices(invs: seq<Invoice>, exps: seq<Expense>)
    ensures var k := ComputeKpis(invs, exps);
      k.revenue + k.pending == InvoiceTotal(invs)
  {
    RevenuePlusPending(invs);
  }

  // -----------------------------------------------------------------------
  // Expense breakdown

  const OTHER_CATEGORY := "Autre"

  datatype Slice = Slice(name: string, value: Money)

  function CategoryOf(e: Expense): (c: string)
    ensures c != ""
    ensures e.category != "" ==> c == e.category
  {
    OrElse(e.category, OTHER_CATEGORY)
  }

  function Names(slices: seq<Slice>): set<string> {
    if |slices| == 0 then {} else {slices[0].name} + Names(slices[1..])
  }

  predicate DistinctNames(slices: seq<Slice>) {
    |slices| == 0 || (slices[0].name !in Names(slices[1..]) && DistinctNames(slices[1..]))
  }

  function SliceTotal(slices: seq<Slice>): Money {
    if |slices| == 0 then 0.0 else slices[0].value + SliceTotal(slices[1..])
  }

  /** What the slices named `name` add up to. */
  function ValueOf(slices: seq<Slice>, name: string): Money {
    if |slices| == 0 then 0.0
    else (if slices[0].name == name then slices[0].value else 0.0) + ValueOf(slices[1..], name)
  }

  /** `acc[cat] = (acc[cat] || 0) + amount` on an object whose keys keep
      their insertion order. */
  function Bump(slices: seq<Slice>, name: string, amount: Money): (r: seq<Slice>)
    ensures Names(r) == Names(slices) + {name}
    ensures DistinctNames(slices) ==> DistinctNames(r)
    ensures SliceTotal(r) == SliceTotal(slices) + amount
    ensures forall c :: ValueOf(r, c) == ValueOf(slices, c) + (if c == name then amount else 0.0)
  {
    if |slices| == 0 then [Slice(name, amount)]
    else if slices[0].name == name then [slices[0].(value := slices[0].value + amount)] + slices[1..]
    else [slices[0]] + Bump(slices[1..], name, amount)
  }

  /** Folds the expenses into the slices `acc`, one `Bump` per expense: every
      category's slice grows by that category's expenses, and the slices
      together by all of them. */
  function Breakdown(acc: seq<Slice>, exps: seq<Expense>): (r: seq<Slice>)
    ensures DistinctNames(acc) ==> DistinctNames(r)
    ensures SliceTotal(r) == SliceTotal(acc) + ExpenseTotal(exps)
    ensures forall c :: ValueOf(r, c) == ValueOf(acc, c) + CategoryTotal(exps, c)
    decreases |exps|
  {
    if |exps| == 0 then acc else Breakdown(Bump(acc, CategoryOf(exps[0]), exps[0].amount), exps[1..])
  }

  /** Amount of the expenses filed under category `c` ('Autre' for none). */
  function CategoryTotal(exps: seq<Expense>, c: string): Money {
    if |exps| == 0 then 0.0
    else (if CategoryOf(exps[0]) == c then exps[0].amount else 0.0) + CategoryTotal(exps[1..], c)
  }

  /** The pie: one slice per category, each holding that category's
      expenses, together adding up to the expense card. */
  lemma PieMatchesExpenses(invs: seq<Invoice>, exps: seq<Expense>, c: string)
    ensures var pie := Breakdown([], exps);
      && DistinctNames(pie)
      && SliceTotal(pie) == ComputeKpis(invs, exps).expenses
      && ValueOf(pie, c) == CategoryTotal(exps, c)
  {
  }

  // -----------------------------------------------------------------------
  // The whole screen

  datatype Report = Report(
    invoices: seq<Invoice>, expenses: seq<Expense>,
    chart: map<string, Bucket>, kpis: Kpis, pie: seq<Slice>)

  /** The screen for one range. `inPeriod` says whether a date is on or
      after the range's start; `keys` are the bucket keys the calendar loop
      produces from the start to now. */
  function BuildReport(range: Range, invs: seq<Invoice>, exps: seq<Expense>, inPeriod: string -> bool, keys: seq<string>)
    : (r: Report)
    ensures r.invoices == InvoicesSince(invs, inPeriod) && r.expenses == ExpensesSince(exps, inPeriod)
    ensures r.chart.Keys == set k | k in keys
    ensures Balanced(r.chart)
    ensures forall key :: key in keys ==>
      && r.chart[key].revenue == PaidOn(r.invoices, GroupingOf(range), key)
      && r.chart[key].expenses == SpentOn(r.expenses, GroupingOf(range), key)
    ensures r.kpis.revenue == PaidTotal(r.invoices) && r.kpis.pending == PendingTotal(r.invoices)
    ensures r.kpis.expenses == ExpenseTotal(r.expenses)
    ensures r.kpis.netProfit == r.kpis.revenue - r.kpis.expenses
    ensures DistinctNames(r.pie)
    ensures SliceTotal(r.pie) == r.kpis.expenses
    ensures forall c :: ValueOf(r.pie, c) == CategoryTotal(r.expenses, c)
  {
    var fi := InvoicesSince(invs, inPeriod);
    var fe := ExpensesSince(exps, inPeriod);
    var g := GroupingOf(range);
    var chart := Chart(keys, fi, fe, g);
    assert forall key :: key in keys ==> chart[key].revenue == PaidOn(fi, g, key) && chart[key].expenses == SpentOn(fe, g, key) by {
      forall key | key in keys
        ensures chart[key].revenue == PaidOn(fi, g, key) && chart[key].expenses == SpentOn(fe, g, key)
      {
        ChartBucket(keys, fi, fe, g, key);
      }
    }
    Report(fi, fe, chart, ComputeKpis(fi, fe), Breakdown([], fe))
  }
}

=== FILE: send_email.dfy ===
/** The e-mail server action: the signed-in user's SMTP settings configure
    a transport, and one message is handed to it. */
module SendEmail {
  import opened Basics
  import opened Store
  import opened Text

  const NOT_AUTHENTICATED := "Non authentifié"
  const MISSING_CONFIG := "Configuration email manquante."
  const SENT := "Email envoyé avec succès !"
  const SEND_ERROR_PREFIX := "Erreur d'envoi: "
  const DEFAULT_SENDER := "IMSAL Services"
  const IMPLICIT_TLS_PORT := 465

  /** One row of the e-mail settings table. */
  datatype EmailConfig = EmailConfig(
    userId: UserId, host: string, port: int, smtpUser: string, password: string, senderName: string)

  /** What the caller asks to send. */
  datatype Mail = Mail(to: string, cc: Option<string>, subject: string, html: string)

  /** What is handed to the SMTP transport. */
  datatype Envelope = Envelope(
    host: string, port: int, secure: bool, authUser: string, authPassword: string,
    from: string, to: string, cc: Option<string>, subject: string, html: string)

  /** The reply, and the envelope handed to the transport when one was. */
  datatype SendResult = SendResult(reply: Reply, attempted: Option<Envelope>)

  function ConfigRows(configs: map<Id, EmailConfig>, user: UserId): set<Id> {
    set k | k in configs && configs[k].userId == user
  }

  /** The settings lookup filtered on the user with `.single()`: found only
      when exactly one row belongs to the user. */
  function ConfigFor(configs: map<Id, EmailConfig>, user: UserId): (c: Option<EmailConfig>)
    ensures c.Some? <==> |ConfigRows(configs, user)| == 1
    ensures c.Some? ==> c.value in configs.Values && c.value.userId == user
  {
    match Single(ConfigRows(configs, user))
    case Some(k) => Some(configs[k])
    case None => None
  }

  /** Implicit TLS exactly on port 465. */
  function Secure(port: int): (secure: bool)
    ensures secure <==> port == IMPLICIT_TLS_PORT
  {
    port == IMPLICIT_TLS_PORT
  }

  /** The From header: the sender name (or the default) in double quotes,
      then the SMTP login in angle brackets. */
  function FromHeader(senderName: string, smtpUser: string): (from: string)
    ensures var name := OrElse(senderName, DEFAULT_SENDER);
      && |from| == |name| + |smtpUser| + 5
      && from[0] == '"' && from[1..|name| + 1] == name
      && from[|name| + 1..|name| + 4] == "\" <"
      && from[|name| + 4..|from| - 1] == smtpUser && from[|from| - 1] == '>'
    ensures senderName != "" ==> from[1..|senderName| + 1] == senderName
    ensures senderName == "" ==> from[1..|DEFAULT_SENDER| + 1] == DEFAULT_SENDER
  {
    "\"" + OrElse(senderName, DEFAULT_SENDER) + "\" <" + smtpUser + ">"
  }

  /** When neither the name nor the login contains a double quote, splitting
      the header on double quotes gives back the display name. */
  lemma FromHeaderParses(senderName: string, smtpUser: string)
    requires '"' !in senderName && '"' !in smtpUser
    ensures SplitOn(FromHeader(senderName, smtpUser), '"') == ["", OrElse(senderName, DEFAULT_SENDER), " <" + smtpUser + ">"]
  {
    var name := OrElse(senderName, DEFAULT_SENDER);
    assert '"' !in DEFAULT_SENDER;
    var tail := " <" + smtpUser + ">";
    var parts := ["", name, tail];
    assert '"' !in tail by {
      assert forall i :: 0 <= i < |tail| ==> tail[i] != '"' by {
        forall i | 0 <= i < |tail| ensures tail[i] != '"' {
          if 2 <= i < 2 + |smtpUser| { assert tail[i] == smtpUser[i - 2]; }
        }
      }
    }
    assert JoinWith(parts[2..], '"') == tail;
    assert JoinWith(parts[1..], '"') == name + ['"'] + tail;
    assert JoinWith(parts, '"') == FromHeader(senderName, smtpUser);
    SplitOnJoin(parts, '"');
  }

  function MakeEnvelope(c: EmailConfig, mail: Mail): (e: Envelope)
    ensures e.host == c.host && e.port == c.port && e.secure == Secure(c.port)
    ensures e.authUser == c.smtpUser && e.authPassword == c.password
    ensures e.from == FromHeader(c.senderName, c.smtpUser)
    ensures e.to == mail.to && e.cc == mail.cc && e.subject == mail.subject && e.html == mail.html
  {
    Envelope(c.host, c.port, Secure(c.port), c.smtpUser, c.password,
             FromHeader(c.senderName, c.smtpUser), mail.to, mail.cc, mail.subject, mail.html)
  }

  /** `sendEmail`. `transportErr` is the transport's failure message, if it fails. */
  function Send(user: Option<UserId>, configs: map<Id, EmailConfig>, mail: Mail, transportErr: Option<string>)
    : (r: SendResult)
    ensures user.None? ==> r == SendResult(Reply(false, NOT_AUTHENTICATED), None)
    ensures user.Some? && ConfigFor(configs, user.value).None? ==> r == SendResult(Reply(false, MISSING_CONFIG), None)
    ensures r.attempted.Some? <==> user.Some? && ConfigFor(configs, user.value).Some?
    ensures r.attempted.Some? ==> r.attempted.value == MakeEnvelope(ConfigFor(configs, user.value).value, mail)
    ensures r.reply.success <==> r.attempted.Some? && transportErr.None?
    ensures r.reply.success ==> r.reply.message == SENT
    ensures r.attempted.Some? && transportErr.Some? ==> r.reply.message == SEND_ERROR_PREFIX + transportErr.value
  {
    if user.None? then SendResult(Reply(false, NOT_AUTHENTICATED), None)
    else
      match ConfigFor(configs, user.value)
      case None => SendResult(Reply(false, MISSING_CONFIG), None)
      case Some(c) =>
        var e := MakeEnvelope(c, mail);
        match transportErr
        case None => SendResult(Reply(true, SENT), Some(e))
        case Some(m) => SendResult(Reply(false, SEND_ERROR_PREFIX + m), Some(e))
  }

  /** Mail only ever leaves through the caller's own settings: the envelope
      is authenticated with the SMTP login of a settings row of that user. */
  lemma SentWithOwnSettings(user: Option<UserId>, configs: map<Id, EmailConfig>, mail: Mail, transportErr: Option<string>)
    ensures var r := Send(user, configs, mail, transportErr);
      r.attempted.Some? ==>
        exists c :: c in configs.Values && c.userId == user.value && r.attempted.value.authUser == c.smtpUser
  {
    var r := Send(user, configs, mail, transportErr);
    if r.attempted.Some? {
      var c := ConfigFor(configs, user.value).value;
      assert c in configs.Values && c.userId == user.value;
    }
  }

  /** A user with two settings rows cannot send at all. */
  lemma DuplicateSettingsBlockSending(
    user: UserId, configs: map<Id, EmailConfig>, a: Id, b: Id, mail: Mail, transportErr: Option<string>)
    requires a in configs && b in configs && a != b
    requires configs[a].userId == user && configs[b].userId == user
    ensures Send(Some(user), configs, mail, transportErr).reply == Reply(false, MISSING_CONFIG)
  {
    assert {a, b} <= ConfigRows(configs, user);
    assert |{a, b}| == 2;
    SubsetSize({a, b}, ConfigRows(configs, user));
  }

  lemma SubsetSize(a: set<Id>, b: set<Id>)
    requires a <= b
    ensures |a| <= |b|
  {
    assert b == a + (b - a);
  }
}

=== FILE: send_invoice_button.dfy ===
/** The invoice page's send button: after a confirmation it mails the
    client a short message naming the invoice and its amount. */
module SendInvoiceButton {
  import opened Basics
  import opened Store
  import opened Text
  import opened SendEmail

  const NO_EMAIL_ALERT := "Ce client n'a pas d'adresse email enregistrée."
  const SUBJECT_PREFIX := "Facture #"
  const SUBJECT_SUFFIX := " - IMSAL Services"

  /** `Facture #<number> - IMSAL Services`. */
  function Subject(invoiceNumber: string): (subject: string)
    ensures |subject| == |SUBJECT_PREFIX| + |invoiceNumber| + |SUBJECT_SUFFIX|
    ensures subject[..|SUBJECT_PREFIX|] == SUBJECT_PREFIX
    ensures subject[|subject| - |SUBJECT_SUFFIX|..] == SUBJECT_SUFFIX
  {
    SUBJECT_PREFIX + invoiceNumber + SUBJECT_SUFFIX
  }

  /** The invoice number can be read back from the subject. */
  lemma SubjectNamesInvoice(invoiceNumber: string)
    ensures var subject := Subject(invoiceNumber);
      subject[|SUBJECT_PREFIX|..|subject| - |SUBJECT_SUFFIX|] == invoiceNumber
  {
  }

  lemma SubjectInjective(a: string, b: string)
    ensures Subject(a) == Subject(b) <==> a == b
  {
    if Subject(a) == Subject(b) {
      SubjectNamesInvoice(a);
      SubjectNamesInvoice(b);
    }
  }

  // The fixed parts of the message body, between the filled-in values.
  const BODY_HEAD := "\n        <div style=\"font-family: Arial, sans-serif; color: #333;\">\n          <h2>"
  const BODY_AFTER_NAME := ",</h2>\n          <p>Veuillez trouver ci-joint votre facture <strong>"
  const BODY_AFTER_NUMBER := "</strong> d'un montant de <strong>"
  const BODY_TAIL := "</strong>.</p>\n          <br>\n          <p>Cordialement,<br><strong>L'équipe IMSAL Services</strong></p>\n        </div>\n      "

  /** The message body: it greets the client by name and quotes the number
      and the amount in dirhams. `amountText` is the amount as the browser
      prints the number. */
  function Body(clientName: string, invoiceNumber: string, amountText: string): (body: string)
    ensures IsInfix("Bonjour " + clientName, body)
    ensures IsInfix("#" + invoiceNumber, body)
    ensures IsInfix(amountText + " Dh", body)
  {
    FillMentions(BODY_HEAD, BODY_AFTER_NAME, BODY_AFTER_NUMBER, BODY_TAIL, clientName, invoiceNumber, amountText);
    Fill(BODY_HEAD, BODY_AFTER_NAME, BODY_AFTER_NUMBER, BODY_TAIL, clientName, invoiceNumber, amountText)
  }

  function Fill(head: string, afterName: string, afterNumber: string, tail: string,
                clientName: string, invoiceNumber: string, amountText: string): string {
    head + "Bonjour " + clientName + afterName + "#" + invoiceNumber + afterNumber + amountText + " Dh" + tail
  }

  lemma FillMentions(head: string, afterName: string, afterNumber: string, tail: string,
                     clientName: string, invoiceNumber: string, amountText: string)
    ensures var body := Fill(head, afterName, afterNumber, tail, clientName, invoiceNumber, amountText);
      && IsInfix("Bonjour " + clientName, body)
      && IsInfix("#" + invoiceNumber, body)
      && IsInfix(amountText + " Dh", body)
  {
    var body := Fill(head, afterName, afterNumber, tail, clientName, invoiceNumber, amountText);
    assert body == head + ("Bonjour " + clientName) + (afterName + "#" + invoiceNumber + afterNumber + amountText + " Dh" + tail);
    assert body == (head + "Bonjour " + clientName + afterName) + ("#" + invoiceNumber) + (afterNumber + amountText + " Dh" + tail);
    assert body == (head + "Bonjour " + clientName + afterName + "#" + invoiceNumber + afterNumber) + (amountText + " Dh") + tail;
  }

  /** `handleSend`'s first half: the mail to send, or none when the client
      has no address or the user declines the confirmation. */
  function Compose(clientEmail: string, clientName: string, invoiceNumber: string, amountText: string, confirmed: bool)
    : (m: Option<Mail>)
    ensures m.Some? <==> clientEmail != "" && confirmed
    ensures m.Some? ==> m.value == Mail(clientEmail, None, Subject(invoiceNumber), Body(clientName, invoiceNumber, amountText))
  {
    if clientEmail == "" || !confirmed then None
    else Some(Mail(clientEmail, None, Subject(invoiceNumber), Body(clientName, invoiceNumber, amountText)))
  }

  /** The whole click: the alert shown (if any) and the envelope handed to
      the transport (if any). */
  datatype ClickResult = ClickResult(alert: Option<string>, attempted: Option<Envelope>)

  function Click(
    user: Option<UserId>, configs: map<Id, EmailConfig>,
    clientEmail: string, clientName: string, invoiceNumber: string, amountText: string,
    confirmed: bool, transportErr: Option<string>): (r: ClickResult)
    ensures clientEmail == "" ==> r == ClickResult(Some(NO_EMAIL_ALERT), None)
    ensures clientEmail != "" && !confirmed ==> r == ClickResult(None, None)
    ensures clientEmail != "" && confirmed ==>
      var sent := Send(user, configs, Compose(clientEmail, clientName, invoiceNumber, amountText, true).value, transportErr);
      r == ClickResult(Some(sent.reply.message), sent.attempted)
  {
    if clientEmail == "" then ClickResult(Some(NO_EMAIL_ALERT), None)
    else match Compose(clientEmail, clientName, invoiceNumber, amountText, confirmed)
      case None => ClickResult(None, None)
      case Some(mail) =>
        var sent := Send(user, configs, mail, transportErr);
        ClickResult(Some(sent.reply.message), sent.attempted)
  }

  /** Whatever is handed to the transport goes to the client only (no copy),
      and its subject and body name this invoice. */
  lemma ClickMailsTheClient(
    user: Option<UserId>, configs: map<Id, EmailConfig>,
    clientEmail: string, clientName: string, invoiceNumber: string, amountText: string,
    confirmed: bool, transportErr: Option<string>)
    ensures var r := Click(user, configs, clientEmail, clientName, invoiceNumber, amountText, confirmed, transportErr);
      r.attempted.Some? ==>
        && confirmed && clientEmail != ""
        && r.attempted.value.to == clientEmail && r.attempted.value.cc.None?
        && r.attempted.value.subject[|SUBJECT_PREFIX|..|r.attempted.value.subject| - |SUBJECT_SUFFIX|] == invoiceNumber
        && IsInfix("#" + invoiceNumber, r.attempted.value.html)
        && IsInfix(amountText + " Dh", r.attempted.value.html)
  {
    var r := Click(user, configs, clientEmail, clientName, invoiceNumber, amountText, confirmed, transportErr);
    if r.attempted.Some? {
      SubjectNamesInvoice(invoiceNumber);
      var body := Body(clientName, invoiceNumber, amountText);
    }
  }
}

=== FILE: settings.dfy ===
/** The workspace-settings server action: an optional logo upload and an
    update of the company details, restricted to a workspace the caller owns. */
module Settings {
  import opened Basics
  import opened Store
  import Finance

  datatype SettingsForm = SettingsForm(
    workspaceId: Id,
    name: string,
    address: string,
    city: string,
    country: string,
    taxId: string,
    currentLogoUrl: string)

  /** The logo URL to store: the new upload's public URL when a non-empty
      file was stored without error, otherwise the current one. */
  function LogoUrl(current: string, logo: Option<FileUpload>): (url: string)
    ensures logo.Some? && logo.value.size > 0 && logo.value.stored ==> url == logo.value.publicUrl
    ensures !(logo.Some? && logo.value.size > 0 && logo.value.stored) ==> url == current
  {
    match logo
    case Some(f) => if f.size > 0 && f.stored then f.publicUrl else current
    case None => current
  }

  /** The logo rule is the receipt rule of the expense action with the
      current URL as fallback. */
  lemma LogoFollowsReceiptRule(current: string, logo: Option<FileUpload>)
    ensures LogoUrl(current, logo) == Finance.ReceiptUrl(logo).GetOr(current)
  {
  }

  /** `updateSettings`: nothing without a user; otherwise the six fields of
      the workspace with this id and owner (if any) are overwritten. */
  function UpdateSettings(s: Store, user: Option<UserId>, form: SettingsForm, logo: Option<FileUpload>, updateOk: bool)
    : (r: Store)
    ensures user.None? || !updateOk ==> r == s
    ensures r == s.(workspaces := r.workspaces)
    ensures r.workspaces.Keys == s.workspaces.Keys
    ensures forall w :: w in s.workspaces && w != form.workspaceId ==> r.workspaces[w] == s.workspaces[w]
    ensures forall w :: w in s.workspaces ==> r.workspaces[w].ownerId == s.workspaces[w].ownerId
    ensures (user.Some? && updateOk && form.workspaceId in s.workspaces
             && s.workspaces[form.workspaceId].ownerId == user.value) ==>
      r.workspaces[form.workspaceId] == Workspace(user.value, form.name, form.address, form.city, form.country,
                                                  form.taxId, LogoUrl(form.currentLogoUrl, logo))
  {
    if user.None? || !updateOk then s
    else
      var id := form.workspaceId;
      if id in s.workspaces && s.workspaces[id].ownerId == user.value
      then
        var w := s.workspaces[id].(name := form.name, address := form.address, city := form.city,
                                   country := form.country, taxId := form.taxId,
                                   logoUrl := LogoUrl(form.currentLogoUrl, logo));
        s.(workspaces := s.workspaces[id := w])
      else s
  }

  /** A caller who does not own the workspace changes nothing. */
  lemma NonOwnerChangesNothing(s: Store, user: UserId, form: SettingsForm, logo: Option<FileUpload>, updateOk: bool)
    requires form.workspaceId !in s.workspaces || s.workspaces[form.workspaceId].ownerId != user
    ensures UpdateSettings(s, Some(user), form, logo, updateOk) == s
  {
  }

  /** Settings never move a workspace to another owner, so every owner's
      set of workspaces (and hence every one-workspace lookup) is unchanged. */
  lemma OwnershipPreserved(s: Store, user: Option<UserId>, form: SettingsForm, logo: Option<FileUpload>, updateOk: bool, owner: UserId)
    ensures var r := UpdateSettings(s, user, form, logo, updateOk);
      WorkspacesOwnedBy(r.workspaces, owner) == WorkspacesOwnedBy(s.workspaces, owner)
      && OwnedWorkspace(r, owner) == OwnedWorkspace(s, owner)
  {
    var r := UpdateSettings(s, user, form, logo, updateOk);
    assert WorkspacesOwnedBy(r.workspaces, owner) == WorkspacesOwnedBy(s.workspaces, owner);
  }

  /** Saving the form twice with the same inputs is the same as saving it once. */
  lemma SaveIdempotent(s: Store, user: Option<UserId>, form: SettingsForm, logo: Option<FileUpload>)
    ensures var r := UpdateSettings(s, user, form, logo, true);
      UpdateSettings(r, user, form, logo, true) == r
  {
  }
}

=== FILE: status_updater.dfy ===
/** The invoice page's status button: a paid invoice's button sets it back to
    'Draft', any other invoice's button marks it 'Paid'. The update is issued
    from the browser and its answer is not inspected. */
module StatusUpdater {
  import opened Basics
  import opened Store
  import opened Invoices

  /** The status the button writes. */
  function Target(current: string): (next: string)
    ensures next == DRAFT <==> current == PAID
    ensures next == PAID <==> current != PAID
  {
    if current == PAID then DRAFT else PAID
  }

  /** The button's caption: a paid invoice shows 'PAID'; any other invoice
      offers to mark it paid, and shows that it is saving while loading. */
  function ButtonLabel(current: string, loading: bool): (caption: string)
    ensures current == PAID ==> caption == "PAID"
    ensures current != PAID ==> (caption == "SAVING..." <==> loading)
    ensures current != PAID && !loading ==> caption == "MARK AS PAID"
  {
    if current == PAID then "PAID"
    else if loading then "SAVING..." else "MARK AS PAID"
  }

  /** One click on the button of invoice `id`, rendered with `current`. An
      update that fails or matches no row leaves the store as it was. */
  function Click(s: Store, id: Id, current: string, updateOk: bool): (r: Store)
    ensures r == s.(invoices := r.invoices)
    ensures r.invoices.Keys == s.invoices.Keys
    ensures forall j :: j in s.invoices && j != id ==> r.invoices[j] == s.invoices[j]
    ensures id in s.invoices && updateOk ==> r.invoices[id] == s.invoices[id].(status := Target(current))
    ensures !updateOk ==> r == s
  {
    if updateOk && id in s.invoices
    then s.(invoices := s.invoices[id := s.invoices[id].(status := Target(current))])
    else s
  }

  /** Toggling twice restores the status exactly for 'Paid' and 'Draft'. */
  lemma TargetTwice(current: string)
    ensures Target(Target(current)) == current <==> current == PAID || current == DRAFT
  {
  }

  /** A 'Pending' invoice toggled twice (the page re-renders with the new
      status in between) ends as 'Draft': the button cannot restore 'Pending'. */
  lemma PendingIsNotRestored(s: Store, id: Id)
    requires id in s.invoices && s.invoices[id].status == PENDING
    ensures var s1 := Click(s, id, s.invoices[id].status, true);
      var s2 := Click(s1, id, s1.invoices[id].status, true);
      s2.invoices[id].status == DRAFT
  {
  }

  /** On an invoice that is not yet paid, the button does what the
      server-side "mark as paid" action does. */
  lemma ClickAgreesWithMarkPaid(s: Store, id: Id, updateOk: bool)
    requires id in s.invoices && s.invoices[id].status != PAID
    ensures Click(s, id, s.invoices[id].status, updateOk) == MarkInvoiceAsPaid(s, id, updateOk).store
  {
  }
}

=== FILE: store.dfy ===
/** The datastore the server actions and components read and write: one map
    per table, keyed by row id, plus the allocator that hands out fresh ids.
    Rows are immutable values; every action is a pure step from one `Store`
    to the next. */
module Store {
  import opened Basics

  /** Row ids of datastore tables. */
  type Id = nat
  /** Identities issued by the authentication provider (profile ids, owner ids). */
  type UserId = string
  /** Amounts of money, kept exact. */
  type Money = real

  datatype Workspace = Workspace(
    ownerId: UserId,
    name: string,
    address: string,
    city: string,
    country: string,
    taxId: string,
    logoUrl: string)

  /** `role` is whatever text the profile row holds: normally pending, viewer,
      editor or admin, but free text once the onboarding form has run. */
  datatype Profile = Profile(email: string, fullName: string, role: string)

  /** Clients are scoped either by workspace (new-invoice page) or by owner
      (client list); each insert path fills in only one of the two. */
  datatype Client = Client(
    workspaceId: Option<Id>,
    ownerId: Option<UserId>,
    name: string,
    email: string,
    phone: string,
    address: string,
    ice: string)

  datatype Product = Product(ownerId: UserId, name: string, price: Money, description: string)

  datatype Invoice = Invoice(
    workspaceId: Id,
    clientId: Id,
    number: string,
    status: string,
    dueDate: string,
    createdAt: string,
    totalAmount: Money)

  /** `productId` is `None` for an ad-hoc line. */
  datatype InvoiceItem = InvoiceItem(
    invoiceId: Id,
    productId: Option<Id>,
    description: string,
    quantity: real,
    unitPrice: Money,
    totalPrice: Money)

  datatype Expense = Expense(
    workspaceId: Id,
    amount: Money,
    description: string,
    category: string,
    receiptUrl: Option<string>,
    date: string)

  datatype Debt = Debt(
    workspaceId: Id,
    creditorName: string,
    totalAmount: Money,
    remainingAmount: Money,
    monthlyPayment: Money,
    dueDate: string,
    status: string)

  /** The `details` payload of a resource request, one variant per `type`. */
  datatype Proposal =
    | ClientProposal(name: string, email: string, phone: string, address: string)
    | ProductProposal(name: string, price: string, description: string)

  datatype ResourceRequest = ResourceRequest(userId: UserId, details: Proposal, status: string)

  datatype Store = Store(
    workspaces: map<Id, Workspace>,
    profiles: map<UserId, Profile>,
    clients: map<Id, Client>,
    products: map<Id, Product>,
    invoices: map<Id, Invoice>,
    items: map<Id, InvoiceItem>,
    expenses: map<Id, Expense>,
    debts: map<Id, Debt>,
    requests: map<Id, ResourceRequest>,
    nextId: Id)

  /** The state after an action together with what the action returned. */
  datatype Step<+T> = Step(store: Store, out: T)

  /** A row as it appears in a component's in-memory list. */
  datatype Row<+T> = Row(id: Id, value: T)

  /** A file field of a submitted form, together with what the blob store
      answered when it was uploaded (`stored` = no upload error). */
  datatype FileUpload = FileUpload(size: nat, stored: bool, publicUrl: string)

  const PAID := "Paid"
  const ACTIVE := "Active"
  const DRAFT := "Draft"
  const PENDING := "Pending"

  /** The id allocator never hands out a key that is already in use. */
  predicate Valid(s: Store) {
    && (forall k :: k in s.workspaces ==> k < s.nextId)
    && (forall k :: k in s.clients ==> k < s.nextId)
    && (forall k :: k in s.products ==> k < s.nextId)
    && (forall k :: k in s.invoices ==> k < s.nextId)
    && (forall k :: k in s.items ==> k < s.nextId)
    && (forall k :: k in s.expenses ==> k < s.nextId)
    && (forall k :: k in s.debts ==> k < s.nextId)
    && (forall k :: k in s.requests ==> k < s.nextId)
  }

  /** `m'` is `m` with exactly one new row, under the fresh key `k`. */
  predicate AddsRow<T(==)>(m: map<Id, T>, m': map<Id, T>, k: Id) {
    && k !in m
    && m'.Keys == m.Keys + {k}
    && forall j :: j in m ==> m'[j] == m[j]
  }

  // -----------------------------------------------------------------------
  // Inserts: each takes the next id from the allocator.

  function InsertWorkspace(s: Store, w: Workspace): Store {
    s.(workspaces := s.workspaces[s.nextId := w], nextId := s.nextId + 1)
  }

  function InsertClient(s: Store, c: Client): Store {
    s.(clients := s.clients[s.nextId := c], nextId := s.nextId + 1)
  }

  function InsertProduct(s: Store, p: Product): Store {
    s.(products := s.products[s.nextId := p], nextId := s.nextId + 1)
  }

  function InsertInvoice(s: Store, inv: Invoice): Store {
    s.(invoices := s.invoices[s.nextId := inv], nextId := s.nextId + 1)
  }

  function InsertExpense(s: Store, e: Expense): Store {
    s.(expenses := s.expenses[s.nextId := e], nextId := s.nextId + 1)
  }

  function InsertDebt(s: Store, d: Debt): Store {
    s.(debts := s.debts[s.nextId := d], nextId := s.nextId + 1)
  }

  function InsertRequest(s: Store, r: ResourceRequest): Store {
    s.(requests := s.requests[s.nextId := r], nextId := s.nextId + 1)
  }

  /** The item rows `rows` added to `items` under the consecutive ids
      `next`, `next + 1`, ... */
  function AppendItems(items: map<Id, InvoiceItem>, next: Id, rows: seq<InvoiceItem>): (r: map<Id, InvoiceItem>)
    ensures forall i :: 0 <= i < |rows| ==> next + i in r && r[next + i] == rows[i]
    ensures forall k :: k in r <==> k in items || next <= k < next + |rows|
    ensures forall k :: k in items && k < next ==> r[k] == items[k]
    decreases |rows|
  {
    if |rows| == 0 then items
    else
      var r := AppendItems(items[next := rows[0]], next + 1, rows[1..]);
      assert forall i :: 1 <= i < |rows| ==> rows[i] == rows[1..][i - 1];
      r
  }

  /** A bulk insert of item rows, which get consecutive ids in order. */
  function InsertItems(s: Store, rows: seq<InvoiceItem>): Store {
    s.(items := AppendItems(s.items, s.nextId, rows), nextId := s.nextId + |rows|)
  }

  // -----------------------------------------------------------------------
  // Lookups

  lemma SingletonHasOneElement<T>(xs: set<T>, x: T)
    requires |xs| == 1 && x in xs
    ensures xs == {x}
  {
    assert |xs - {x}| == 0;
  }

  /** The one element of a one-element set. */
  function TheElement(xs: set<Id>): (x: Id)
    requires |xs| == 1
    ensures xs == {x}
  {
    var x :| x in xs;
    SingletonHasOneElement(xs, x);
    x
  }

  /** `.single()`: the matching row when exactly one row matches, nothing
      when none or several do. */
  function Single(xs: set<Id>): (r: Option<Id>)
    ensures r.Some? <==> |xs| == 1
    ensures r.Some? ==> xs == {r.value}
  {
    if |xs| == 1 then Some(TheElement(xs)) else None
  }

  /** The ids of the workspaces owned by `owner`. */
  function WorkspacesOwnedBy(workspaces: map<Id, Workspace>, owner: UserId): set<Id> {
    set w | w in workspaces && workspaces[w].ownerId == owner
  }

  /** Adding a workspace under a fresh key adds it to its owner's set only. */
  lemma OwnedAfterInsert(workspaces: map<Id, Workspace>, k: Id, w: Workspace, owner: UserId)
    requires k !in workspaces
    ensures WorkspacesOwnedBy(workspaces[k := w], owner) ==
      WorkspacesOwnedBy(workspaces, owner) + (if w.ownerId == owner then {k} else {})
  {
  }

  /** `workspaces.select('id').eq('owner_id', owner).single()`. */
  function OwnedWorkspace(s: Store, owner: UserId): (r: Option<Id>)
    ensures r.Some? <==> |WorkspacesOwnedBy(s.workspaces, owner)| == 1
    ensures r.Some? ==> r.value in s.workspaces && s.workspaces[r.value].ownerId == owner
  {
    Single(WorkspacesOwnedBy(s.workspaces, owner))
  }

  /** The role held in the caller's profile row, or the empty string when
      there is no such row or its role is null. */
  function RoleOf(s: Store, user: UserId): string {
    if user in s.profiles then s.profiles[user].role else ""
  }

  // -----------------------------------------------------------------------
  // In-memory list helpers

  /** `rows.filter(r => r.id !== id)`. */
  function WithoutId<T(!new)>(rows: seq<Row<T>>, id: Id): (r: seq<Row<T>>)
    ensures |r| <= |rows|
    ensures forall x :: x in r <==> x in rows && x.id != id
    ensures (forall i :: 0 <= i < |rows| ==> rows[i].id != id) ==> r == rows
  {
    if |rows| == 0 then []
    else if rows[0].id == id then WithoutId(rows[1..], id)
    else [rows[0]] + WithoutId(rows[1..], id)
  }
}

=== FILE: team_manager.dfy ===
/** The team list on the settings page: one role selector per profile,
    disabled on the caller's own row and on the row being saved. */
module TeamManager {
  import opened Basics
  import opened Store
  import opened UserRole
  import opened Admin

  /** The selector's options, in display order. */
  const ROLE_OPTIONS: seq<string> := [PENDING_ROLE, VIEWER, EDITOR, ADMIN]

  /** `disabled={loadingId === profile.id || profile.id === currentUserId}`. */
  function SelectorEnabled(profileId: UserId, currentUserId: UserId, loadingId: Option<UserId>): (enabled: bool)
    ensures enabled ==> profileId != currentUserId
    ensures enabled <==> profileId != currentUserId && loadingId != Some(profileId)
  {
    !(loadingId == Some(profileId) || profileId == currentUserId)
  }

  /** Rows awaiting approval are highlighted. */
  function Highlighted(p: Profile): (h: bool)
    ensures h <==> p.role == PENDING_ROLE
  {
    p.role == PENDING_ROLE
  }

  /** `handleRoleChange` after picking option `choice` on the row of
      `profileId`; a disabled selector produces no change event. */
  function ChangeRole(
    s: Store, currentUserId: UserId, profileId: UserId, loadingId: Option<UserId>, choice: nat, updateOk: bool)
    : (r: Store)
    requires choice < |ROLE_OPTIONS|
    ensures !SelectorEnabled(profileId, currentUserId, loadingId) ==> r == s
    ensures SelectorEnabled(profileId, currentUserId, loadingId) ==>
      r == UpdateUserRole(s, Some(currentUserId), profileId, ROLE_OPTIONS[choice], updateOk).store
  {
    if SelectorEnabled(profileId, currentUserId, loadingId)
    then UpdateUserRole(s, Some(currentUserId), profileId, ROLE_OPTIONS[choice], updateOk).store
    else s
  }

  /** Through this screen nobody changes their own role. */
  lemma OwnRoleUnchanged(
    s: Store, currentUserId: UserId, profileId: UserId, loadingId: Option<UserId>, choice: nat, updateOk: bool)
    requires choice < |ROLE_OPTIONS|
    ensures RoleOf(ChangeRole(s, currentUserId, profileId, loadingId, choice, updateOk), currentUserId)
      == RoleOf(s, currentUserId)
  {
  }

  /** Every role this screen writes is one of the four known roles. */
  lemma WritesKnownRoles(
    s: Store, currentUserId: UserId, profileId: UserId, loadingId: Option<UserId>, choice: nat, updateOk: bool)
    requires choice < |ROLE_OPTIONS|
    ensures var r := ChangeRole(s, currentUserId, profileId, loadingId, choice, updateOk);
      forall u :: u in r.profiles && r.profiles[u].role != s.profiles[u].role ==> r.profiles[u].role in ROLE_OPTIONS
  {
  }

  /** Since an admin cannot demote themself here, an admin who uses only this
      screen keeps admin rights: the lockout of a sole admin needs the
      action to be called some other way. */
  lemma AdminKeepsRights(
    s: Store, currentUserId: UserId, profileId: UserId, loadingId: Option<UserId>, choice: nat, updateOk: bool)
    requires choice < |ROLE_OPTIONS| && RoleOf(s, currentUserId) == ADMIN
    ensures DeriveRole(ChangeRole(s, currentUserId, profileId, loadingId, choice, updateOk), Some(currentUserId)).isAdmin
  {
  }
}

=== FILE: text.dfy ===
/** String helpers with JavaScript semantics: `Array.join`, `String.split` on
    one character, `slice(0, n)`, `slice(-n)` and `Number.toString()` on
    non-negative integers, together with the facts the rest of the model
    needs about them. */
module Text {

  /** `parts.join(sep)` for a one-character separator. */
  function JoinWith(parts: seq<string>, sep: char): string
  {
    if |parts| == 0 then ""
    else if |parts| == 1 then parts[0]
    else parts[0] + [sep] + JoinWith(parts[1..], sep)
  }

  /** Position of the first `c` in `s`, or `|s|` when there is none. */
  function IndexOf(s: string, c: char): (i: nat)
    ensures i <= |s|
    ensures i < |s| ==> s[i] == c
    ensures forall j :: 0 <= j < i ==> s[j] != c
  {
    if |s| == 0 then 0
    else if s[0] == c then 0
    else 1 + IndexOf(s[1..], c)
  }

  /** `s.split(c)`: the pieces between occurrences of `c`; always at least one. */
  function SplitOn(s: string, c: char): (parts: seq<string>)
    ensures |parts| >= 1
    decreases |s|
  {
    var i := IndexOf(s, c);
    if i == |s| then [s] else [s[..i]] + SplitOn(s[i + 1..], c)
  }

  /** `s.slice(0, n)`: the first `n` characters, or all of a shorter string. */
  function Prefix(s: string, n: nat): (r: string)
    ensures |r| == if |s| <= n then |s| else n
    ensures r <= s
  {
    if |s| <= n then s else s[..n]
  }

  /** `s.slice(-n)` for `n > 0`: the last `n` characters, or all of a shorter string. */
  function Last(s: string, n: nat): (r: string)
    ensures |r| == if |s| <= n then |s| else n
    ensures forall i :: 0 <= i < |r| ==> r[i] == s[|s| - |r| + i]
  {
    if |s| <= n then s else s[|s| - n..]
  }

  /** `sub` occurs somewhere inside `s`. */
  ghost predicate IsInfix(sub: string, s: string) {
    exists pre: string, post: string :: s == pre + sub + post
  }

  function DigitChar(d: nat): char
    requires d < 10
  {
    "0123456789"[d]
  }

  /** `n.toString()` for a non-negative integer: decimal, no leading zeros. */
  function Decimal(n: nat): (r: string)
    ensures |r| >= 1
  {
    if n < 10 then [DigitChar(n)] else Decimal(n / 10) + [DigitChar(n % 10)]
  }

  function Pow10(k: nat): (p: nat)
    ensures p >= 1
  {
    if k == 0 then 1 else 10 * Pow10(k - 1)
  }

  // ---------------------------------------------------------------------
  // split / join

  lemma IndexOfAbsent(s: string, c: char)
    requires c !in s
    ensures IndexOf(s, c) == |s|
  {
  }

  lemma IndexOfFirst(a: string, c: char, b: string)
    requires c !in a
    ensures IndexOf(a + [c] + b, c) == |a|
  {
    var s := a + [c] + b;
    assert s[|a|] == c;
    assert forall j :: 0 <= j < |a| ==> s[j] == a[j];
  }

  /** Splitting a join on the same separator gives the parts back, provided
      no part contains the separator. */
  lemma {:induction false} SplitOnJoin(parts: seq<string>, c: char)
    requires |parts| >= 1
    requires forall k :: 0 <= k < |parts| ==> c !in parts[k]
    ensures SplitOn(JoinWith(parts, c), c) == parts
    decreases |parts|
  {
    if |parts| == 1 {
      IndexOfAbsent(parts[0], c);
    } else {
      var rest := JoinWith(parts[1..], c);
      assert JoinWith(parts, c) == parts[0] + [c] + rest;
      SplitOnCons(parts[0], c, rest);
      SplitOnJoin(parts[1..], c);
      assert parts == [parts[0]] + parts[1..];
    }
  }

  /** Splitting at the first separator. */
  lemma SplitOnCons(a: string, c: char, rest: string)
    requires c !in a
    ensures SplitOn(a + [c] + rest, c) == [a] + SplitOn(rest, c)
  {
    var s := a + [c] + rest;
    IndexOfFirst(a, c, rest);
    assert s[..|a|] == a;
    assert s[|a| + 1..] == rest;
  }

  /** Joining two non-empty lists is joining their joins. */
  lemma {:induction false} JoinAppend(a: seq<string>, b: seq<string>, c: char)
    requires |a| >= 1 && |b| >= 1
    ensures JoinWith(a + b, c) == JoinWith(a, c) + [c] + JoinWith(b, c)
    decreases |a|
  {
    if |a| == 1 {
      assert (a + b)[1..] == b;
    } else {
      assert (a + b)[1..] == a[1..] + b;
      JoinAppend(a[1..], b, c);
    }
  }

  /** Every character of a join is the separator or comes from one of the parts. */
  lemma {:induction false} JoinChars(parts: seq<string>, sep: char, x: char)
    requires x != sep
    requires forall k :: 0 <= k < |parts| ==> x !in parts[k]
    ensures x !in JoinWith(parts, sep)
    decreases |parts|
  {
    if |parts| > 1 {
      JoinChars(parts[1..], sep, x);
    }
  }

  // ---------------------------------------------------------------------
  // decimal suffixes

  lemma LastAppend(s: string, d: char, k: nat)
    requires k >= 1
    ensures Last(s + [d], k) == Last(s, k - 1) + [d]
  {
  }

  /** `n` and `m` agree on their last `k` decimal digits. */
  predicate SameLowDigits(n: nat, m: nat, k: nat)
    decreases k
  {
    k == 0 || (n % 10 == m % 10 && SameLowDigits(n / 10, m / 10, k - 1))
  }

  /** `n` is written with at least `k` decimal digits. */
  predicate HasDigits(n: nat, k: nat)
    decreases k
  {
    k <= 1 || (n >= 10 && HasDigits(n / 10, k - 1))
  }

  /** The last `k` characters of two numbers written with at least `k` digits
      are equal when the numbers agree on their last `k` digits. */
  lemma {:induction false} LastDigitsAgree(n: nat, m: nat, k: nat)
    requires HasDigits(n, k) && HasDigits(m, k)
    requires SameLowDigits(n, m, k)
    ensures Last(Decimal(n), k) == Last(Decimal(m), k)
    decreases k
  {
    if k == 1 {
      LastOfDecimal(n);
      LastOfDecimal(m);
    } else if k >= 2 {
      var dn, dm := DigitChar(n % 10), DigitChar(m % 10);
      assert dn == dm;
      LastDigitsAgree(n / 10, m / 10, k - 1);
      var rest := Last(Decimal(n / 10), k - 1);
      assert rest == Last(Decimal(m / 10), k - 1);
      LastOfLongDecimal(n, k);
      LastOfLongDecimal(m, k);
      assert Last(Decimal(n), k) == rest + [dn];
    }
  }

  /** For a number of at least two digits, its last `k` characters are the
      last `k - 1` of the number without its last digit, then that digit. */
  lemma LastOfLongDecimal(n: nat, k: nat)
    requires k >= 2 && HasDigits(n, k)
    ensures Last(Decimal(n), k) == Last(Decimal(n / 10), k - 1) + [DigitChar(n % 10)]
  {
    assert Decimal(n) == Decimal(n / 10) + [DigitChar(n % 10)];
    LastAppend(Decimal(n / 10), DigitChar(n % 10), k);
  }

  lemma LastOfDecimal(n: nat)
    ensures Last(Decimal(n), 1) == [DigitChar(n % 10)]
  {
    if n >= 10 {
      var d := Decimal(n / 10);
      assert Decimal(n) == d + [DigitChar(n % 10)];
      LastAppend(d, DigitChar(n % 10), 1);
      assert Last(d, 0) == [];
    } else {
      assert n % 10 == n;
    }
  }

  /** Distinct digits are written with distinct characters. */
  lemma DigitCharInjective(a: nat, b: nat)
    requires a < 10 && b < 10
    ensures DigitChar(a) == DigitChar(b) <==> a == b
  {
  }

  /** The converse of `LastDigitsAgree`: equal last `k` characters mean equal
      last `k` digits. */
  lemma {:induction false} LastDigitsDetermine(n: nat, m: nat, k: nat)
    requires HasDigits(n, k) && HasDigits(m, k)
    requires Last(Decimal(n), k) == Last(Decimal(m), k)
    ensures SameLowDigits(n, m, k)
    decreases k
  {
    if k == 1 {
      LastOfDecimal(n);
      LastOfDecimal(m);
      DigitCharInjective(n % 10, m % 10);
    } else if k >= 2 {
      LastOfLongDecimal(n, k);
      LastOfLongDecimal(m, k);
      var ln, lm := Last(Decimal(n / 10), k - 1), Last(Decimal(m / 10), k - 1);
      assert ln + [DigitChar(n % 10)] == lm + [DigitChar(m % 10)];
      assert |ln| == |lm|;
      assert ln == (ln + [DigitChar(n % 10)])[..|ln|];
      assert lm == (lm + [DigitChar(m % 10)])[..|lm|];
      DigitCharInjective(n % 10, m % 10);
      LastDigitsDetermine(n / 10, m / 10, k - 1);
    }
  }

  /** Quotient and remainder are the unique pair that rebuilds `n`. */
  lemma DivModUnique(n: int, d: int, q: int, r: int)
    requires d > 0 && 0 <= r < d && n == d * q + r
    ensures n / d == q && n % d == r
  {
    var q', r' := n / d, n % d;
    assert d * (q' - q) == r - r';
    MultipleInsideIsZero(d, q' - q);
  }

  /** The only multiple of `d` strictly between `-d` and `d` is zero. */
  lemma MultipleInsideIsZero(d: int, k: int)
    requires d > 0 && -d < d * k < d
    ensures k == 0
  {
    MultipleAtLeast(d, k);
  }

  /** A non-zero multiple of `d` is at least `d` away from zero. */
  lemma MultipleAtLeast(d: int, k: int)
    requires d > 0
    ensures k >= 1 ==> d * k >= d
    ensures k <= -1 ==> d * k <= -d
  {
    if k >= 1 {
      assert d * k == d * (k - 1) + d;
    } else if k <= -1 {
      assert d * k == d * (k + 1) - d;
    }
  }

  /** The remainder by `10p` is the last digit plus ten times the remainder
      of the rest by `p`. */
  lemma ModTenTimes(n: nat, p: nat)
    requires p >= 1
    ensures n % (10 * p) == n % 10 + 10 * ((n / 10) % p)
  {
    var q, r := (n / 10) / p, (n / 10) % p;
    assert n / 10 == p * q + r;
    assert n == 10 * (n / 10) + n % 10;
    assert n == (10 * p) * q + (10 * r + n % 10);
    DivModUnique(n, 10 * p, q, 10 * r + n % 10);
  }

  /** Agreeing on the last `k` decimal digits is agreeing modulo `10^k`. */
  lemma {:induction false} SameLowDigitsMod(n: nat, m: nat, k: nat)
    ensures SameLowDigits(n, m, k) <==> n % Pow10(k) == m % Pow10(k)
    decreases k
  {
    if k > 0 {
      var p := Pow10(k - 1);
      SameLowDigitsMod(n / 10, m / 10, k - 1);
      ModTenTimes(n, p);
      ModTenTimes(m, p);
      if n % Pow10(k) == m % Pow10(k) {
        DivModUnique(n % Pow10(k), 10, (n / 10) % p, n % 10);
        DivModUnique(m % Pow10(k), 10, (m / 10) % p, m % 10);
      }
    }
  }

  /** A timestamp and the timestamp one million later share their last six
      decimal digits, and both have at least six of them. */
  lemma MillionLater(n: nat)
    requires n >= 100000
    ensures HasDigits(n, 6) && HasDigits(n + 1000000, 6)
    ensures SameLowDigits(n, n + 1000000, 6)
  {
    var m := n + 1000000;
    assert m / 10 == n / 10 + 100000;
    assert m / 100 == n / 100 + 10000;
    assert m / 1000 == n / 1000 + 1000;
    assert m / 10000 == n / 10000 + 100;
    assert m / 100000 == n / 100000 + 10;
    assert n / 10 / 10 == n / 100;
    assert n / 100 / 10 == n / 1000;
    assert n / 1000 / 10 == n / 10000;
    assert n / 10000 / 10 == n / 100000;
    assert m / 10 / 10 == m / 100;
    assert m / 100 / 10 == m / 1000;
    assert m / 1000 / 10 == m / 10000;
    assert m / 10000 / 10 == m / 100000;
  }
}

=== FILE: update_client.dfy ===
/** The client-edit server action: overwrite the contact details of a
    client the caller owns. */
module UpdateClient {
  import opened Basics
  import opened Store

  const NOT_AUTHORIZED := "Non autorisé"
  const UPDATED := "Client mis à jour avec succès"

  datatype ClientEdit = ClientEdit(id: Id, name: string, email: string, phone: string, address: string, ice: string)

  /** `updateClient`: the update is filtered on the id and on the caller as
      owner, so a client of someone else (or one with no owner) matches no row
      and is left alone without an error. */
  function UpdateClient(s: Store, user: Option<UserId>, edit: ClientEdit, updateErr: Option<string>): (r: Step<Reply>)
    ensures user.None? ==> r == Step(s, Reply(false, NOT_AUTHORIZED))
    ensures user.Some? && updateErr.Some? ==> r == Step(s, Reply(false, updateErr.value))
    ensures r.out.success <==> user.Some? && updateErr.None?
    ensures r.out.success ==> r.out.message == UPDATED
    ensures r.store == s.(clients := r.store.clients)
    ensures r.store.clients.Keys == s.clients.Keys
    ensures forall c :: c in s.clients && c != edit.id ==> r.store.clients[c] == s.clients[c]
    ensures forall c :: c in s.clients ==>
      r.store.clients[c].ownerId == s.clients[c].ownerId && r.store.clients[c].workspaceId == s.clients[c].workspaceId
    ensures r.out.success && edit.id in s.clients && s.clients[edit.id].ownerId == user ==>
      r.store.clients[edit.id] == s.clients[edit.id].(name := edit.name, email := edit.email, phone := edit.phone,
                                                      address := edit.address, ice := edit.ice)
  {
    if user.None? then Step(s, Reply(false, NOT_AUTHORIZED))
    else if updateErr.Some? then Step(s, Reply(false, updateErr.value))
    else
      var c := edit.id;
      var clients := if c in s.clients && s.clients[c].ownerId == user
        then s.clients[c := s.clients[c].(name := edit.name, email := edit.email, phone := edit.phone,
                                          address := edit.address, ice := edit.ice)]
        else s.clients;
      Step(s.(clients := clients), Reply(true, UPDATED))
  }

  /** Only the owner's edit changes a client. */
  lemma OnlyOwnerEdits(s: Store, user: Option<UserId>, edit: ClientEdit, updateErr: Option<string>)
    ensures var r := UpdateClient(s, user, edit, updateErr);
      r.store != s ==> edit.id in s.clients && user.Some? && s.clients[edit.id].ownerId == user
  {
  }

  /** A client created by the quick new-invoice page has no owner, so this
      action reports success on it but never changes it. */
  lemma WorkspaceClientsAreNotEditable(s: Store, user: Option<UserId>, edit: ClientEdit)
    requires edit.id in s.clients && s.clients[edit.id].ownerId.None?
    ensures var r := UpdateClient(s, user, edit, None);
      r.store == s && (user.Some? ==> r.out.success)
  {
  }
}

=== FILE: user_role.dfy ===
/** The client-side role hook: the signed-in user's role as read from their
    profile, and the three flags the pages branch on. */
module UserRole {
  import opened Basics
  import opened Store

  const ADMIN := "admin"
  const EDITOR := "editor"
  const VIEWER := "viewer"
  const PENDING_ROLE := "pending"

  /** What `useUserRole` returns once loading is over. */
  datatype RoleView = RoleView(role: Option<string>, isAdmin: bool, isEditor: bool, isViewer: bool)

  function FlagsFor(role: Option<string>): (v: RoleView)
    ensures v.role == role
    ensures v.isAdmin <==> role == Some(ADMIN)
    ensures v.isEditor <==> role == Some(EDITOR)
    ensures v.isViewer <==> role == Some(VIEWER)
  {
    RoleView(role, role == Some(ADMIN), role == Some(EDITOR), role == Some(VIEWER))
  }

  /** The "add" button of the clients and products screens: hidden for
      viewers only, so a signed-in user whose role is unknown (or 'pending')
      still sees it. */
  function AddButtonShown(flags: RoleView): (shown: bool)
    ensures flags == FlagsFor(flags.role) ==> (shown <==> flags.role != Some(VIEWER))
    ensures flags.isAdmin && flags == FlagsFor(flags.role) ==> shown
  {
    !flags.isViewer
  }

  /** `useUserRole` for the session's `user`: no role without a user;
      otherwise the profile's role, falling back to 'viewer' when the profile
      row is missing or its role is empty. */
  function DeriveRole(s: Store, user: Option<UserId>): (v: RoleView)
    ensures user.None? ==> v.role.None? && !v.isAdmin && !v.isEditor && !v.isViewer
    ensures user.Some? ==> v.role.Some? && v.role.value != ""
    ensures user.Some? ==> (v.role.value == RoleOf(s, user.value) || (RoleOf(s, user.value) == "" && v.role.value == VIEWER))
    ensures v.isAdmin <==> user.Some? && RoleOf(s, user.value) == ADMIN
    ensures v.isEditor <==> user.Some? && RoleOf(s, user.value) == EDITOR
    ensures v.isViewer <==> user.Some? && (RoleOf(s, user.value) == VIEWER || RoleOf(s, user.value) == "")
  {
    if user.None? then FlagsFor(None)
    else FlagsFor(Some(OrElse(RoleOf(s, user.value), VIEWER)))
  }

  /** At most one of the three flags is ever set. */
  lemma FlagsExclusive(s: Store, user: Option<UserId>)
    ensures var v := DeriveRole(s, user);
      !(v.isAdmin && v.isEditor) && !(v.isAdmin && v.isViewer) && !(v.isEditor && v.isViewer)
  {
  }

  /** A signed-in user with no profile row is treated as a viewer. */
  lemma MissingProfileIsViewer(s: Store, user: UserId)
    requires user !in s.profiles
    ensures DeriveRole(s, Some(user)) == RoleView(Some(VIEWER), false, false, true)
  {
  }

  /** A 'pending' user, or one whose role is any text other than the three
      known ones, gets no flag at all. */
  lemma UnknownRoleHasNoFlag(s: Store, user: UserId)
    requires RoleOf(s, user) != "" && RoleOf(s, user) != ADMIN && RoleOf(s, user) != EDITOR && RoleOf(s, user) != VIEWER
    ensures var v := DeriveRole(s, Some(user));
      v.role == Some(RoleOf(s, user)) && !v.isAdmin && !v.isEditor && !v.isViewer
  {
  }
}
